=== FILE: README.md ===
# GreenCycle pickup core in Dafny

GreenCycle is a scrap-pickup service. A customer books a pickup of recyclable
scrap (newspaper, metal, plastic, e-waste and so on) for a date and a time
slot. An admin assigns a field agent, who starts the pickup, weighs the
items and completes it. On completion the customer is credited the final
amount and loyalty points. The customer can then rate the agent. Categories
carry a price per kilogram and a price history. Accounts sign in with a
one-time code sent to their phone; staff can also sign in with a password.

This project models the server's booking lifecycle and the parts of the
clients that state rules about it:

- **The data model.** The booking, category, user, notification and
  announcement documents with their enums, defaults and save hooks:
  `BookingModel`, `CategoryModel`, `UserModel`, `NotificationModel` and
  `AnnouncementModel`.
- **The store.** `Database.Db` is a class holding one sequence per
  collection and the next free key. Route handlers are methods that change
  its fields.
- **The handlers.** Each handler's decision is a pure outcome function, for
  example `BookingRoutes.CancelOutcome`, with the access checks of
  `AuthMiddleware` included. The handler method commits that outcome to the
  store and says in its contract that the new state is the outcome applied
  to the old one. Properties of the handlers are proved as lemmas about the
  outcome functions.
- **Generic modules.** `Wrappers` holds `Option` and `Result`, `Seqs` holds
  sequence utilities and `Text` holds string utilities.
- **The client screens.** The mobile and web booking forms, the booking
  detail screen and the two sign-in screens are modelled as classes with
  their state fields where they keep state, and as functions elsewhere.
  Each screen is connected to the server's outcome functions by lemmas,
  for example "a booking the web form submits with its slot labels is
  refused by the server".

## Model

| member | source | states |
|---|---|---|
| BookingModel.ParseStatus | backend/models/Booking.js:31-35 | a status string is accepted exactly when it names one of the six states, and then yields that state |
| BookingModel.ParseTimeSlot | backend/models/Booking.js:25-29 | a time slot is accepted iff it is one of the six enum windows, and the parsed slot names the input |
| BookingModel.ParsePaymentMethod | backend/models/Booking.js:39-43 | a payment method is accepted exactly when it is cash, upi or razorpay, and then yields that method |
| BookingModel.ParseAssembledId | backend/models/Booking.js:70-75 | "GC", three two-digit fields and an upper-case base-36 suffix of at most five characters read back into their parts |
| BookingModel.BookingIdFor | backend/models/Booking.js:66-78 | a generated bookingId starts with 'GC' |
| BookingModel.BookingIdShape | backend/models/Booking.js:66-78 | a generated bookingId decodes to the save date's two-digit year, month and day and the upper-cased random suffix of at most five characters |
| BookingModel.PreSave | backend/models/Booking.js:66-92 | the save hooks give a document without an id a non-empty id and keep an existing one; when the status was modified they append one history entry for it and stamp completedAt for 'completed'; nothing else changes |
| BookingModel.PreSaveKeepsInvariant | backend/models/Booking.js:80-92 | a first save, or a save of an edited stored booking that leaves the history alone, yields a booking with an id whose history ends with its current status and which has completedAt when completed |
| BookingModel.ResaveIsIdentity | backend/models/Booking.js:67-92 | re-saving an unchanged stored booking changes nothing: the id is kept and no history entry is added |
| CategoryModel.ParseUnit | backend/models/Category.js:9 | a unit is accepted exactly when it is kg, piece or unit |
| CategoryModel.DropRun | backend/models/Category.js:26 | dropping a run of non-slug characters removes a prefix of them only and stops at a letter or digit |
| CategoryModel.Collapse | backend/models/Category.js:26 | the replacement leaves only lower-case letters, digits and single dashes, never two dashes in a row |
| CategoryModel.Slugify | backend/models/Category.js:26 | the slug of a name is lower-case letters, digits and single dashes |
| CategoryModel.CollapseOfSlug | backend/models/Category.js:26 | the replacement leaves a slug unchanged |
| CategoryModel.LowerOfSlug | backend/models/Category.js:26 | lower-casing leaves a slug unchanged |
| CategoryModel.SlugifyIdempotent | backend/models/Category.js:26 | slugifying a slug gives it back |
| CategoryModel.CollapseKeepsAlnum | backend/models/Category.js:26 | the replacement keeps every lower-case letter and digit, in order |
| CategoryModel.SlugNotInjective | backend/models/Category.js:26 | two different names can share a slug ("A B" and "A-B"), so the unique index can refuse a new category |
| CategoryModel.PreSave | backend/models/Category.js:23-33 | the hook regenerates the slug exactly when the name was modified and appends one price point exactly when the price was modified; nothing else changes |
| CategoryModel.PreSaveKeepsStored | backend/models/Category.js:23-33 | saving keeps a stored category's slug equal to the slug of its name and its last price point equal to its price |
| CategoryModel.PreSaveHistoryAppendOnly | backend/models/Category.js:29-31 | the price history only grows, by at most one entry per save |
| CategoryModel.PreSaveSlugOfName | backend/models/Category.js:23-27 | after a save the slug is the slug of the name, whether the name changed or the stored slug was kept |
| CategoryModel.PreSavePriceLast | backend/models/Category.js:29-31 | after a save the last price point is the current price, whether or not the price changed |
| UserModel.ParseRole | backend/models/User.js:19-23 | a role string is accepted exactly when it is customer, agent or admin, and then yields that role |
| UserModel.NewUser | backend/models/User.js:14-43 | a new account has the schema's defaults: customer, active, unverified, zero counters, rating 5.0, available, no addresses, password, code or referral code |
| UserModel.ReferralCodeFor | backend/models/User.js:48 | a referral code is "GC", the phone's last six characters, then at most four upper-case base-36 characters |
| UserModel.PreSave | backend/models/User.js:45-51 | the hook assigns a referral code exactly when there is none and changes nothing else |
| UserModel.PreSaveStored | backend/models/User.js:45-51 | a valid document is stored with a referral code |
| UserModel.PreSaveReferralStable | backend/models/User.js:47 | a referral code, once assigned, survives every later save |
| UserModel.Sanitized | backend/middleware/auth.js:17 | the projection `-otp -otpExpiry -password` hides exactly those three fields and keeps the rest |
| NotificationModel.ParseType | backend/models/Notification.js:7-11 | a type string is accepted exactly when it is one of the seven notification types |
| NotificationModel.NewNotification | backend/models/Notification.js:3-17 | a new notification is of type general, unread and not a broadcast, with the given recipient, title and body |
| AnnouncementModel.ParseTarget | backend/models/Announcement.js:6-10 | a target is accepted exactly when it is all, users or agents |
| AnnouncementModel.ParsePriority | backend/models/Announcement.js:11-15 | a priority is accepted exactly when it is low, medium, high or critical |
| AnnouncementModel.MakeAnnouncement | backend/models/Announcement.js:3-21 | creation succeeds iff title and content are present and any given target and priority are in their enums; a created announcement is active, targets all and has medium priority by default |
| AuthMiddleware.BearerToken | backend/middleware/auth.js:8-10 | a token is taken exactly when the header starts with "Bearer" and its second space-separated field is non-empty, and it is that field |
| AuthMiddleware.BearerRoundTrip | backend/middleware/auth.js:8-10 | a header "Bearer " + token gives the token back, for any token without spaces |
| AuthMiddleware.Protect | backend/middleware/auth.js:5-31 | no token, a token that does not verify, an unknown account and a deactivated account each give their own 401 message ('Not authorized, no token', 'Not authorized, token invalid', 'User not found', 'Account deactivated'); the request passes iff the token names an existing active account, which is then the caller, with otp, expiry and password hidden; every refusal is a 401 |
| AuthMiddleware.Authorize | backend/middleware/auth.js:34-44 | the caller passes iff their role is in the list; otherwise a 403 naming the role |
| AuthMiddleware.DeactivatedNeverPasses | backend/middleware/auth.js:23-25 | a deactivated account never authenticates, whatever the header and token verifier |
| Database.FindBooking | backend/routes/bookings.js:182 | `findById` finds a booking with the key, or reports that none has it |
| Database.FindUser | backend/middleware/auth.js:17 | `findById` finds the first account with the key, or reports that none has it |
| Database.FindUserByPhone | backend/routes/auth.js:30 | `findOne({ phone })` finds the first account with the phone, or reports that none has it |
| Database.Paginate | backend/routes/users.js:24-25 | `limit(limit).skip((page-1)*limit)` returns exactly the contiguous window that starts at the skip count and is `min(|limit|, what is left)` long (everything from the skip when the limit is 0), and fails exactly for a negative skip |
| Database.PageOfSortedDesc | backend/routes/users.js:22-25 | a page of a list sorted newest first is drawn from that list and is itself sorted newest first |
| Database.CommitBooking | backend/routes/bookings.js:190 | saving an edit replaces exactly the edited booking, keeps the store invariant, and answers with the saved document or the outcome's error |
| Database.SaveUser | backend/routes/users.js:64 | saving an account replaces the stored one with the same key or appends it with the next key, keeping the store invariant |
| Database.FindCategory | backend/routes/bookings.js:24 | `findById` finds a category with the key, or reports that none has it |
| Database.FindNotification | backend/routes/notifications.js:29 | `findById` finds a notification with the key, or reports that none has it |
| Database.FindAnnouncement | backend/routes/announcements.js:49 | `findById` finds an announcement with the key, or reports that none has it |
| Database.Apply | backend/routes/bookings.js:190 | an edit replaces exactly the booking at its index; a refused edit leaves the collection as it was |
| Database.InsertBooking | backend/routes/bookings.js:39 | `Booking.create` appends the new booking under the next free key and keeps the store invariant |
| Database.InsertUser | backend/routes/auth.js:32 | `User.create` appends the new account under the next free key and keeps the store invariant |
| Database.InsertCategory | backend/routes/categories.js:46 | `Category.create` appends the new category under the next free key and keeps the store invariant |
| Database.UpsertUser | backend/routes/auth.js:80 | `user.save()` replaces the account with the same key and nothing else, or appends it when no account has that key |
| Users.SanitizeAll | backend/routes/users.js:22 | every listed account is shown with otp, expiry and password hidden |
| Users.Page | backend/routes/users.js:13-25 | the page is exactly the window at the skip count of the matching accounts sorted newest first, as long as the limit and the number of matches allow; it fails only for a negative skip |
| Users.Matches | backend/routes/users.js:12-19 | the role filter applies only when a role is given and the search only when a term is given, so no filters match every account |
| Users.ListUsers | backend/routes/users.js:8-38 | admin only; the page is the sanitised filtered window with defaults page 1 and limit 50, its length is fixed by `total`, the skip and the limit, and `total` counts every matching account |
| Users.UnfilteredListsEveryone | backend/routes/users.js:10-33 | with no filters and at most 50 accounts the admin sees every account and the total is their number |
| Users.GetUser | backend/routes/users.js:42-52 | admin only; 'User not found' for an unknown id; otherwise the account with that key, sanitised |
| Users.Toggled | backend/routes/users.js:63-64 | toggling flips isActive and, for a stored account, changes nothing else |
| Users.ToggleTwiceRestores | backend/routes/users.js:63 | toggling twice gives back the stored account |
| Users.ToggleOutcome | backend/routes/users.js:56-70 | admin only; 'User not found' for an unknown id; otherwise the found account with isActive flipped, still a valid stored account |
| Users.ToggleActive | backend/routes/users.js:56-70 | the handler commits exactly the outcome: users change only by the flipped account on success and not at all on an error |
| BookingRoutes.Snapshot | backend/routes/bookings.js:27-36 | a priced line snapshots the category's id, name and unit price, keeps the requested weight, has no weighed weight, and its amount is price × weight |
| BookingRoutes.Priced | backend/routes/bookings.js:24-25 | a request whose category is unknown contributes nothing; one whose category exists contributes exactly its snapshot |
| BookingRoutes.PricedItems | backend/routes/bookings.js:21-37 | creation stores at most one item per requested item |
| BookingRoutes.PricedItemsSnapshot | backend/routes/bookings.js:23-37 | every priced line refers to an existing category and carries that category's name and price, with amount = price × weight |
| BookingRoutes.PricedItemsAllResolve | backend/routes/bookings.js:23-37 | when every category exists, the lines are the requests in order, with their categories and weights |
| BookingRoutes.PricedItemsNoneResolve | backend/routes/bookings.js:25 | when no category exists, the booking gets no lines at all |
| BookingRoutes.EstimateIsPriceTimesWeight | backend/routes/bookings.js:27-28 | the estimate, the sum of the line amounts, equals the sum of price × estimated weight |
| BookingRoutes.EstimateIsSum | backend/routes/bookings.js:20-37 | the loop's running estimate, one line amount added per resolved request, is the sum of the stored lines' amounts |
| BookingRoutes.PriceItems | backend/routes/bookings.js:20-37 | the pricing loop produces exactly the priced lines and their amounts' sum as the estimate |
| BookingRoutes.CreatedBooking | backend/routes/bookings.js:39-49 | `Booking.create` succeeds iff the street address is present, a date is given, the slot is in the enum and any payment method is in the enum; the stored booking satisfies the booking invariant and has the new key |
| BookingRoutes.CreatedBookingContents | backend/routes/bookings.js:39-49 | a created booking is pending with one history entry, has the given user, lines, estimate, address, date and slot, cash by default, no agent, zero final amount and a pending payment |
| BookingRoutes.AddPickup | backend/routes/bookings.js:61 | `$inc: { totalPickups: 1 }` increments the caller's pickup counter by one and changes no other field and no other account |
| BookingRoutes.StoreBooking | backend/routes/bookings.js:39-61 | the new booking is appended and the customer's pickup count incremented, keeping the store invariant |
| BookingRoutes.CreateBooking | backend/routes/bookings.js:11-71 | no items gives 'At least one item is required'; otherwise the reply is the created booking from the priced lines and their sum; on success that booking is appended with a fresh key and the caller's pickups incremented, on an error nothing changes |
| BookingRoutes.NewestPage | backend/routes/bookings.js:82-85 | `sort('-createdAt').limit().skip()`: exactly the window at the skip count of the matches sorted newest first, of the page size the limit allows; fails exactly for a negative skip |
| BookingRoutes.MyBookings | backend/routes/bookings.js:75-99 | the caller's own bookings (optionally of one status): exactly the page-sized window of them sorted newest first, page 1 and limit 20 when absent; the total counts all of them |
| BookingRoutes.AdminMatch | backend/routes/bookings.js:107-130 | each filter applies only when given ('all' is no status filter), so a query without filters matches every booking |
| BookingRoutes.AllBookings | backend/routes/bookings.js:103-152 | admin only (any other role gets the 403 of `authorize`); the page, page 1 and limit 50 when absent, is exactly the page-sized window of the bookings matching the status, day and search filters, sorted newest first; the total counts all matches |
| BookingRoutes.GetBooking | backend/routes/bookings.js:156-175 | 'Booking not found' for an unknown id; a customer sees only their own booking ('Not authorized' otherwise); admins and agents see any |
| BookingRoutes.StatusOutcome | backend/routes/bookings.js:179-190 | admin or agent only; 'Booking not found' for an unknown id; succeeds iff the status is in the enum, then sets it and replaces the cancel reason only when one is given; the saved document is the stored booking with exactly those two fields changed, passed through the save hooks (history entry, completedAt) |
| BookingRoutes.StatusRouteReopensCompleted | backend/routes/bookings.js:188-190 | the status route has no transition check: an agent can move a completed booking back to pending, and the history records it |
| BookingRoutes.AssignOutcome | backend/routes/bookings.js:218-229 | admin only; 'Booking not found' for an unknown id; otherwise the saved document is the stored booking with the agent and status 'assigned' set and nothing else changed, passed through the save hooks |
| BookingRoutes.CancelOutcome | backend/routes/bookings.js:248-265 | 'Booking not found', then 'Not authorized' for someone neither owner nor admin, then 'Cannot cancel this booking' when completed or cancelled; otherwise the saved document is the stored booking cancelled with the given reason or 'Cancelled by user', nothing else changed, passed through the save hooks |
| BookingRoutes.CancelNotRepeatable | backend/routes/bookings.js:259-261 | after a successful cancel, cancelling again is refused with 'Cannot cancel this booking' |
| BookingRoutes.EditsKeepInvariant | backend/routes/bookings.js:179-265 | the status, assign and cancel edits of a store whose bookings satisfy the invariant can be committed: the edited booking keeps it |
| BookingRoutes.UpdateStatus | backend/routes/bookings.js:179-214 | the handler commits exactly the status outcome and answers with it |
| BookingRoutes.Assign | backend/routes/bookings.js:218-244 | the handler commits exactly the assign outcome and answers with it |
| BookingRoutes.Cancel | backend/routes/bookings.js:248-271 | the handler commits exactly the cancel outcome and answers with it |
| BookingRoutes.RateOutcome | backend/routes/bookings.js:277-286 | 'Cannot rate this booking' for a missing or not completed booking; succeeds iff the rating is absent or within 1..5; the saved document is the stored booking with exactly rating and feedback replaced, passed through the save hooks (which change nothing more, as the status is unchanged) |
| BookingRoutes.RateKeepsInvariant | backend/routes/bookings.js:284-286 | a successful rating keeps the booking invariant |
| BookingRoutes.RatingsOf | backend/routes/bookings.js:290 | the ratings collected are exactly those of the agent's rated bookings, one per rated booking (their number is the count of the agent's rated bookings) |
| BookingRoutes.MeanRating | backend/routes/bookings.js:290-291 | the agent's mean rating exists iff the agent has a rated booking |
| BookingRoutes.RatingsOfSum | backend/routes/bookings.js:290-291 | the ratings collected add up to the sum of the ratings of the agent's rated bookings, taken over the whole collection |
| BookingRoutes.MeanRatingIsAverage | backend/routes/bookings.js:290-291 | the mean exists iff the agent has a rated booking, and is then the agent's rating total divided by the number of the agent's rated bookings |
| BookingRoutes.MeanRatingInScale | backend/routes/bookings.js:291 | with every stored rating within 1..5, the mean rating is within 1..5 |
| BookingRoutes.SetAgentRating | backend/routes/bookings.js:292 | `findByIdAndUpdate` sets the agent's rating and changes no other field and no other account |
| BookingRoutes.Rate | backend/routes/bookings.js:275-299 | the handler commits the rating outcome; with an agent, the agent's rating becomes the mean over the agent's rated bookings, after the save |
| AgentRoutes.AgentsNewestFirst | backend/routes/agents.js:12-14 | exactly the agent accounts, one per agent, newest first |
| AgentRoutes.ListAgents | backend/routes/agents.js:11-21 | admin only; one card per agent account, newest first, each holding only the id and the seven selected fields (name, phone, area, rating, availability, active flag, pickup count), so no password or pending code is returned |
| AgentRoutes.Promoted | backend/routes/agents.js:30-38 | an existing account becomes an agent with the given area and vehicle, a new name only when one is given, a re-hashed password only when one is given, and keeps its key, phone, addresses, status and referral code |
| AgentRoutes.NewAgent | backend/routes/agents.js:43-50 | a new agent is verified and active, with the request's name, phone, area and vehicle, the hashed password or 'agent123', zero counters and rating 5.0 |
| AgentRoutes.AgentOutcome | backend/routes/agents.js:25-56 | admin only; a known phone promotes that account (failing only when it is invalid), an unknown phone creates an agent (failing only without a phone); the result is a stored agent with the request's phone, area and vehicle |
| AgentRoutes.PromotionKeepsAccount | backend/routes/agents.js:29-40 | promoting a stored account keeps its key, referral code, addresses, earnings and loyalty points |
| AgentRoutes.CreateAgent | backend/routes/agents.js:25-56 | the handler answers with the outcome and saves exactly the promoted or created account, nothing on an error |
| AgentRoutes.Pickups | backend/routes/agents.js:60-79 | agent only; exactly the caller's bookings of the given status, or assigned and out for pickup when none is given, in scheduled-date order and as a permutation of the matches |
| AgentRoutes.FindAssigned | backend/routes/agents.js:85 | `findOne({ _id, agent })` finds the booking with the id only when it is assigned to the caller |
| AgentRoutes.StartOutcome | backend/routes/agents.js:83-97 | agent only; 'Booking not found' unless the booking is assigned to the caller; otherwise the saved document is the stored booking with status 'out_for_pickup' and nothing else changed, passed through the save hooks: a history entry unless it already was |
| AgentRoutes.Reweighed | backend/routes/agents.js:112-116 | each supplied weight becomes the line's weighed weight and its amount weight × stored unit price; more weights than lines fails validation |
| AgentRoutes.WeighedItems | backend/routes/agents.js:111-117 | no weights keeps the stored lines; otherwise the lines are reweighed |
| AgentRoutes.SettledAmount | backend/routes/agents.js:119 | the final amount is the one given when non-zero, else the sum of the line amounts |
| AgentRoutes.CompleteOutcome | backend/routes/agents.js:101-127 | agent only; 'Booking not found' unless assigned to the caller; otherwise completed with the reweighed lines, the settled amount and a completion time, and a cash booking's payment marked completed; the saved document is the stored booking with exactly those fields changed, passed through the save hooks |
| AgentRoutes.Settle | backend/routes/agents.js:130-132 | the customer's earnings grow by the amount and loyalty points by a tenth of it rounded down; nothing else changes |
| AgentRoutes.SettleNonDecreasing | backend/routes/agents.js:130-132 | for a non-negative amount no account's earnings or points decrease |
| AgentRoutes.SettleTwice | backend/routes/agents.js:130-132 | settling the same amount twice adds twice the amount to the customer's earnings |
| AgentRoutes.LoyaltyIsTenthRoundedDown | backend/routes/agents.js:131 | the points gained are the largest whole number not above a tenth of the amount |
| AgentRoutes.EditsKeepInvariant | backend/routes/agents.js:83-152 | the start, complete and photo edits of a store whose bookings satisfy the invariant keep it |
| AgentRoutes.Complete | backend/routes/agents.js:101-138 | the handler commits exactly the completion outcome and, on success, credits the customer with the final amount |
| AgentRoutes.CompleteTwiceCreditsTwice | backend/routes/agents.js:104-132 | the complete route does not check the status: completing an already completed pickup succeeds again and credits the customer's earnings a second time |
| AgentRoutes.PhotoOutcome | backend/routes/agents.js:142-152 | agent only; 'Booking not found' unless assigned to the caller; an uploaded file adds '/uploads/<name>' to the photos, no file changes nothing |
| AgentRoutes.Start | backend/routes/agents.js:83-97 | the handler commits exactly the start outcome and answers with it |
| AgentRoutes.AddPhoto | backend/routes/agents.js:142-158 | the handler commits exactly the photo outcome and answers with it |
| CategoryRoutes.ListActive | backend/routes/categories.js:8-15 | the public list is exactly the active categories, a permutation of them sorted by sortOrder |
| CategoryRoutes.ListAll | backend/routes/categories.js:19-26 | admin only; every category, as a permutation sorted by sortOrder |
| CategoryRoutes.ActiveListIsAdminListFiltered | backend/routes/categories.js:10-21 | a category is on the public list iff it is on the admin list and active |
| CategoryRoutes.GetCategory | backend/routes/categories.js:30-40 | the category with the id, or 'Category not found' |
| CategoryRoutes.Assign | backend/routes/categories.js:62 | `Object.assign` overwrites exactly the fields present in the body, slug and price history included (the name trimmed, the slug lower-cased), and keeps key, creation time and the rest |
| CategoryRoutes.SelectedUnit | backend/models/Category.js:9 | no unit keeps the current one; a given unit must be in the enum |
| CategoryRoutes.Blank | backend/models/Category.js:3-21 | an empty document has the schema defaults: kg, active, sortOrder 0, minQuantity 1, no price history |
| CategoryRoutes.CreateOutcome | backend/routes/categories.js:44-51 | admin only; succeeds iff a non-blank name, a price and a valid unit are given; the new category is stored with the trimmed name, the slug of that name whatever slug the body gave, and the body's price history (empty if none) extended by the price |
| CategoryRoutes.UpdateOutcome | backend/routes/categories.js:55-63 | admin only; 'Category not found' for an unknown id; the saved category is the assigned one after the save hook, and the update fails only for a blank name or a bad unit |
| CategoryRoutes.UpdateKeepsStored | backend/routes/categories.js:62-63 | an update keeps the key and a name; it keeps a stored category stored unless the body overrides the slug without renaming or the history without repricing; without a history in the body the old history is a prefix of the new |
| CategoryRoutes.UpdatePriceHistory | backend/routes/categories.js:62-63 | the history after an update is the body's history, else the stored one, extended by a price point exactly when the price changed |
| CategoryRoutes.UpdateSlug | backend/routes/categories.js:62-63 | after a rename the slug is the new name's slug; otherwise it is the body's slug lower-cased, else the stored one |
| CategoryRoutes.DeleteOutcome | backend/routes/categories.js:73-83 | admin only; 'Category not found' for an unknown id; otherwise the list without that category |
| CategoryRoutes.DeleteRemoves | backend/routes/categories.js:75 | with distinct keys, the deleted category can no longer be found and the list is one shorter |
| CategoryRoutes.Create | backend/routes/categories.js:44-51 | the handler answers with the outcome and appends exactly the created category |
| CategoryRoutes.Update | backend/routes/categories.js:55-69 | the handler replaces exactly the updated category, or changes nothing on an error |
| CategoryRoutes.Delete | backend/routes/categories.js:73-83 | the handler removes exactly the deleted category, or changes nothing on an error |
| AuthRoutes.NatToStringLength | backend/routes/auth.js:15 | a number with k+1 decimal digits prints as k+1 characters |
| AuthRoutes.GenerateOtp | backend/routes/auth.js:14-16 | the code is six decimal digits, reading back as 100000 plus the random draw, so within 100000..999999 |
| AuthRoutes.SendOtpOutcome | backend/routes/auth.js:20-37 | 'Phone number is required' for no phone; an unknown phone gets a new unverified customer account with the next key; a known one keeps its account; either way the stored account holds the new code and an expiry ten minutes on |
| AuthRoutes.SendOtp | backend/routes/auth.js:20-51 | the handler saves exactly the outcome's account and echoes the code only in development mode |
| AuthRoutes.VerifyOtpOutcome | backend/routes/auth.js:55-80 | in order: 'Phone and OTP are required', 'User not found', 'Invalid OTP', 'OTP expired'; success yields the account marked verified with the code and expiry erased |
| AuthRoutes.VerifyOtp | backend/routes/auth.js:55-105 | the handler saves exactly the verified account and answers with it, changing nothing on a refusal |
| AuthRoutes.SavedIsFoundByPhone | backend/routes/auth.js:30-36 | after a save, the saved account is the one found by its phone |
| AuthRoutes.OtpSingleUse | backend/routes/auth.js:76-80 | once a code has been accepted it is erased, so presenting it again is refused with 'Invalid OTP' at any later time |
| AuthRoutes.OtpAcceptedUntilExpiry | backend/routes/auth.js:27-36 | a code just issued is accepted up to and including ten minutes after issue and refused with 'OTP expired' afterwards |
| AuthRoutes.FindStaff | backend/routes/auth.js:116 | finds an admin or agent account with the phone, or reports there is none |
| AuthRoutes.AdminLogin | backend/routes/auth.js:109-128 | 'Phone and password required', then 'Invalid credentials' when no staff account has the phone, 'Password not set. Contact admin.' when it has no password; success iff the password matches the stored hash, yielding that staff account |
| AuthRoutes.CustomersCannotPasswordLogin | backend/routes/auth.js:116 | a phone held only by customers can never log in with a password |
| AuthRoutes.DeactivatedStaffCanLogin | backend/routes/auth.js:109-128 | the password login does not check isActive: a deactivated admin with the right password logs in |
| AuthRoutes.ProfileUpdated | backend/routes/auth.js:162-170 | only the non-empty fields among name, email and fcmToken are applied (name trimmed, email trimmed and lower-cased); every other field is kept |
| AuthRoutes.EmptyProfileUpdate | backend/routes/auth.js:163-166 | an update with no fields leaves the account unchanged |
| AuthRoutes.UpdateProfile | backend/routes/auth.js:160-176 | the handler writes exactly the updated account and answers with it sanitised; no account gives no data |
| AuthRoutes.AddressAdded | backend/routes/auth.js:185-196 | 'Full address is required' for an empty street address; otherwise one address is appended with the given fields, label 'Home' and city 'Nizampet' by default, and is the default exactly when it is the first |
| AuthRoutes.AddressAddedKeepsStored | backend/routes/auth.js:192-198 | adding an address keeps the account valid |
| AuthRoutes.AddressAddedOneDefault | backend/routes/auth.js:190 | starting from at most one default address (and one when there are any), adding keeps at most one default |
| AuthRoutes.AddressDeleted | backend/routes/auth.js:210-212 | the address book keeps exactly the addresses with other ids, in their order |
| AuthRoutes.DeleteDefaultLeavesNone | backend/routes/auth.js:210-212 | deleting the default address promotes no other: the book is left without a default |
| AuthRoutes.AddAddress | backend/routes/auth.js:180-203 | the handler writes exactly the extended address book into the caller's account, or nothing on an error |
| AuthRoutes.DeleteAddress | backend/routes/auth.js:207-218 | the handler writes exactly the filtered address book into the caller's account |
| Analytics.CountStatus | backend/routes/analytics.js:28-29 | `countDocuments({ status })` counts at most every booking |
| Analytics.CountStatusIsCount | backend/routes/analytics.js:28-29 | the count is the number of bookings a filter on the status keeps |
| Analytics.StatusCountsPartition | backend/routes/analytics.js:28-29 | the six status counts add up to the number of bookings |
| Analytics.Distribution | backend/routes/analytics.js:49-51 | the status distribution has one entry per status that occurs, with its exact count, and no entry for an absent status |
| Analytics.DistributionSum | backend/routes/analytics.js:49-51 | the distribution's counts add up to the bookings whose status is listed |
| Analytics.AllStatusesOnce | backend/models/Booking.js:33 | each of the six statuses appears once in the status enumeration |
| Analytics.DistributionCoversAll | backend/routes/analytics.js:49-51 | the distribution over all statuses accounts for every booking exactly once |
| Analytics.RevenueZeroWhenNoneMatch | backend/routes/analytics.js:77-78 | with no completed booking in the window the revenue is 0, as `[0]?.total \|\| 0` gives |
| Analytics.RevenueSince | backend/routes/analytics.js:32-39 | with non-negative amounts the completed revenue since a start is non-negative |
| Analytics.RevenueMonotone | backend/routes/analytics.js:32-39 | with non-negative amounts, a later window start never yields more revenue: today's revenue is at most the month's |
| Analytics.RevenueCons | backend/routes/analytics.js:32-39 | the revenue of a list is its first booking's final amount, when that booking was completed in the window, plus the revenue of the rest |
| Analytics.BucketNonEmpty | backend/routes/analytics.js:56-64 | every group formed from an occurring key holds at least one booking |
| Analytics.KeysDescending | backend/routes/analytics.js:109 | the group keys are exactly the occurring keys, each once, strictly descending |
| Analytics.KeysAscending | backend/routes/analytics.js:65 | the group keys are exactly the occurring keys, each once, strictly ascending |
| Analytics.GroupedBuckets | backend/routes/analytics.js:56-66 | grouping by day gives non-empty groups whose counts and revenue are those of their key, and every booking falls in one of them |
| Analytics.Overview | backend/routes/analytics.js:11-80 | the figures are the totals, today's bookings, pending and completed counts, customers and agents; the revenues are those since the month and day start; the recent bookings are the ten newest; the distribution is one entry per status that occurs, in the enum's order, with that status's exact count, and the counts add up to the number of bookings; the weekly trend is the grouping of the week's bookings |
| Analytics.WeeklyTrend | backend/routes/analytics.js:53-66 | one bucket per creation day since a week ago, ascending by day, each holding exactly that day's count and revenue, and every booking of the week falls in one |
| Analytics.WeekBookings | backend/routes/analytics.js:57 | exactly the bookings created at or after the week's start |
| Analytics.DashboardOutcome | backend/routes/analytics.js:10-87 | admin only: a non-admin is refused by the role check, an admin always receives the overview figures |
| Analytics.WithAverage | backend/routes/analytics.js:104-106 | a period row keeps the group's revenue and count, and its average times the count is the revenue |
| Analytics.WithAverages | backend/routes/analytics.js:102-107 | every group becomes its period row |
| Analytics.CompletedItems | backend/routes/analytics.js:115-116 | `$unwind` produces every line of every completed booking |
| Analytics.CategoryRows | backend/routes/analytics.js:114-123 | one row per category name of a completed line, with distinct names, each summing that category's amounts and weighed weights |
| Analytics.CategoryRevenue | backend/routes/analytics.js:114-125 | the category rows, as a permutation, sorted by descending revenue |
| Analytics.CategoryRevenueGroups | backend/routes/analytics.js:114-125 | every category row is that category's sums, names are distinct, and every completed line's category has a row |
| Analytics.PeriodRows | backend/routes/analytics.js:99-111 | at most 30 period rows, with strictly descending keys |
| Analytics.PeriodBucketsNonEmpty | backend/routes/analytics.js:99-111 | every reported period holds at least one completed booking |
| Analytics.PeriodRowsContent | backend/routes/analytics.js:99-111 | every period row is the revenue, count and average of the completed bookings of its period |
| Analytics.PeriodRowsLatest | backend/routes/analytics.js:109-110 | a completed booking's period is reported unless 30 later periods fill the report |
| Analytics.BucketFormat | backend/routes/analytics.js:95-97 | 'daily' buckets by day, 'weekly' by week number, anything else by month |
| Analytics.BucketsFor | backend/routes/analytics.js:58-65 | one bucket per requested key, in the keys' order, each the group of the bookings with that key |
| Analytics.RevenueReport | backend/routes/analytics.js:91-131 | admin only; the period rows use the format of the requested period (monthly by default) and come with the category revenue |
| Analytics.HeaderColumns | backend/routes/analytics.js:151 | the CSV header names thirteen columns |
| Analytics.PopulatedOr | backend/routes/analytics.js:154 | a populated field shows the referenced account's value, or the fallback when the reference is missing or the value empty |
| Analytics.Cells | backend/routes/analytics.js:153-154 | a row has thirteen cells: the bookingId first, the status seventh, 'N/A' for a missing customer, 'Unassigned' for no agent, and the quoted '; '-joined item labels |
| Analytics.RowMatchesHeader | backend/routes/analytics.js:151-154 | a row without commas inside its cells splits into exactly as many cells as the header has columns |
| Analytics.ExportMatch | backend/routes/analytics.js:137-143 | a window with only one end, like no window, and no status filter export every booking |
| Analytics.ItemLabel | backend/routes/analytics.js:153 | an item reads as its category name, ':', the estimated weight and 'kg' |
| Analytics.Exported | backend/routes/analytics.js:137-148 | the exported bookings are exactly those in the window and of the status, newest first |
| Analytics.OneSidedWindowIgnored | backend/routes/analytics.js:140-142 | a window with only `from` or only `to` filters nothing |
| Analytics.Export | backend/routes/analytics.js:135-163 | admin only; the file is the header followed by the exported bookings' rows joined by newlines |
| Payments.CreateOrder | backend/routes/payments.js:18-24 | the mock order charges the amount in paise (× 100) in INR, with the booking as receipt, status 'created' and id 'order_' followed by the clock's digits |
| Payments.OrderIdsDistinct | backend/routes/payments.js:19 | two orders get the same id exactly when they are created in the same millisecond, whatever their bookings and amounts |
| Payments.VerifyOutcome | backend/routes/payments.js:34-53 | 'Booking not found' exactly for an unknown booking; otherwise the payment is marked completed with the order and payment ids, keeping the booking invariant |
| Payments.VerifyChangesOnlyPayment | backend/routes/payments.js:50-53 | verification changes only the payment status and the two Razorpay ids |
| Payments.Verify | backend/routes/payments.js:34-59 | the handler commits exactly the verification outcome and answers with it |
| Payments.ProjectAll | backend/routes/payments.js:68 | each listed booking is reduced to the selected payment fields |
| Payments.Receipts | backend/routes/payments.js:65-69 | exactly the caller's bookings with a completed payment, newest first |
| Payments.History | backend/routes/payments.js:63-75 | the history has one projected record per paid booking of the caller, newest first, and every such booking appears |
| Notifications.Inbox | backend/routes/notifications.js:11-13 | at most 50 notifications addressed to the caller or broadcast, newest first; exactly min(50, number visible) of them, so all of them when there are at most 50, and any visible one left out is no newer than the 50th |
| Notifications.UnreadCount | backend/routes/notifications.js:15-17 | the unread count is zero exactly when no notification addressed to the caller is unread |
| Notifications.UnreadCountAppend | backend/routes/notifications.js:15-17 | the count of no notifications is 0, and storing one more adds 1 exactly when it is addressed to the caller and unread, 0 otherwise |
| Notifications.BroadcastNotCounted | backend/routes/notifications.js:15-17 | a broadcast, having no addressee, never adds to anyone's unread count |
| Notifications.MarkedRead | backend/routes/notifications.js:29 | the notification with the id, if any, becomes read and nothing else changes; any caller may mark any notification |
| Notifications.AllRead | backend/routes/notifications.js:40 | exactly the caller's unread notifications become read |
| Notifications.AllReadClearsOnlyCaller | backend/routes/notifications.js:40 | after read-all the caller has no unread notification, another user's unread count is unchanged, and notifications not addressed to the caller are untouched |
| Notifications.MarkRead | backend/routes/notifications.js:27-34 | the handler writes exactly the marked collection |
| Notifications.ReadAll | backend/routes/notifications.js:38-45 | the handler writes exactly the collection with the caller's notifications read |
| Notifications.Promotions | backend/routes/notifications.js:61-64 | one unread promotional notification per recipient, with consecutive fresh keys |
| Notifications.PromotionReaches | backend/routes/notifications.js:61-64 | every recipient of a promotion gets a notification addressed to its key |
| Notifications.Batch | backend/routes/notifications.js:52-67 | a user id gives one addressed notification, a role gives one per active account of that role, neither gives one broadcast; every one is unread, promotional, and carries the request's title and body under consecutive fresh keys |
| Notifications.SendOutcome | backend/routes/notifications.js:49-70 | admin only; a user id gives one addressed notification, a role gives one per active account of that role, neither gives one broadcast; all are unread promotional ones; with a title and body it succeeds |
| Notifications.Addressee | backend/routes/notifications.js:60 | a role broadcast reaches only active accounts whose role the target names; a name of no role reaches no one |
| Notifications.RoleSendReachesActive | backend/routes/notifications.js:60 | every active account of the target role receives a notification |
| Notifications.Send | backend/routes/notifications.js:49-76 | the handler appends exactly the outcome's notifications and advances the key counter by their number |
| Announcements.Audience | backend/routes/announcements.js:14 | agents read the 'agents' announcements, every other role the 'users' ones |
| Announcements.FeedFor | backend/routes/announcements.js:18-20 | at most 10 visible announcements, newest first; exactly min(10, number visible) of them, so all of them when there are at most 10, and any visible one left out is no newer than the 10th |
| Announcements.Feed | backend/routes/announcements.js:8-26 | the feed holds only active announcements targeted at everyone or at the caller's audience |
| Announcements.AdminsReadTheUserFeed | backend/routes/announcements.js:14 | an admin sees exactly the customers' feed |
| Announcements.CreateOutcome | backend/routes/announcements.js:30-43 | admin only; the announcement is created as the model prescribes, active, with the caller as author and the next key |
| Announcements.Create | backend/routes/announcements.js:30-43 | the handler appends exactly the created announcement |
| Announcements.Deactivated | backend/routes/announcements.js:49 | the announcement with the id, if any, becomes inactive and nothing else changes |
| Announcements.DeactivatedLeavesEveryFeed | backend/routes/announcements.js:49 | a deactivated announcement disappears from every role's feed |
| Announcements.Delete | backend/routes/announcements.js:47-54 | admin only; otherwise the handler deactivates, succeeding even for an unknown id |
| Support.Reply | backend/routes/support.js:5-22 | the reply is chosen by the first matching keyword group in the lower-cased query: rates, booking, area, greeting, otherwise the fallback |
| Support.ReplyIgnoresCase | backend/routes/support.js:6 | upper- or lower-casing the query does not change the reply |
| Support.KeywordsMatchInsideWords | backend/routes/support.js:17 | keywords match inside words: "this" is answered with the greeting |
| Support.Chat | backend/routes/support.js:26-31 | 'Message is required' exactly for an empty message; otherwise the reply to it |
| MobileBookPickup.OfferedSlotsAccepted | mobile/src/screens/BookPickupScreen.js:10 | the screen offers exactly the schema's six windows, so every offered slot is accepted by the booking schema |
| MobileBookPickup.DropKeepsNoRepeats | mobile/src/screens/BookPickupScreen.js:51 | filtering a category out of a cart without repeated categories leaves one without repeats |
| MobileBookPickup.Toggled | mobile/src/screens/BookPickupScreen.js:48-55 | toggling flips whether the category is in the cart and no other category's; an absent one is appended with 5 kg, a present one is removed with all its entries; no repeated category appears |
| MobileBookPickup.ToggleTwiceRestores | mobile/src/screens/BookPickupScreen.js:48-55 | selecting then deselecting a category gives the cart back |
| MobileBookPickup.ToggleTwiceResetsWeight | mobile/src/screens/BookPickupScreen.js:53 | deselecting then reselecting a category puts it last with the default 5 kg, losing the typed weight |
| MobileBookPickup.HexValue | mobile/src/screens/BookPickupScreen.js:59 | a hexadecimal digit has a value below 16 |
| MobileBookPickup.LeadingRun | mobile/src/screens/BookPickupScreen.js:59 | the leading run is the longest prefix of accepted characters |
| MobileBookPickup.LeadingRunAppend | mobile/src/screens/BookPickupScreen.js:59 | the leading run of an accepted string followed by a stop character is that string |
| MobileBookPickup.ParseIntOrZero | mobile/src/screens/BookPickupScreen.js:59 | `parseInt(weight) \|\| 0` is 0 for blank input (the full reading is stated by the two lemmas below) |
| MobileBookPickup.ParseIntUnsigned | mobile/src/screens/BookPickupScreen.js:59 | text starting with a digit parses as its unsigned magnitude |
| MobileBookPickup.DecimalMagnitude | mobile/src/screens/BookPickupScreen.js:59 | decimal digits without a leading zero, followed by a non-digit other than x, read as their value |
| MobileBookPickup.ParseIntOfNumber | mobile/src/screens/BookPickupScreen.js:59 | a typed whole number, followed by anything that is not a digit or x, is read back as that number |
| MobileBookPickup.NoLeadingZero | mobile/src/screens/BookPickupScreen.js:59 | a printed number starts with 0 only when it is 0 |
| MobileBookPickup.ParseIntOfNonNumber | mobile/src/screens/BookPickupScreen.js:59 | text whose first non-blank character is not a digit or sign gives weight 0 |
| MobileBookPickup.WithWeight | mobile/src/screens/BookPickupScreen.js:57-61 | the entries of the category get the new weight, every other entry is unchanged, the order is kept |
| MobileBookPickup.WithWeightKeepsSelection | mobile/src/screens/BookPickupScreen.js:57-61 | changing a weight changes neither which categories are selected nor the absence of repeats |
| MobileBookPickup.EstimatedTotalNoneLoaded | mobile/src/screens/BookPickupScreen.js:63-68 | the estimate is 0 when no entry's category is loaded |
| MobileBookPickup.LineEstimate | mobile/src/screens/BookPickupScreen.js:65-66 | an entry whose category is not loaded contributes 0 |
| MobileBookPickup.EstimatedTotalSnoc | mobile/src/screens/BookPickupScreen.js:63-68 | the left-to-right reduction adds the last entry's line estimate to the total of the others |
| MobileBookPickup.Requests | mobile/src/screens/BookPickupScreen.js:79 | each cart entry is sent as its category and estimated weight, in order |
| MobileBookPickup.EstimateMatchesServer | mobile/src/screens/BookPickupScreen.js:63-68 | the screen's estimate equals the estimatedAmount the server computes for the request it sends, against the same categories |
| MobileBookPickup.BookRequest | mobile/src/screens/BookPickupScreen.js:70-85 | the guards in order: 'Please enter an address', 'Please select a date', 'Please select a time slot', 'Please select at least one item'; otherwise the request carries the cart, the address with landmark and city 'Nizampet', the date, slot, notes and payment method |
| MobileBookPickup.Prefill | mobile/src/screens/BookPickupScreen.js:28-32 | the prefilled address is the first default address when there is one, else the first saved one, and none without saved addresses |
| MobileBookPickup.Screen.constructor | mobile/src/screens/BookPickupScreen.js:14-37 | the wizard opens at step 1 with an empty cart, cash, no slot, tomorrow's date and the prefilled address and landmark |
| MobileBookPickup.Screen.Toggle | mobile/src/screens/BookPickupScreen.js:48-55 | the cart becomes the toggled cart, keeping the wizard invariant (step within 1..4, no repeated category) |
| MobileBookPickup.Screen.UpdateWeight | mobile/src/screens/BookPickupScreen.js:57-61 | the cart gets the parsed weight for the category, keeping the wizard invariant |
| MobileBookPickup.Screen.Continue | mobile/src/screens/BookPickupScreen.js:332-340 | Continue advances one step below step 4, except on step 1 with an empty cart |
| MobileBookPickup.Screen.Back | mobile/src/screens/BookPickupScreen.js:313 | back goes one step back, or leaves the screen from step 1 |
| MobileBookPickup.Screen.Book | mobile/src/screens/BookPickupScreen.js:70-85 | booking sends exactly the request built from the screen's state, or the first failing guard's message |
| BookingDetail.CurrentIndex | mobile/src/screens/BookingDetailScreen.js:7 | a status's step is its position among the five tracker steps, and -1 exactly for a cancelled booking |
| BookingDetail.StepsFrom | mobile/src/screens/BookingDetailScreen.js:83-88 | each tracker row from the given step on is ticked when at or before the current step and marked current when it is the current step |
| BookingDetail.Tracker | mobile/src/screens/BookingDetailScreen.js:83-88 | no tracker for a cancelled booking; otherwise five rows in the step order |
| BookingDetail.TrackerMarks | mobile/src/screens/BookingDetailScreen.js:86-88 | the ticked rows are the booking's step and all before it, and exactly one row, the booking's own, is current |
| BookingDetail.TrackerMonotone | mobile/src/screens/BookingDetailScreen.js:86-88 | a booking further along ticks at least the same rows |
| BookingDetail.CancelButtonAllowed | mobile/src/screens/BookingDetailScreen.js:193 | wherever the Cancel button shows, the server accepts the owner's cancel |
| BookingDetail.CancelFromScreen | mobile/src/screens/BookingDetailScreen.js:36-52 | confirming the dialog on a booking that shows the button cancels it with the reason 'Cancelled by customer', after which neither the tracker nor the button shows |
| BookingDetail.CancelButtonNarrower | mobile/src/screens/BookingDetailScreen.js:193 | an assigned or en-route booking hides the button although the server would let its owner cancel |
| BookingDetail.DisplayedTotal | mobile/src/screens/BookingDetailScreen.js:135 | the shown total is the final amount when non-zero, else the estimate |
| BookingDetail.TotalLabel | mobile/src/screens/BookingDetailScreen.js:134 | the label is 'Final Amount' exactly for a completed booking, else 'Estimated Amount' |
| BookingDetail.NewBookingShowsEstimate | mobile/src/screens/BookingDetailScreen.js:134-135 | a freshly created booking shows its estimate under 'Estimated Amount' |
| BookingDetail.ShownWeight | mobile/src/screens/BookingDetailScreen.js:128 | a line shows its weighed weight when present and non-zero, and its estimated weight when the weighed one is absent or zero |
| BookingDetail.ShownAmount | mobile/src/screens/BookingDetailScreen.js:129 | a line shows its stored amount when non-zero, else price × estimated weight |
| BookingDetail.ShownAmountOfSnapshot | mobile/src/screens/BookingDetailScreen.js:128-129 | a line as the server prices it shows price × estimated weight and the estimated weight |
| WebBookPickup.AsWrittenSlotsRejected | customer-web/src/pages/BookPickup.jsx:5-8 | every slot label the page offers is outside the schema's slot enum, so the server refuses any booking submitted with one |
| WebBookPickup.CorrectedSlotsAccepted | customer-web/src/pages/BookPickup.jsx:5-8 | with the schema's six slot names, a request with an address, a date and cash is accepted under any offered slot |
| WebBookPickup.DefaultFormCorrected | customer-web/src/pages/BookPickup.jsx:31-37 | the form opens on tomorrow's date, the first slot (a schema slot), and an empty address, category list and note |
| WebBookPickup.DefaultFormAsWritten | customer-web/src/pages/BookPickup.jsx:31-37 | the as-written default is the same form with the first label, which the schema does not accept |
| WebBookPickup.Toggled | customer-web/src/pages/BookPickup.jsx:49-54 | a category becomes chosen exactly when it was not, every other category keeps its state, and a new one is appended |
| WebBookPickup.ToggleTwiceRestores | customer-web/src/pages/BookPickup.jsx:49-54 | toggling the same category twice restores the chosen set, and the list itself when it started unchosen |
| WebBookPickup.OneKg | customer-web/src/pages/BookPickup.jsx:67-70 | one request line per chosen category, in order, each at one kilogram |
| WebBookPickup.Submit | customer-web/src/pages/BookPickup.jsx:56-73 | a blank address is refused first, then an empty choice; otherwise the request carries the date, slot, untrimmed address, one kilogram per category, the note and cash |
| WebBookPickup.SubmittedAddressPresent | customer-web/src/pages/BookPickup.jsx:59 | a request the page lets through has a non-empty street address |
| WebLogin.FormatPhone | customer-web/src/pages/Login.jsx:16-21 | ten digits become +91 and the digits, twelve digits starting 91 become + and the digits, anything else is trimmed; a changed number is always +91 and ten digits |
| WebLogin.FormatPhoneIdempotent | customer-web/src/pages/Login.jsx:16-21 | formatting an already formatted number changes nothing |
| WebLogin.DigitsOfTrim | customer-web/src/pages/Login.jsx:17-20 | trimming keeps every digit of the number |
| WebLogin.SendRefusal | customer-web/src/pages/Login.jsx:26 | the send is refused exactly for a phone that is blank after trimming |
| WebLogin.VerifyRefusal | customer-web/src/pages/Login.jsx:43 | the verify is refused exactly for a blank code or one shorter than four characters |
| WebLogin.IssuedCodePasses | customer-web/src/pages/Login.jsx:43 | every code the server issues passes the page's guard |
| WebLogin.ShortCodeRefusedByServer | customer-web/src/pages/Login.jsx:43 | a four- or five-digit code passes the page but the server answers 'Invalid OTP' for an account holding an issued code |
| WebLogin.Page.constructor | customer-web/src/pages/Login.jsx:6-11 | the page opens on the phone step with every field empty |
| WebLogin.Page.SendOtp | customer-web/src/pages/Login.jsx:23-38 | a blank phone sends nothing and shows the refusal; otherwise the formatted phone is sent, success moves to the code step keeping an echoed code, failure shows the server's message or the default |
| WebLogin.Page.VerifyOtp | customer-web/src/pages/Login.jsx:40-58 | a refused code sends nothing; otherwise the formatted phone, the code and the name when typed are sent, and a failure shows its message or the default |
| WebLogin.Page.ChangePhone | customer-web/src/pages/Login.jsx:116 | back to the phone step with the code, the error and the echoed code cleared |
| MobileLogin.FullPhone | mobile/src/screens/LoginScreen.js:22 | the sent number always starts with +: the input itself when it does, else +91 and the input |
| MobileLogin.FullPhoneIdempotent | mobile/src/screens/LoginScreen.js:22 | prefixing an already prefixed number changes nothing |
| MobileLogin.ClientsAgreeOnTenDigits | mobile/src/screens/LoginScreen.js:22 | for ten plain digits the screen and the web page send the same number, +91 and the digits |
| MobileLogin.ClientsDisagreeOnCountryCode | mobile/src/screens/LoginScreen.js:22 | for twelve digits starting 91 the web page sends + and the digits while the screen sends +91 in front of all twelve |
| MobileLogin.SendRefusal | mobile/src/screens/LoginScreen.js:15-18 | the send is refused exactly for a phone shorter than ten characters |
| MobileLogin.VerifyRefusal | mobile/src/screens/LoginScreen.js:39-42 | the verify is refused exactly for a code shorter than six characters |
| MobileLogin.IssuedCodePasses | mobile/src/screens/LoginScreen.js:39-42 | every code the server issues passes the screen's guard |
| MobileLogin.Screen.constructor | mobile/src/screens/LoginScreen.js:9-11 | the screen opens on the phone step with an empty phone and code |
| MobileLogin.Screen.SendOtp | mobile/src/screens/LoginScreen.js:14-36 | a short phone sends nothing and changes nothing; otherwise the prefixed phone is sent, success moves to the code step with an echoed code filled in, failure changes nothing |
| MobileLogin.Screen.VerifyOtp | mobile/src/screens/LoginScreen.js:38-53 | a short code sends nothing; otherwise the prefixed phone and the code, at least six characters, are sent |
| MobileLogin.Screen.ChangePhone | mobile/src/screens/LoginScreen.js:109 | back to the phone step |
| MobileLogin.SendThenVerify | mobile/src/screens/LoginScreen.js:26-47 | with the development echo, sending and then verifying sends exactly the code the server issued |

## Left out

- **HTTP.** Request parsing, response bodies and transport are left out.
  A status code and message become a `Failure` value; an exception caught
  by a handler becomes `ServerError`.
- **Notifications created by booking handlers.** The `Notification.create`
  calls inside the create, status, assign and complete handlers are not
  modelled. The notification routes themselves are.
- **Mongoose features.** `populate` is modelled only where a value depends
  on it: the CSV export's names and phones. Indexes are left out. The
  `unique` constraints on phone, slug, bookingId and referralCode are not
  enforced by the store, and `CategoryModel.SlugNotInjective` shows where
  they matter.
- **Sort order of equal keys.** Sorting is a stable insertion sort, while
  MongoDB leaves the order of equal keys unspecified.
- **Status distribution order.** The dashboard's status distribution is
  listed in the enum's order, while the aggregation's group order is
  unspecified.
- **Regular-expression search.** It is modelled as case-insensitive
  substring matching, with ASCII-only case folding.
- **JWT.** Signing and verifying are left out. The verifier is a parameter
  from a token to an optional account key.
- **bcrypt.** Hashing is modelled as a `Hashed` tag on the plain text, so
  comparing passwords is equality of tags.
- **Clock and randomness.** The clock is the `now` parameter.
  `Math.random` becomes parameters: `draw` for the one-time code, and
  base-36 `digits` for booking-id and referral suffixes.
- **Revenue buckets.** `$dateToString` bucket keys, including the `%U`
  week number, come from a parameter that maps a format and a time to an
  integer key.
- **Date formatting.** The CSV's locale formatting and the web form's
  `toISOString` date are parameters.
- **Agent rating format.** The agent rating is a `real` mean;
  `toFixed(1)` rounding is left out.
- **Floating-point amounts.** Prices, weights and amounts are integers.
  Fractional kilograms and JavaScript number rounding are left out.
- **`parseInt` precision.** The screen's `parseInt` is exact on arbitrarily
  long digit strings, so the loss of precision above 2^53 is left out.
- **Completion time of a completed booking without one.** Such a booking is
  treated as completed at time 0 when revenue is bucketed. Every booking
  the model can produce has a completion time once completed.
- **"A week ago".** The weekly trend's start, `setDate(getDate() - 7)` on
  the local calendar, is the clock parameter `weekAgo` of
  `Analytics.Overview`. It is not derived from `today`, because across a
  daylight-saving change it is not exactly seven days of milliseconds.
- **Optional strings.** An absent optional string is modelled as `""`, since
  the source only tests such values for truthiness.
- **Coordinates and uploads.** Latitude and longitude of addresses are left
  out. The multer photo upload is an optional file name.
- **Concurrency.** Each handler is one sequential read-modify-write;
  interleaved requests are not modelled.
- **Client side effects.** Alerts, navigation, loading flags, `setTimeout`
  delays (including the support reply's) and session storage after
  sign-in are left out. The web booking page's built-in category list,
  shown until the server's list arrives, is left out: its ids are not keys
  of stored categories.
- **Cancelling from the detail screen.** The confirm dialog and the reload
  after the request are left out; `BookingDetail.CancelFromScreen` states
  what the request does.
- BookingRoutes.StatusOutcome: a body without `status` is refused like an
  unknown status. The source assigns `undefined`, which unsets the field,
  and saves the booking without a status. The model's status type has no
  such value.
- BookingRoutes.RateOutcome: ratings are integers. A fractional rating
  such as 4.5 passes the schema's 1..5 check in the source but cannot be
  expressed here, and the agent's mean is taken over integer ratings.
- Text.Lower: it folds only the ASCII letters, where `toLowerCase` folds
  every Unicode letter. This reaches `CategoryModel.Slugify`, the e-mail
  normalisation of `AuthRoutes.ProfileUpdated` and the keyword matching
  of `Support.Reply`; on non-ASCII text their results differ from the
  source's.
- CategoryRoutes.UpdateKeepsStored: a body may set `slug` and
  `priceHistory`, so a saved category need not have the slug of its name
  or a history ending in its price. The store's invariant
  (`Database.Db.Valid`) therefore demands of a category only the schema's
  non-blank name. Stored-ness is promised only for updates that do not
  override these two fields, or that rename or reprice at the same time.
- MobileBookPickup.ParseIntOrZero: its own contract states only the
  blank-input case. The full reading of `parseInt(text) || 0` is stated
  by `ParseIntOfNumber` and `ParseIntOfNonNumber`.

## Findings

| source | as written | input that shows it | evidently intended | confidence | as-written member | corrected member |
|---|---|---|---|---|---|---|
| customer-web/src/pages/BookPickup.jsx:5-8 | the page offers time slots labelled '8:00 AM - 10:00 AM' … '6:00 PM - 8:00 PM' and sends the chosen label as `timeSlot`, but the booking schema only accepts '8AM-10AM' … '6PM-8PM' (backend/models/Booking.js:28) | the page's default form, whose slot is '8:00 AM - 10:00 AM', with any address and category: the server refuses every such booking | the six slot names of the booking schema, as the mobile screen sends them | not executed | WebBookPickup.AsWrittenSlotsRejected | WebBookPickup.CorrectedSlotsAccepted |

=== FILE: agent_routes.dfy ===
/**
 * The pickup agents' handlers of backend/routes/agents.js: the admin's agent
 * list and agent creation, and an agent's own pickups with the start,
 * complete and photo steps.  A pickup handler finds the booking by id among
 * the bookings assigned to the calling agent only.
 */
module AgentRoutes {
  import opened Wrappers
  import opened Text
  import Seqs
  import opened BookingModel
  import UserModel
  import opened Database
  import AuthMiddleware

  type User = UserModel.User

  // ---------------------------------------------------------------- agents (admin)

  predicate IsAgent(u: User) { u.role == UserModel.Agent }

  /**
   * An agent as the admin list returns it: the id and the seven fields of
   * `select('name phone agentArea agentRating agentIsAvailable isActive
   * totalPickups')`; the password, the pending code and every other field are
   * not part of it.
   */
  datatype AgentCard = AgentCard(
    key: Key,
    name: string,
    phone: string,
    agentArea: string,
    agentRating: real,
    agentIsAvailable: bool,
    isActive: bool,
    totalPickups: int)

  function CardOf(u: User): AgentCard
  {
    AgentCard(u.key, u.name, u.phone, u.agentArea, u.agentRating, u.agentIsAvailable, u.isActive, u.totalPickups)
  }

  /** `find({ role: 'agent' }).sort('-createdAt')`: exactly the agent accounts, newest first. */
  function AgentsNewestFirst(users: seq<User>): (r: seq<User>)
    ensures |r| == Seqs.Count(users, IsAgent)
    ensures forall u :: u in r <==> u in users && u.role == UserModel.Agent
    ensures forall k, l :: 0 <= k < l < |r| ==> r[k].createdAt >= r[l].createdAt
  {
    var agents := Seqs.Filter(users, IsAgent);
    var sorted := Seqs.SortDescBy(agents, UserModel.CreatedAt);
    assert forall u :: u in sorted <==> u in agents by {
      forall u ensures u in sorted <==> u in agents {
        Seqs.SortDescByMembership(agents, UserModel.CreatedAt, u);
      }
    }
    sorted
  }

  /** GET /api/agents: every agent account, newest first, projected to its card; admins only. */
  function ListAgents(users: seq<User>, me: User): (r: Result<seq<AgentCard>>)
    ensures r.Ok? <==> me.role == UserModel.Admin
    ensures r.Err? ==> r == Err(AuthMiddleware.Authorize(me, [UserModel.Admin]).failure)
    ensures r.Ok? ==> |r.value| == |AgentsNewestFirst(users)|
    ensures r.Ok? ==> forall i :: 0 <= i < |r.value| ==> r.value[i] == CardOf(AgentsNewestFirst(users)[i])
  {
    match AuthMiddleware.Authorize(me, [UserModel.Admin])
    case Err(f) => Err(f)
    case Ok(_) =>
      var agents := AgentsNewestFirst(users);
      Ok(seq(|agents|, i requires 0 <= i < |agents| => CardOf(agents[i])))
  }

  /** The body of POST /api/agents; absent strings are "". */
  datatype AgentRequest = AgentRequest(name: string, phone: string, password: string, agentArea: string, agentVehicle: string)

  /** An existing account made an agent: role, name, area and vehicle are overwritten, the password only when one is given. */
  function Promoted(u: User, req: AgentRequest): (r: User)
    ensures r.key == u.key && r.phone == u.phone && r.role == UserModel.Agent
    ensures r.name == Trim(if req.name != "" then req.name else u.name)
    ensures r.password == if req.password != "" then Some(UserModel.Hashed(req.password)) else u.password
    ensures r.agentArea == req.agentArea && r.agentVehicle == req.agentVehicle
    ensures r.addresses == u.addresses && r.isActive == u.isActive && r.referralCode == u.referralCode
  {
    u.(role := UserModel.Agent,
       name := Trim(if req.name != "" then req.name else u.name),
       agentArea := req.agentArea,
       agentVehicle := req.agentVehicle,
       password := if req.password != "" then Some(UserModel.Hashed(req.password)) else u.password)
  }

  /** A new agent account: verified, with the given password or "agent123". */
  function NewAgent(key: Key, req: AgentRequest, now: int): (r: User)
    ensures r.key == key && r.phone == req.phone && r.role == UserModel.Agent && r.isVerified && r.isActive
    ensures r.name == Trim(req.name)
    ensures r.password == Some(UserModel.Hashed(if req.password != "" then req.password else "agent123"))
    ensures r.agentArea == req.agentArea && r.agentVehicle == req.agentVehicle
    ensures r.loyaltyPoints == 0 && r.totalEarnings == 0 && r.totalPickups == 0 && r.agentRating == 5.0
  {
    UserModel.NewUser(key, req.phone, now).(
      name := Trim(req.name),
      password := Some(UserModel.Hashed(if req.password != "" then req.password else "agent123")),
      role := UserModel.Agent,
      agentArea := req.agentArea,
      agentVehicle := req.agentVehicle,
      isVerified := true)
  }

  /**
   * POST /api/agents: the account with the phone number is promoted when there
   * is one, and a new account is created otherwise; either document is saved
   * through validation and the referral-code hook.  Admins only.
   */
  function AgentOutcome(users: seq<User>, nextKey: Key, me: User, req: AgentRequest, now: int, digits: string): (r: Result<User>)
    requires AllLowerBase36(digits)
    ensures me.role != UserModel.Admin ==> r == Err(AuthMiddleware.Authorize(me, [UserModel.Admin]).failure)
    ensures r.Ok? ==> UserModel.Stored(r.value) && r.value.role == UserModel.Agent && r.value.phone == req.phone
    ensures r.Ok? ==> r.value.agentArea == req.agentArea && r.value.agentVehicle == req.agentVehicle
    ensures me.role == UserModel.Admin && FindUserByPhone(users, req.phone).Some? ==>
              var u := users[FindUserByPhone(users, req.phone).value];
              && (r.Ok? <==> UserModel.SchemaValid(u))
              && (r.Ok? ==> r.value == UserModel.PreSave(Promoted(u, req), digits))
    ensures me.role == UserModel.Admin && FindUserByPhone(users, req.phone).None? ==>
              && (r.Ok? <==> req.phone != "")
              && (r.Err? ==> r.failure.ServerError?)
              && (r.Ok? ==> r.value == UserModel.PreSave(NewAgent(nextKey, req, now), digits))
  {
    match AuthMiddleware.Authorize(me, [UserModel.Admin])
    case Err(f) => Err(f)
    case Ok(_) =>
      match FindUserByPhone(users, req.phone)
      case Some(j) =>
        var doc := Promoted(users[j], req);
        if !UserModel.SchemaValid(doc) then Err(ServerError("User validation failed"))
        else
          UserModel.PreSaveStored(doc, digits);
          Ok(UserModel.PreSave(doc, digits))
      case None =>
        var doc := NewAgent(nextKey, req, now);
        if !UserModel.SchemaValid(doc) then Err(ServerError("User validation failed"))
        else
          UserModel.PreSaveStored(doc, digits);
          Ok(UserModel.PreSave(doc, digits))
  }

  /** Promoting an existing customer keeps their account: same id, referral code, addresses and counters. */
  lemma PromotionKeepsAccount(users: seq<User>, nextKey: Key, me: User, req: AgentRequest, now: int, digits: string)
    requires AllLowerBase36(digits) && me.role == UserModel.Admin
    requires FindUserByPhone(users, req.phone).Some?
    requires UserModel.Stored(users[FindUserByPhone(users, req.phone).value])
    ensures var u := users[FindUserByPhone(users, req.phone).value];
            var r := AgentOutcome(users, nextKey, me, req, now, digits);
            && r.Ok? && r.value.key == u.key && r.value.referralCode == u.referralCode
            && r.value.addresses == u.addresses && r.value.totalEarnings == u.totalEarnings
            && r.value.loyaltyPoints == u.loyaltyPoints
  {
  }

  method CreateAgent(db: Db, me: User, req: AgentRequest, now: int, digits: string) returns (r: Result<User>)
    requires db.Valid() && AllLowerBase36(digits)
    modifies db`users, db`nextKey
    ensures db.Valid()
    ensures r == AgentOutcome(old(db.users), old(db.nextKey), me, req, now, digits)
    ensures r.Err? ==> db.users == old(db.users)
    ensures r.Ok? ==> db.users == UpsertUser(old(db.users), r.value)
  {
    r := AgentOutcome(db.users, db.nextKey, me, req, now, digits);
    if r.Ok? {
      assert FindUser(db.users, r.value.key).Some? || r.value.key == db.nextKey by {
        if FindUserByPhone(db.users, req.phone).Some? {
          assert r.value.key == db.users[FindUserByPhone(db.users, req.phone).value].key;
        }
      }
      SaveUser(db, r.value);
    }
  }

  // ---------------------------------------------------------------- pickups (agent)

  /** The pickups an agent's list shows: the given status, or by default those assigned or under way. */
  predicate OnPickupList(b: Booking, me: Key, status: string)
  {
    b.agent == Some(me)
    && (if status != "" then StatusName(b.status) == status else b.status in {Assigned, OutForPickup})
  }

  function ScheduledDate(b: Booking): int { b.scheduledDate }

  /** GET /api/agents/pickups: the caller's pickups, earliest scheduled date first; agents only. */
  function Pickups(bs: seq<Booking>, me: User, status: string): (r: Result<seq<Booking>>)
    ensures r.Ok? <==> me.role == UserModel.Agent
    ensures r.Err? ==> r == Err(AuthMiddleware.Authorize(me, [UserModel.Agent]).failure)
    ensures r.Ok? ==> forall b :: b in r.value <==> b in bs && OnPickupList(b, me.key, status)
    ensures r.Ok? ==> Seqs.SortedBy(r.value, ScheduledDate)
    ensures r.Ok? ==> multiset(r.value) == multiset(Seqs.Filter(bs, b => OnPickupList(b, me.key, status)))
  {
    match AuthMiddleware.Authorize(me, [UserModel.Agent])
    case Err(f) => Err(f)
    case Ok(_) =>
      var mine := Seqs.Filter(bs, b => OnPickupList(b, me.key, status));
      var sorted := Seqs.SortBy(mine, ScheduledDate);
      assert forall b :: b in sorted <==> b in mine by {
        forall b ensures b in sorted <==> b in mine {
          Seqs.SortByMembership(mine, ScheduledDate, b);
        }
      }
      Ok(sorted)
  }

  /** `findOne({ _id: id, agent: me })`: the first booking with the id that is assigned to the agent. */
  function FindAssigned(bs: seq<Booking>, id: Key, me: Key): (r: Option<nat>)
    ensures r.Some? ==> r.value < |bs| && bs[r.value].key == id && bs[r.value].agent == Some(me)
    ensures r.None? <==> forall i :: 0 <= i < |bs| ==> !(bs[i].key == id && bs[i].agent == Some(me))
  {
    Seqs.IndexWhere(bs, (b: Booking) => b.key == id && b.agent == Some(me))
  }

  /** PUT /api/agents/pickups/:id/start: the agent's booking goes out for pickup, from whatever status it had. */
  function StartOutcome(bs: seq<Booking>, me: User, id: Key, now: Instant, digits: string): (r: Result<Edit>)
    requires WellFormedInstant(now) && AllLowerBase36(digits)
    ensures me.role != UserModel.Agent ==> r == Err(AuthMiddleware.Authorize(me, [UserModel.Agent]).failure)
    ensures r.Ok? <==> me.role == UserModel.Agent && FindAssigned(bs, id, me.key).Some?
    ensures r.Err? && me.role == UserModel.Agent ==> r == Err(NotFound("Booking not found"))
    ensures r.Ok? ==> r.value.index == FindAssigned(bs, id, me.key).value
    ensures r.Ok? ==> var b := bs[r.value.index];
                      r.value.doc.status == OutForPickup
                      && r.value.doc.statusHistory == b.statusHistory + (if b.status == OutForPickup then [] else [HistoryEntry(OutForPickup, now.ms)])
    ensures r.Ok? ==> var b := bs[r.value.index];
                      r.value.doc == PreSave(Some(b), b.(status := OutForPickup), now, digits)
  {
    match AuthMiddleware.Authorize(me, [UserModel.Agent])
    case Err(f) => Err(f)
    case Ok(_) =>
      match FindAssigned(bs, id, me.key)
      case None => Err(NotFound("Booking not found"))
      case Some(i) => Ok(Edit(i, PreSave(Some(bs[i]), bs[i].(status := OutForPickup), now, digits)))
  }

  /**
   * The items after the agent's weighing: item i keeps its stored fields and
   * takes weight `weights[i]`, priced at the stored unit price.  The list
   * takes its length from the weights, so trailing stored items are dropped;
   * a weight with no stored item at its position yields an item without a
   * category, which validation refuses (None).
   */
  function Reweighed(stored: seq<Item>, weights: seq<int>): (r: Option<seq<Item>>)
    ensures r.Some? <==> |weights| <= |stored|
    ensures r.Some? ==> |r.value| == |weights|
    ensures r.Some? ==> forall i :: 0 <= i < |weights| ==>
              r.value[i] == stored[i].(actualWeight := Some(weights[i]), amount := weights[i] * stored[i].pricePerKg)
  {
    if |weights| > |stored| then None
    else Some(seq(|weights|, i requires 0 <= i < |weights| =>
                stored[i].(actualWeight := Some(weights[i]), amount := weights[i] * stored[i].pricePerKg)))
  }

  /** The weighed items when weights were sent, the stored items otherwise. */
  function WeighedItems(stored: seq<Item>, weights: seq<int>): (r: Option<seq<Item>>)
    ensures weights == [] ==> r == Some(stored)
    ensures weights != [] ==> r == Reweighed(stored, weights)
  {
    if weights == [] then Some(stored) else Reweighed(stored, weights)
  }

  /** The amount a completion settles: the amount sent when it is non-zero, the sum of the item amounts otherwise. */
  function SettledAmount(items: seq<Item>, finalAmount: int): (r: int)
    ensures finalAmount != 0 ==> r == finalAmount
    ensures finalAmount == 0 ==> r == Seqs.Sum(items, ItemAmount)
  {
    if finalAmount != 0 then finalAmount else Seqs.Sum(items, ItemAmount)
  }

  /**
   * PUT /api/agents/pickups/:id/complete, the booking half.  There is no
   * status check: any booking assigned to the agent, even one already
   * completed or cancelled, is completed again.  A cash booking is marked paid.
   */
  function CompleteOutcome(bs: seq<Booking>, me: User, id: Key, weights: seq<int>, finalAmount: int,
                           now: Instant, digits: string): (r: Result<Edit>)
    requires WellFormedInstant(now) && AllLowerBase36(digits)
    ensures me.role != UserModel.Agent ==> r == Err(AuthMiddleware.Authorize(me, [UserModel.Agent]).failure)
    ensures me.role == UserModel.Agent && FindAssigned(bs, id, me.key).None? ==> r == Err(NotFound("Booking not found"))
    ensures r.Ok? <==> me.role == UserModel.Agent && FindAssigned(bs, id, me.key).Some?
                       && WeighedItems(bs[FindAssigned(bs, id, me.key).value].items, weights).Some?
    ensures r.Ok? ==> r.value.index == FindAssigned(bs, id, me.key).value
    ensures r.Ok? ==> var b := bs[r.value.index];
                      var d := r.value.doc;
                      && d.items == WeighedItems(b.items, weights).value
                      && d.finalAmount == SettledAmount(d.items, finalAmount)
                      && d.status == Completed && d.completedAt == Some(now.ms)
                      && d.paymentStatus == (if b.paymentMethod == Cash then PaymentCompleted else b.paymentStatus)
                      && d.user == b.user && d.agent == b.agent
    ensures r.Ok? ==> var b := bs[r.value.index];
                      var d := r.value.doc;
                      d == PreSave(Some(b), b.(items := d.items, finalAmount := d.finalAmount, status := Completed,
                                               completedAt := Some(now.ms), paymentStatus := d.paymentStatus), now, digits)
  {
    match AuthMiddleware.Authorize(me, [UserModel.Agent])
    case Err(f) => Err(f)
    case Ok(_) =>
      match FindAssigned(bs, id, me.key)
      case None => Err(NotFound("Booking not found"))
      case Some(i) =>
        var b := bs[i];
        match WeighedItems(b.items, weights)
        case None => Err(ServerError("Booking validation failed"))
        case Some(items) =>
          var edited := b.(items := items,
                           finalAmount := SettledAmount(items, finalAmount),
                           status := Completed,
                           completedAt := Some(now.ms),
                           paymentStatus := if b.paymentMethod == Cash then PaymentCompleted else b.paymentStatus);
          Ok(Edit(i, PreSave(Some(b), edited, now, digits)))
  }

  /** `$inc: { totalEarnings: amount, loyaltyPoints: floor(amount / 10) }` on the customer, when the account exists. */
  function Settle(users: seq<User>, id: Key, amount: int): (r: seq<User>)
    ensures |r| == |users|
    ensures forall j :: 0 <= j < |users| && FindUser(users, id) != Some(j) ==> r[j] == users[j]
    ensures FindUser(users, id).Some? ==>
              var j := FindUser(users, id).value;
              && r[j].totalEarnings == users[j].totalEarnings + amount
              && r[j].loyaltyPoints == users[j].loyaltyPoints + amount / 10
              && r[j].(totalEarnings := users[j].totalEarnings, loyaltyPoints := users[j].loyaltyPoints) == users[j]
  {
    match FindUser(users, id)
    case None => users
    case Some(j) => users[j := users[j].(totalEarnings := users[j].totalEarnings + amount,
                                         loyaltyPoints := users[j].loyaltyPoints + amount / 10)]
  }

  /** Settling the same amount twice adds it twice to the customer's earnings. */
  lemma SettleTwice(users: seq<User>, id: Key, amount: int)
    ensures FindUser(users, id).Some? ==>
              var j := FindUser(users, id).value;
              Settle(Settle(users, id, amount), id, amount)[j].totalEarnings == users[j].totalEarnings + 2 * amount
  {
    if FindUser(users, id).Some? {
      var j := FindUser(users, id).value;
      var once := Settle(users, id, amount);
      assert forall k :: 0 <= k < |once| ==> once[k].key == users[k].key;
      assert FindUser(once, id) == Some(j);
    }
  }

  /** A non-negative settlement never lowers a customer's earnings or points. */
  lemma SettleNonDecreasing(users: seq<User>, id: Key, amount: int)
    requires amount >= 0
    ensures forall j :: 0 <= j < |users| ==>
              Settle(users, id, amount)[j].totalEarnings >= users[j].totalEarnings
              && Settle(users, id, amount)[j].loyaltyPoints >= users[j].loyaltyPoints
  {
  }

  /** The points a settlement awards are a tenth of the amount, rounded down. */
  lemma LoyaltyIsTenthRoundedDown(users: seq<User>, id: Key, amount: int)
    requires FindUser(users, id).Some?
    ensures var j := FindUser(users, id).value;
            var gained := Settle(users, id, amount)[j].loyaltyPoints - users[j].loyaltyPoints;
            10 * gained <= amount < 10 * gained + 10
  {
  }

  lemma EditsKeepInvariant(bs: seq<Booking>, me: User, id: Key, weights: seq<int>, finalAmount: int,
                           photo: Option<string>, now: Instant, digits: string)
    requires WellFormedInstant(now) && AllLowerBase36(digits)
    requires forall i :: 0 <= i < |bs| ==> Invariant(bs[i])
    ensures Committable(bs, StartOutcome(bs, me, id, now, digits))
    ensures Committable(bs, CompleteOutcome(bs, me, id, weights, finalAmount, now, digits))
    ensures Committable(bs, PhotoOutcome(bs, me, id, photo, now, digits))
  {
    StartKeepsInvariant(bs, me, id, now, digits);
    CompleteKeepsInvariant(bs, me, id, weights, finalAmount, now, digits);
    PhotoKeepsInvariant(bs, me, id, photo, now, digits);
  }

  /** Starting a pickup keeps the invariant of the booking it edits. */
  lemma StartKeepsInvariant(bs: seq<Booking>, me: User, id: Key, now: Instant, digits: string)
    requires WellFormedInstant(now) && AllLowerBase36(digits)
    requires forall i :: 0 <= i < |bs| ==> Invariant(bs[i])
    ensures Committable(bs, StartOutcome(bs, me, id, now, digits))
  {
    match FindAssigned(bs, id, me.key)
    case None =>
    case Some(i) =>
      PreSaveKeepsInvariant(Some(bs[i]), bs[i].(status := OutForPickup), now, digits);
  }

  /** Completing a pickup keeps the invariant of the booking it edits. */
  lemma CompleteKeepsInvariant(bs: seq<Booking>, me: User, id: Key, weights: seq<int>, finalAmount: int,
                               now: Instant, digits: string)
    requires WellFormedInstant(now) && AllLowerBase36(digits)
    requires forall i :: 0 <= i < |bs| ==> Invariant(bs[i])
    ensures Committable(bs, CompleteOutcome(bs, me, id, weights, finalAmount, now, digits))
  {
    match FindAssigned(bs, id, me.key)
    case None =>
    case Some(i) =>
      var b := bs[i];
      match WeighedItems(b.items, weights)
      case None =>
      case Some(items) =>
        var edited := b.(items := items,
                         finalAmount := SettledAmount(items, finalAmount),
                         status := Completed,
                         completedAt := Some(now.ms),
                         paymentStatus := if b.paymentMethod == Cash then PaymentCompleted else b.paymentStatus);
        PreSaveKeepsInvariant(Some(b), edited, now, digits);
  }

  /** Adding a photo keeps the invariant of the booking it edits. */
  lemma PhotoKeepsInvariant(bs: seq<Booking>, me: User, id: Key, photo: Option<string>, now: Instant, digits: string)
    requires WellFormedInstant(now) && AllLowerBase36(digits)
    requires forall i :: 0 <= i < |bs| ==> Invariant(bs[i])
    ensures Committable(bs, PhotoOutcome(bs, me, id, photo, now, digits))
  {
    match FindAssigned(bs, id, me.key)
    case None =>
    case Some(i) =>
      if photo.Some? {
        PreSaveKeepsInvariant(Some(bs[i]), bs[i].(photos := bs[i].photos + ["/uploads/" + photo.value]), now, digits);
      }
  }

  /**
   * The complete handler: saves the completed booking, then credits the
   * customer with the settled amount and a tenth of it in loyalty points.
   */
  method Complete(db: Db, me: User, id: Key, weights: seq<int>, finalAmount: int, now: Instant, digits: string)
    returns (r: Result<Booking>)
    requires db.Valid() && WellFormedInstant(now) && AllLowerBase36(digits)
    modifies db`bookings, db`users
    ensures db.Valid()
    ensures db.bookings == Apply(old(db.bookings), CompleteOutcome(old(db.bookings), me, id, weights, finalAmount, now, digits))
    ensures r == Response(CompleteOutcome(old(db.bookings), me, id, weights, finalAmount, now, digits))
    ensures r.Err? ==> db.users == old(db.users)
    ensures r.Ok? ==> db.users == Settle(old(db.users), r.value.user, r.value.finalAmount)
  {
    CompleteKeepsInvariant(db.bookings, me, id, weights, finalAmount, now, digits);
    var o := CompleteOutcome(db.bookings, me, id, weights, finalAmount, now, digits);
    r := CommitBooking(db, o);
    if r.Ok? {
      var users := Settle(db.users, r.value.user, r.value.finalAmount);
      SettleKeepsStored(db.users, r.value.user, r.value.finalAmount, db.nextKey);
      WriteUsers(db, users);
    }
  }

  /** Crediting a customer keeps every user stored under its key. */
  lemma SettleKeepsStored(users: seq<User>, id: Key, amount: int, nextKey: int)
    requires forall j :: 0 <= j < |users| ==> users[j].key < nextKey && UserModel.Stored(users[j])
    ensures var r := Settle(users, id, amount);
            forall j :: 0 <= j < |r| ==> r[j].key < nextKey && UserModel.Stored(r[j])
  {
    var r := Settle(users, id, amount);
    forall j | 0 <= j < |r| ensures r[j].key < nextKey && UserModel.Stored(r[j]) {
      assert r[j].key == users[j].key;
    }
  }

  /**
   * Completing the same pickup twice credits the customer twice: the second
   * call passes every check of the handler and settles the amount again.
   */
  lemma CompleteTwiceCreditsTwice(bs: seq<Booking>, users: seq<User>, me: User, id: Key, amount: int,
                                  now: Instant, digits: string)
    requires WellFormedInstant(now) && AllLowerBase36(digits)
    requires CompleteOutcome(bs, me, id, [], amount, now, digits).Ok? && amount != 0
    ensures var bs1 := Apply(bs, CompleteOutcome(bs, me, id, [], amount, now, digits));
            var o2 := CompleteOutcome(bs1, me, id, [], amount, now, digits);
            && o2.Ok?
            && o2.value.doc.finalAmount == amount
            && (FindUser(users, o2.value.doc.user).Some? ==>
                  var j := FindUser(users, o2.value.doc.user).value;
                  Settle(Settle(users, o2.value.doc.user, amount), o2.value.doc.user, amount)[j].totalEarnings
                  == users[j].totalEarnings + 2 * amount)
  {
    var o1 := CompleteOutcome(bs, me, id, [], amount, now, digits);
    var i := o1.value.index;
    var bs1 := Apply(bs, o1);
    assert FindAssigned(bs1, id, me.key) == Some(i) by {
      assert forall j :: 0 <= j < i ==> bs1[j] == bs[j];
    }
    SettleTwice(users, CompleteOutcome(bs1, me, id, [], amount, now, digits).value.doc.user, amount);
  }

  /** POST /api/agents/pickups/:id/photo: the uploaded file's public path is appended to the photos, when a file came. */
  function PhotoOutcome(bs: seq<Booking>, me: User, id: Key, file: Option<string>, now: Instant, digits: string): (r: Result<Edit>)
    requires WellFormedInstant(now) && AllLowerBase36(digits)
    ensures me.role != UserModel.Agent ==> r == Err(AuthMiddleware.Authorize(me, [UserModel.Agent]).failure)
    ensures r.Ok? <==> me.role == UserModel.Agent && FindAssigned(bs, id, me.key).Some?
    ensures r.Err? && me.role == UserModel.Agent ==> r == Err(NotFound("Booking not found"))
    ensures r.Ok? ==> r.value.index == FindAssigned(bs, id, me.key).value
    ensures r.Ok? ==> var b := bs[r.value.index];
                      Invariant(b) ==> r.value.doc == b.(photos := b.photos + (if file.Some? then ["/uploads/" + file.value] else []))
  {
    match AuthMiddleware.Authorize(me, [UserModel.Agent])
    case Err(f) => Err(f)
    case Ok(_) =>
      match FindAssigned(bs, id, me.key)
      case None => Err(NotFound("Booking not found"))
      case Some(i) =>
        if file.None? then Ok(Edit(i, bs[i]))
        else
          Ok(Edit(i, PreSave(Some(bs[i]), bs[i].(photos := bs[i].photos + ["/uploads/" + file.value]), now, digits)))
  }

  method Start(db: Db, me: User, id: Key, now: Instant, digits: string) returns (r: Result<Booking>)
    requires db.Valid() && WellFormedInstant(now) && AllLowerBase36(digits)
    modifies db`bookings
    ensures db.Valid()
    ensures db.bookings == Apply(old(db.bookings), StartOutcome(old(db.bookings), me, id, now, digits))
    ensures r == Response(StartOutcome(old(db.bookings), me, id, now, digits))
  {
    StartKeepsInvariant(db.bookings, me, id, now, digits);
    r := CommitBooking(db, StartOutcome(db.bookings, me, id, now, digits));
  }

  method AddPhoto(db: Db, me: User, id: Key, file: Option<string>, now: Instant, digits: string) returns (r: Result<Booking>)
    requires db.Valid() && WellFormedInstant(now) && AllLowerBase36(digits)
    modifies db`bookings
    ensures db.Valid()
    ensures db.bookings == Apply(old(db.bookings), PhotoOutcome(old(db.bookings), me, id, file, now, digits))
    ensures r == Response(PhotoOutcome(old(db.bookings), me, id, file, now, digits))
  {
    PhotoKeepsInvariant(db.bookings, me, id, file, now, digits);
    r := CommitBooking(db, PhotoOutcome(db.bookings, me, id, file, now, digits));
  }
}

=== FILE: analytics.dfy ===
/**
 * The admin analytics of backend/routes/analytics.js: dashboard counters and
 * revenue sums, revenue grouped by period and by category, and the CSV export.
 * The clock readings (today's and this month's first millisecond) and the
 * date-to-bucket renderings of `$dateToString` are parameters: a bucket is an
 * integer whose order is the order of the rendered strings.
 */
module Analytics {
  import opened Wrappers
  import opened Text
  import Seqs
  import opened BookingModel
  import UserModel
  import Database
  import AuthMiddleware

  // ---------------------------------------------------------------- counters

  /** `countDocuments({ status })`: the number of bookings with the status. */
  function CountStatus(bs: seq<Booking>, st: BookingStatus): (n: nat)
    ensures n <= |bs|
  {
    if bs == [] then 0 else (if bs[0].status == st then 1 else 0) + CountStatus(bs[1..], st)
  }

  predicate HasStatus(b: Booking, st: BookingStatus) { b.status == st }

  /** The count is the number of bookings a status filter keeps. */
  lemma {:induction false} CountStatusIsCount(bs: seq<Booking>, st: BookingStatus)
    ensures CountStatus(bs, st) == Seqs.Count(bs, b => HasStatus(b, st))
  {
    if bs != [] {
      CountStatusIsCount(bs[1..], st);
    }
  }

  const AllStatuses: seq<BookingStatus> := [Pending, Confirmed, Assigned, OutForPickup, Completed, Cancelled]

  /** Every booking has exactly one of the six statuses, so the per-status counts add up to the total. */
  lemma {:induction false} StatusCountsPartition(bs: seq<Booking>)
    ensures CountStatus(bs, Pending) + CountStatus(bs, Confirmed) + CountStatus(bs, Assigned)
            + CountStatus(bs, OutForPickup) + CountStatus(bs, Completed) + CountStatus(bs, Cancelled) == |bs|
  {
    if bs != [] {
      StatusCountsPartition(bs[1..]);
    }
  }

  /** `$group` by status with a count: one entry per status that occurs, in the enum's order. */
  function Distribution(bs: seq<Booking>, sts: seq<BookingStatus>): (r: seq<(BookingStatus, nat)>)
    ensures forall e :: e in r ==> e.1 > 0 && e.0 in sts && e.1 == CountStatus(bs, e.0)
    ensures forall st :: st in sts && CountStatus(bs, st) > 0 ==> (st, CountStatus(bs, st)) in r
  {
    if sts == [] then []
    else (if CountStatus(bs, sts[0]) > 0 then [(sts[0], CountStatus(bs, sts[0]))] else []) + Distribution(bs, sts[1..])
  }

  function SumCounts(d: seq<(BookingStatus, nat)>): nat
  {
    if d == [] then 0 else d[0].1 + SumCounts(d[1..])
  }

  function CountOver(bs: seq<Booking>, sts: seq<BookingStatus>): nat
  {
    if sts == [] then 0 else CountStatus(bs, sts[0]) + CountOver(bs, sts[1..])
  }

  lemma {:induction false} DistributionSum(bs: seq<Booking>, sts: seq<BookingStatus>)
    ensures SumCounts(Distribution(bs, sts)) == CountOver(bs, sts)
  {
    if sts != [] {
      DistributionSum(bs, sts[1..]);
      var d := Distribution(bs, sts);
      var rest := Distribution(bs, sts[1..]);
      if CountStatus(bs, sts[0]) > 0 {
        assert d[0] == (sts[0], CountStatus(bs, sts[0])) && d[1..] == rest;
      } else {
        assert d == rest;
      }
    }
  }

  /** How many times a status is listed. */
  function Occurrences(sts: seq<BookingStatus>, st: BookingStatus): nat
  {
    if sts == [] then 0 else (if sts[0] == st then 1 else 0) + Occurrences(sts[1..], st)
  }

  lemma {:induction false} CountOverStep(bs: seq<Booking>, sts: seq<BookingStatus>)
    requires bs != []
    ensures CountOver(bs, sts) == CountOver(bs[1..], sts) + Occurrences(sts, bs[0].status)
  {
    if sts != [] {
      CountOverStep(bs, sts[1..]);
    }
  }

  /** Summing the per-status counts over a list naming every status once counts every booking once. */
  lemma {:induction false} CountOverAll(bs: seq<Booking>, sts: seq<BookingStatus>)
    requires forall st :: Occurrences(sts, st) == 1
    ensures CountOver(bs, sts) == |bs|
  {
    if bs == [] {
      CountOverEmpty(sts);
    } else {
      CountOverStep(bs, sts);
      CountOverAll(bs[1..], sts);
    }
  }

  lemma {:induction false} CountOverEmpty(sts: seq<BookingStatus>)
    ensures CountOver([], sts) == 0
  {
    if sts != [] {
      CountOverEmpty(sts[1..]);
    }
  }

  lemma AllStatusesOnce(st: BookingStatus)
    ensures Occurrences(AllStatuses, st) == 1
  {
  }

  /** The status distribution accounts for every booking exactly once. */
  lemma DistributionCoversAll(bs: seq<Booking>)
    ensures SumCounts(Distribution(bs, AllStatuses)) == |bs|
  {
    DistributionSum(bs, AllStatuses);
    forall st ensures Occurrences(AllStatuses, st) == 1 {
      AllStatusesOnce(st);
    }
    CountOverAll(bs, AllStatuses);
  }

  function FinalAmount(b: Booking): int { b.finalAmount }

  /** The revenue match: completed, with a completion time at or after `since`. */
  predicate CompletedSince(b: Booking, since: int)
  {
    b.status == Completed && b.completedAt.Some? && b.completedAt.value >= since
  }

  /** The `$sum` of `finalAmount` over the matches; `total || 0` makes it 0 when nothing matches. */
  function RevenueSince(bs: seq<Booking>, since: int): (r: int)
    ensures (forall i :: 0 <= i < |bs| ==> bs[i].finalAmount >= 0) ==> r >= 0
  {
    var m := Seqs.Filter(bs, b => CompletedSince(b, since));
    assert (forall i :: 0 <= i < |bs| ==> bs[i].finalAmount >= 0) ==> Seqs.Sum(m, FinalAmount) >= 0 by {
      if forall i :: 0 <= i < |bs| ==> bs[i].finalAmount >= 0 {
        forall i | 0 <= i < |m| ensures FinalAmount(m[i]) >= 0 {
          assert m[i] in bs;
        }
        Seqs.SumNonNegative(m, FinalAmount);
      }
    }
    Seqs.Sum(m, FinalAmount)
  }

  /** With no completed booking in the window the revenue is 0. */
  lemma RevenueZeroWhenNoneMatch(bs: seq<Booking>, since: int)
    requires forall i :: 0 <= i < |bs| ==> !CompletedSince(bs[i], since)
    ensures RevenueSince(bs, since) == 0
  {
    Seqs.FilterNone(bs, b => CompletedSince(b, since));
  }

  /** A later start never yields more revenue: today's revenue is at most this month's. */
  lemma {:induction false} RevenueMonotone(bs: seq<Booking>, early: int, late: int)
    requires early <= late
    requires forall i :: 0 <= i < |bs| ==> bs[i].finalAmount >= 0
    ensures RevenueSince(bs, late) <= RevenueSince(bs, early)
  {
    if bs != [] {
      RevenueMonotone(bs[1..], early, late);
      RevenueCons(bs, early);
      RevenueCons(bs, late);
    }
  }

  /** The revenue of a non-empty list: the first booking's amount when it counts, plus the rest's. */
  lemma RevenueCons(bs: seq<Booking>, since: int)
    requires bs != []
    ensures RevenueSince(bs, since)
            == (if CompletedSince(bs[0], since) then bs[0].finalAmount else 0) + RevenueSince(bs[1..], since)
  {
    var p := (b: Booking) => CompletedSince(b, since);
    assert RevenueSince(bs, since) == Seqs.Sum(Seqs.Filter(bs, p), FinalAmount);
    assert RevenueSince(bs[1..], since) == Seqs.Sum(Seqs.Filter(bs[1..], p), FinalAmount);
    var rest := Seqs.Filter(bs[1..], p);
    if p(bs[0]) {
      assert Seqs.Filter(bs, p) == [bs[0]] + rest;
      assert ([bs[0]] + rest)[1..] == rest;
    } else {
      assert Seqs.Filter(bs, p) == rest;
    }
  }

  // ---------------------------------------------------------------- buckets

  /** One group of a `$group` on a date bucket: the bucket, the summed `finalAmount` and the count. */
  datatype Bucket = Bucket(key: int, revenue: int, bookings: nat)

  function BucketOf(bs: seq<Booking>, keyOf: Booking -> int, k: int): Bucket
  {
    var m := Seqs.Filter(bs, b => keyOf(b) == k);
    Bucket(k, Seqs.Sum(m, FinalAmount), |m|)
  }

  function BucketsFor(bs: seq<Booking>, keyOf: Booking -> int, keys: seq<int>): (r: seq<Bucket>)
    ensures |r| == |keys| && forall i :: 0 <= i < |keys| ==> r[i] == BucketOf(bs, keyOf, keys[i])
  {
    if keys == [] then [] else [BucketOf(bs, keyOf, keys[0])] + BucketsFor(bs, keyOf, keys[1..])
  }

  function KeysOf(bs: seq<Booking>, keyOf: Booking -> int): (r: seq<int>)
    ensures |r| == |bs| && forall i :: 0 <= i < |bs| ==> r[i] == keyOf(bs[i])
  {
    if bs == [] then [] else [keyOf(bs[0])] + KeysOf(bs[1..], keyOf)
  }

  /** A bucket whose key some booking has counts at least that booking. */
  lemma BucketNonEmpty(bs: seq<Booking>, keyOf: Booking -> int, k: int)
    requires k in KeysOf(bs, keyOf)
    ensures BucketOf(bs, keyOf, k).bookings >= 1
  {
    var i :| 0 <= i < |bs| && KeysOf(bs, keyOf)[i] == k;
    assert bs[i] in Seqs.Filter(bs, b => keyOf(b) == k);
  }

  function Id(x: int): int { x }

  lemma StrictlyDescending(r: seq<int>)
    requires forall i, j :: 0 <= i < j < |r| ==> Id(r[i]) >= Id(r[j])
    requires Seqs.NoDuplicates(r)
    ensures forall i, j :: 0 <= i < j < |r| ==> r[i] > r[j]
  {
    forall i, j | 0 <= i < j < |r| ensures r[i] > r[j] {
      assert Id(r[i]) >= Id(r[j]) && r[i] != r[j];
    }
  }

  /** The distinct keys of the bookings, in descending order, as `$sort: { _id: -1 }` orders the groups. */
  function KeysDescending(bs: seq<Booking>, keyOf: Booking -> int): (r: seq<int>)
    ensures forall i, j :: 0 <= i < j < |r| ==> r[i] > r[j]
    ensures forall k :: k in r <==> k in KeysOf(bs, keyOf)
  {
    var d := Seqs.Distinct(KeysOf(bs, keyOf));
    var r := Seqs.SortDescBy(d, Id);
    Seqs.NoDuplicatesPermutation(d, r);
    StrictlyDescending(r);
    assert forall k :: k in r <==> k in d by {
      forall k ensures k in r <==> k in d {
        Seqs.SortDescByMembership(d, Id, k);
      }
    }
    r
  }

  lemma StrictlyAscending(r: seq<int>)
    requires Seqs.SortedBy(r, Id) && Seqs.NoDuplicates(r)
    ensures forall i, j :: 0 <= i < j < |r| ==> r[i] < r[j]
  {
    forall i, j | 0 <= i < j < |r| ensures r[i] < r[j] {
      assert Id(r[i]) <= Id(r[j]) && r[i] != r[j];
    }
  }

  /** The distinct keys of the bookings, in ascending order. */
  function KeysAscending(bs: seq<Booking>, keyOf: Booking -> int): (r: seq<int>)
    ensures forall i, j :: 0 <= i < j < |r| ==> r[i] < r[j]
    ensures forall k :: k in r <==> k in KeysOf(bs, keyOf)
  {
    var d := Seqs.Distinct(KeysOf(bs, keyOf));
    var r := Seqs.SortBy(d, Id);
    Seqs.NoDuplicatesPermutation(d, r);
    StrictlyAscending(r);
    assert forall k :: k in r <==> k in d by {
      forall k ensures k in r <==> k in d {
        Seqs.SortByMembership(d, Id, k);
      }
    }
    r
  }

  /** Grouping by key: one bucket per key that occurs, each counting and summing exactly the bookings with that key. */
  lemma GroupedBuckets(bs: seq<Booking>, keyOf: Booking -> int, keys: seq<int>)
    requires forall k :: k in keys <==> k in KeysOf(bs, keyOf)
    ensures var r := BucketsFor(bs, keyOf, keys);
            && (forall i :: 0 <= i < |r| ==> r[i].bookings >= 1 && r[i] == BucketOf(bs, keyOf, r[i].key))
            && (forall b :: b in bs ==> exists i :: 0 <= i < |r| && r[i].key == keyOf(b))
  {
    var r := BucketsFor(bs, keyOf, keys);
    forall i | 0 <= i < |r| ensures r[i].bookings >= 1 {
      assert keys[i] in keys;
      BucketNonEmpty(bs, keyOf, keys[i]);
    }
    forall b | b in bs ensures exists i :: 0 <= i < |r| && r[i].key == keyOf(b) {
      var j :| 0 <= j < |bs| && bs[j] == b;
      assert keyOf(b) == KeysOf(bs, keyOf)[j] && KeysOf(bs, keyOf)[j] in KeysOf(bs, keyOf);
      var i :| 0 <= i < |keys| && keys[i] == keyOf(b);
      assert r[i].key == keyOf(b);
    }
  }

  // ---------------------------------------------------------------- dashboard

  predicate CreatedSince(b: Booking, since: int) { b.createdAt >= since }
  predicate HasRole(u: UserModel.User, role: UserModel.Role) { u.role == role }
  predicate Any(b: Booking) { true }

  datatype Dashboard = Dashboard(
    totalBookings: nat,
    todayBookings: nat,
    pendingBookings: nat,
    completedBookings: nat,
    totalUsers: nat,
    totalAgents: nat,
    monthlyRevenue: int,
    todayRevenue: int,
    recentBookings: seq<Booking>,
    statusDistribution: seq<(BookingStatus, nat)>,
    weeklyTrend: seq<Bucket>)

  /**
   * The dashboard's figures.  `today` is the first millisecond of the current
   * day, `weekAgo` of the same local time seven calendar days earlier and
   * `monthStart` of the current month; `dayKey` renders a creation time as its
   * '%Y-%m-%d' bucket.  The weekly trend groups the bookings created since
   * `weekAgo`, oldest day first; the recent bookings are the ten newest.
   */
  function Overview(bs: seq<Booking>, users: seq<UserModel.User>, today: int, weekAgo: int, monthStart: int, dayKey: int -> int)
    : (d: Dashboard)
    ensures d.totalBookings == |bs|
    ensures d.todayBookings == Seqs.Count(bs, b => CreatedSince(b, today))
    ensures d.pendingBookings == CountStatus(bs, Pending) && d.completedBookings == CountStatus(bs, Completed)
    ensures d.totalUsers == Seqs.Count(users, u => HasRole(u, UserModel.Customer))
    ensures d.totalAgents == Seqs.Count(users, u => HasRole(u, UserModel.Agent))
    ensures d.monthlyRevenue == RevenueSince(bs, monthStart) && d.todayRevenue == RevenueSince(bs, today)
    ensures |d.recentBookings| <= 10 && d.recentBookings == Seqs.NewestFirst(bs, Any, CreatedAt, 10)
    ensures d.statusDistribution == Distribution(bs, AllStatuses)
    ensures SumCounts(d.statusDistribution) == |bs|
    ensures d.weeklyTrend == WeeklyTrend(bs, weekAgo, dayKey)
  {
    DistributionCoversAll(bs);
    Dashboard(
      |bs|,
      Seqs.Count(bs, b => CreatedSince(b, today)),
      CountStatus(bs, Pending),
      CountStatus(bs, Completed),
      Seqs.Count(users, u => HasRole(u, UserModel.Customer)),
      Seqs.Count(users, u => HasRole(u, UserModel.Agent)),
      RevenueSince(bs, monthStart),
      RevenueSince(bs, today),
      Seqs.NewestFirst(bs, Any, CreatedAt, 10),
      Distribution(bs, AllStatuses),
      WeeklyTrend(bs, weekAgo, dayKey))
  }

  /**
   * The bookings of the last seven days grouped by creation day, oldest day
   * first: one bucket per day that has a booking, each holding exactly that
   * day's bookings.
   */
  function WeeklyTrend(bs: seq<Booking>, weekAgo: int, dayKey: int -> int): (r: seq<Bucket>)
    ensures forall i, j :: 0 <= i < j < |r| ==> r[i].key < r[j].key
    ensures forall i :: 0 <= i < |r| ==>
              r[i].bookings >= 1 && r[i] == BucketOf(WeekBookings(bs, weekAgo), DayOf(dayKey), r[i].key)
    ensures forall b :: b in WeekBookings(bs, weekAgo) ==> exists i :: 0 <= i < |r| && r[i].key == dayKey(b.createdAt)
  {
    var week := WeekBookings(bs, weekAgo);
    var dayOf := DayOf(dayKey);
    var keys := KeysAscending(week, dayOf);
    GroupedBuckets(week, dayOf, keys);
    BucketsFor(week, dayOf, keys)
  }

  /** The bookings created at or after `weekAgo`. */
  function WeekBookings(bs: seq<Booking>, weekAgo: int): (r: seq<Booking>)
    ensures forall b :: b in r <==> b in bs && b.createdAt >= weekAgo
  {
    Seqs.Filter(bs, b => CreatedSince(b, weekAgo))
  }

  function DayOf(dayKey: int -> int): Booking -> int
  {
    (b: Booking) => dayKey(b.createdAt)
  }

  /** GET /api/analytics/dashboard: the figures, for admins only. */
  function DashboardOutcome(bs: seq<Booking>, users: seq<UserModel.User>, me: UserModel.User,
                            today: int, weekAgo: int, monthStart: int, dayKey: int -> int): (r: Result<Dashboard>)
    ensures me.role != UserModel.Admin ==> r == Err(AuthMiddleware.Authorize(me, [UserModel.Admin]).failure)
    ensures r.Ok? <==> me.role == UserModel.Admin
    ensures r.Ok? ==> r.value == Overview(bs, users, today, weekAgo, monthStart, dayKey)
  {
    match AuthMiddleware.Authorize(me, [UserModel.Admin])
    case Err(f) => Err(f)
    case Ok(_) => Ok(Overview(bs, users, today, weekAgo, monthStart, dayKey))
  }

  // ---------------------------------------------------------------- revenue report

  /** The `$dateToString` format for a period: daily, weekly, or monthly for anything else. */
  function BucketFormat(period: string): (r: string)
    ensures period == "daily" <==> r == "%Y-%m-%d"
    ensures period == "weekly" <==> r == "%Y-%U"
    ensures period != "daily" && period != "weekly" <==> r == "%Y-%m"
  {
    if period == "daily" then "%Y-%m-%d" else if period == "weekly" then "%Y-%U" else "%Y-%m"
  }

  /** One period row: the bucket plus `$avg` of `finalAmount`. */
  datatype RevenueRow = RevenueRow(key: int, revenue: int, bookings: nat, avgAmount: real)

  function WithAverage(bk: Bucket): (r: RevenueRow)
    requires bk.bookings >= 1
    ensures r.key == bk.key && r.revenue == bk.revenue && r.bookings == bk.bookings
    ensures r.avgAmount * (r.bookings as real) == r.revenue as real
  {
    RevenueRow(bk.key, bk.revenue, bk.bookings, bk.revenue as real / bk.bookings as real)
  }

  function WithAverages(bks: seq<Bucket>): (r: seq<RevenueRow>)
    requires forall i :: 0 <= i < |bks| ==> bks[i].bookings >= 1
    ensures |r| == |bks| && forall i :: 0 <= i < |bks| ==> r[i] == WithAverage(bks[i])
  {
    if bks == [] then [] else [WithAverage(bks[0])] + WithAverages(bks[1..])
  }

  predicate IsCompleted(b: Booking) { b.status == Completed }

  /** The time a completed booking is bucketed by. */
  function CompletedMs(b: Booking): int { if b.completedAt.Some? then b.completedAt.value else 0 }

  /** One category row: `$unwind` the items, then group by category name. */
  datatype CategoryRow = CategoryRow(name: string, revenue: int, totalWeight: int)

  function CategoryRevenueOf(r: CategoryRow): int { r.revenue }

  /** `$sum` skips a missing weight. */
  function WeightOrZero(it: Item): int { if it.actualWeight.Some? then it.actualWeight.value else 0 }

  function CompletedItems(bs: seq<Booking>): (r: seq<Item>)
    ensures forall i, k :: 0 <= i < |bs| && bs[i].status == Completed && 0 <= k < |bs[i].items| ==> bs[i].items[k] in r
  {
    if bs == [] then []
    else (if bs[0].status == Completed then bs[0].items else []) + CompletedItems(bs[1..])
  }

  function CategoryRowOf(items: seq<Item>, name: string): CategoryRow
  {
    var m := Seqs.Filter(items, (it: Item) => it.categoryName == name);
    CategoryRow(name, Seqs.Sum(m, ItemAmount), Seqs.Sum(m, WeightOrZero))
  }

  function CategoryRowsFor(items: seq<Item>, names: seq<string>): (r: seq<CategoryRow>)
    ensures |r| == |names| && forall i :: 0 <= i < |names| ==> r[i] == CategoryRowOf(items, names[i])
  {
    if names == [] then [] else [CategoryRowOf(items, names[0])] + CategoryRowsFor(items, names[1..])
  }

  function Names(items: seq<Item>): (r: seq<string>)
    ensures |r| == |items| && forall i :: 0 <= i < |items| ==> r[i] == items[i].categoryName
  {
    if items == [] then [] else [items[0].categoryName] + Names(items[1..])
  }

  /** The category groups before sorting: one row per category name, in order of first appearance. */
  function CategoryRows(bs: seq<Booking>): (rows: seq<CategoryRow>)
    ensures forall i :: 0 <= i < |rows| ==> rows[i] == CategoryRowOf(CompletedItems(bs), rows[i].name)
    ensures forall i, j :: 0 <= i < j < |rows| ==> rows[i].name != rows[j].name
    ensures forall it :: it in CompletedItems(bs) ==> exists i :: 0 <= i < |rows| && rows[i].name == it.categoryName
  {
    var items := CompletedItems(bs);
    var names := Seqs.Distinct(Names(items));
    var rows := CategoryRowsFor(items, names);
    forall it | it in items ensures exists i :: 0 <= i < |rows| && rows[i].name == it.categoryName {
      var k :| 0 <= k < |items| && items[k] == it;
      assert Names(items)[k] == it.categoryName && Names(items)[k] in Names(items);
      var j :| 0 <= j < |names| && names[j] == it.categoryName;
      assert rows[j].name == it.categoryName;
    }
    rows
  }

  /** Revenue by category over completed bookings, highest revenue first. */
  function CategoryRevenue(bs: seq<Booking>): (r: seq<CategoryRow>)
    ensures forall i, j :: 0 <= i < j < |r| ==> r[i].revenue >= r[j].revenue
    ensures multiset(r) == multiset(CategoryRows(bs))
  {
    Seqs.SortDescBy(CategoryRows(bs), CategoryRevenueOf)
  }

  /** Each category name has exactly one row, and that row sums exactly the completed items of that category. */
  lemma CategoryRevenueGroups(bs: seq<Booking>)
    ensures var r := CategoryRevenue(bs);
            && (forall i :: 0 <= i < |r| ==> r[i] == CategoryRowOf(CompletedItems(bs), r[i].name))
            && (forall i, j :: 0 <= i < j < |r| ==> r[i].name != r[j].name)
            && (forall it :: it in CompletedItems(bs) ==> exists i :: 0 <= i < |r| && r[i].name == it.categoryName)
  {
    var rows := CategoryRows(bs);
    var r := CategoryRevenue(bs);
    RevenueRowsAreRows(bs);
    assert Seqs.NoDuplicates(rows) by {
      forall i, j | 0 <= i < j < |rows| ensures rows[i] != rows[j] {
        assert rows[i].name != rows[j].name;
      }
    }
    Seqs.NoDuplicatesPermutation(rows, r);
    forall i | 0 <= i < |r| ensures r[i] == CategoryRowOf(CompletedItems(bs), r[i].name) {
      RowOfMember(bs, r[i]);
    }
    forall i, j | 0 <= i < j < |r| ensures r[i].name != r[j].name {
      RowOfMember(bs, r[i]);
      RowOfMember(bs, r[j]);
    }
    forall it | it in CompletedItems(bs) ensures exists i :: 0 <= i < |r| && r[i].name == it.categoryName {
      var k :| 0 <= k < |rows| && rows[k].name == it.categoryName;
      assert rows[k] in r;
      var i :| 0 <= i < |r| && r[i] == rows[k];
    }
  }

  lemma RowOfMember(bs: seq<Booking>, x: CategoryRow)
    requires x in CategoryRevenue(bs)
    ensures x == CategoryRowOf(CompletedItems(bs), x.name)
  {
    RevenueRowsAreRows(bs);
    var rows := CategoryRows(bs);
    var k :| 0 <= k < |rows| && rows[k] == x;
  }

  /** Sorting the groups keeps exactly the same rows. */
  lemma RevenueRowsAreRows(bs: seq<Booking>)
    ensures forall x :: x in CategoryRevenue(bs) <==> x in CategoryRows(bs)
  {
    forall x ensures x in CategoryRevenue(bs) <==> x in CategoryRows(bs) {
      Seqs.SortDescByMembership(CategoryRows(bs), CategoryRevenueOf, x);
    }
  }

  /** The bucket of a booking's completion time in a `$dateToString` format. */
  function BucketKey(bucket: (string, int) -> int, fmt: string): Booking -> int
  {
    b => bucket(fmt, CompletedMs(b))
  }

  /** The period rows: completed bookings grouped by bucket, latest bucket first, at most thirty. */
  function PeriodRows(bs: seq<Booking>, fmt: string, bucket: (string, int) -> int): (r: seq<RevenueRow>)
    ensures |r| <= 30
    ensures forall i, j :: 0 <= i < j < |r| ==> r[i].key > r[j].key
  {
    var done := Seqs.Filter(bs, IsCompleted);
    var keyOf := BucketKey(bucket, fmt);
    var top := Seqs.Take(KeysDescending(done, keyOf), 30);
    PeriodBucketsNonEmpty(done, keyOf);
    WithAverages(BucketsFor(done, keyOf, top))
  }

  lemma PeriodBucketsNonEmpty(done: seq<Booking>, keyOf: Booking -> int)
    ensures var top := Seqs.Take(KeysDescending(done, keyOf), 30);
            forall i :: 0 <= i < |top| ==> BucketsFor(done, keyOf, top)[i].bookings >= 1
  {
    var keys := KeysDescending(done, keyOf);
    var top := Seqs.Take(keys, 30);
    forall i | 0 <= i < |top| ensures BucketsFor(done, keyOf, top)[i].bookings >= 1 {
      assert top[i] == keys[i] && keys[i] in keys;
      BucketNonEmpty(done, keyOf, top[i]);
    }
  }

  /** Each period row counts and sums exactly the completed bookings in its bucket, with their average. */
  lemma PeriodRowsContent(bs: seq<Booking>, fmt: string, bucket: (string, int) -> int)
    ensures var r := PeriodRows(bs, fmt, bucket);
            forall i :: 0 <= i < |r| ==>
              var bk := BucketOf(Seqs.Filter(bs, IsCompleted), BucketKey(bucket, fmt), r[i].key);
              && bk.bookings >= 1
              && r[i] == WithAverage(bk)
  {
    var done := Seqs.Filter(bs, IsCompleted);
    var keyOf := BucketKey(bucket, fmt);
    var top := Seqs.Take(KeysDescending(done, keyOf), 30);
    PeriodBucketsNonEmpty(done, keyOf);
    var bks := BucketsFor(done, keyOf, top);
    assert PeriodRows(bs, fmt, bucket) == WithAverages(bks);
  }

  /** A key among descending keys is among the first thirty, or older than the thirtieth. */
  lemma TopCovers(keys: seq<int>, x: int)
    requires x in keys && forall i, j :: 0 <= i < j < |keys| ==> keys[i] > keys[j]
    ensures var top := Seqs.Take(keys, 30);
            (exists i :: 0 <= i < |top| && top[i] == x) || (|top| == 30 && x < top[29])
  {
    var k :| 0 <= k < |keys| && keys[k] == x;
    var top := Seqs.Take(keys, 30);
    if k < 30 {
      assert top[k] == x;
    } else {
      assert top[29] == keys[29];
    }
  }

  lemma KeyOfMember(bs: seq<Booking>, keyOf: Booking -> int, b: Booking)
    requires b in bs
    ensures keyOf(b) in KeysOf(bs, keyOf)
  {
    var j :| 0 <= j < |bs| && bs[j] == b;
    assert KeysOf(bs, keyOf)[j] == keyOf(b);
  }

  /** The rows' keys are the thirty newest bucket keys, in order. */
  lemma PeriodRowKeys(bs: seq<Booking>, fmt: string, bucket: (string, int) -> int)
    ensures var top := Seqs.Take(KeysDescending(Seqs.Filter(bs, IsCompleted), BucketKey(bucket, fmt)), 30);
            var r := PeriodRows(bs, fmt, bucket);
            |r| == |top| && forall i :: 0 <= i < |r| ==> r[i].key == top[i]
  {
    var done := Seqs.Filter(bs, IsCompleted);
    var keyOf := BucketKey(bucket, fmt);
    var top := Seqs.Take(KeysDescending(done, keyOf), 30);
    PeriodBucketsNonEmpty(done, keyOf);
    var bks := BucketsFor(done, keyOf, top);
    assert PeriodRows(bs, fmt, bucket) == WithAverages(bks);
  }

  /** A bucket that has completed bookings but no row is older than all thirty rows. */
  lemma PeriodRowsLatest(bs: seq<Booking>, fmt: string, bucket: (string, int) -> int, b: Booking)
    requires b in bs && b.status == Completed
    ensures var r := PeriodRows(bs, fmt, bucket);
            (exists i :: 0 <= i < |r| && r[i].key == BucketKey(bucket, fmt)(b))
            || (|r| == 30 && BucketKey(bucket, fmt)(b) < r[29].key)
  {
    var done := Seqs.Filter(bs, IsCompleted);
    var keyOf := BucketKey(bucket, fmt);
    var keys := KeysDescending(done, keyOf);
    var top := Seqs.Take(keys, 30);
    var r := PeriodRows(bs, fmt, bucket);
    PeriodRowKeys(bs, fmt, bucket);
    assert b in done;
    KeyOfMember(done, keyOf, b);
    TopCovers(keys, keyOf(b));
    if exists i :: 0 <= i < |top| && top[i] == keyOf(b) {
      var i :| 0 <= i < |top| && top[i] == keyOf(b);
      assert r[i].key == keyOf(b);
    }
  }

  /**
   * GET /api/analytics/revenue (admins only): the period rows of the
   * completion times and the category rows.  `bucket(format, ms)` renders a
   * time in a `$dateToString` format; an absent period is monthly.
   */
  function RevenueReport(bs: seq<Booking>, me: UserModel.User, period: string, bucket: (string, int) -> int)
    : (r: Result<(seq<RevenueRow>, seq<CategoryRow>)>)
    ensures me.role != UserModel.Admin ==> r == Err(AuthMiddleware.Authorize(me, [UserModel.Admin]).failure)
    ensures r.Ok? <==> me.role == UserModel.Admin
    ensures r.Ok? ==> r.value.0 == PeriodRows(bs, BucketFormat(period), bucket) && r.value.1 == CategoryRevenue(bs)
  {
    match AuthMiddleware.Authorize(me, [UserModel.Admin])
    case Err(f) => Err(f)
    case Ok(_) => Ok((PeriodRows(bs, BucketFormat(period), bucket), CategoryRevenue(bs)))
  }

  // ---------------------------------------------------------------- CSV export

  const HeaderNames: seq<string> := ["Booking ID", "Customer", "Phone", "Address", "Date", "Time Slot", "Status",
                                     "Items", "Est. Amount", "Final Amount", "Payment Method", "Payment Status", "Agent"]

  /** The header line: the column names separated by commas, then a line break. */
  const CsvHeader: string := Join(HeaderNames, ",") + "\n"

  /** A line of comma-free names joined by commas and ended by a line break splits back into the names. */
  lemma SplitLine(names: seq<string>)
    requires |names| >= 1 && forall i :: 0 <= i < |names| ==> ',' !in names[i]
    ensures var line := Join(names, ",") + "\n";
            |line| >= 1 && Split(line[..|line| - 1], ',') == names
  {
    var j := Join(names, ",");
    assert (j + "\n")[..|j + "\n"| - 1] == j;
    SplitJoin(names, ',');
  }

  /** The header line names thirteen columns. */
  lemma HeaderColumns()
    ensures |HeaderNames| == 13
    ensures |CsvHeader| >= 1 && Split(CsvHeader[..|CsvHeader| - 1], ',') == HeaderNames
  {
    SplitLine(HeaderNames);
  }

  /** `${categoryName}:${estimatedWeight}kg`. */
  function ItemLabel(it: Item): (r: string)
    ensures |r| >= |it.categoryName| + 3 && r[..|it.categoryName|] == it.categoryName
    ensures r[|it.categoryName|] == ':' && r[|r| - 2..] == "kg"
  {
    it.categoryName + ":" + IntToString(it.estimatedWeight) + "kg"
  }

  function ItemLabels(items: seq<Item>): (r: seq<string>)
    ensures |r| == |items| && forall i :: 0 <= i < |items| ==> r[i] == ItemLabel(items[i])
  {
    if items == [] then [] else [ItemLabel(items[0])] + ItemLabels(items[1..])
  }

  /** `populate(...)` then `x?.field || fallback`: a missing account or an empty field shows the fallback. */
  function PopulatedOr(users: seq<UserModel.User>, id: Option<Key>, field: UserModel.User -> string, fallback: string): (r: string)
    ensures id.None? || Database.FindUser(users, id.value).None? ==> r == fallback
    ensures id.Some? && Database.FindUser(users, id.value).Some? ==>
              var v := field(users[Database.FindUser(users, id.value).value]);
              r == if v != "" then v else fallback
  {
    if id.None? then fallback
    else match Database.FindUser(users, id.value)
      case None => fallback
      case Some(j) => if field(users[j]) != "" then field(users[j]) else fallback
  }

  function NameOf(u: UserModel.User): string { u.name }
  function PhoneOf(u: UserModel.User): string { u.phone }

  /** The thirteen values of a booking's row, in header order; `dateText` is `toLocaleDateString`. */
  function Cells(b: Booking, users: seq<UserModel.User>, dateText: int -> string): (r: seq<string>)
    ensures |r| == |HeaderNames|
    ensures r[0] == b.bookingId && r[6] == StatusName(b.status)
    ensures Database.FindUser(users, b.user).None? ==> r[1] == "N/A" && r[2] == "N/A"
    ensures b.agent.None? ==> r[12] == "Unassigned"
    ensures r[7] == "\"" + Join(ItemLabels(b.items), "; ") + "\""
  {
    [b.bookingId,
     PopulatedOr(users, Some(b.user), NameOf, "N/A"),
     PopulatedOr(users, Some(b.user), PhoneOf, "N/A"),
     "\"" + b.address.fullAddress + "\"",
     dateText(b.scheduledDate),
     SlotName(b.timeSlot),
     StatusName(b.status),
     "\"" + Join(ItemLabels(b.items), "; ") + "\"",
     IntToString(b.estimatedAmount),
     IntToString(b.finalAmount),
     PaymentMethodName(b.paymentMethod),
     PaymentStatusName(b.paymentStatus),
     PopulatedOr(users, b.agent, NameOf, "Unassigned")]
  }

  function Row(b: Booking, users: seq<UserModel.User>, dateText: int -> string): string
  {
    Join(Cells(b, users, dateText), ",")
  }

  /** A row whose values hold no comma splits back into exactly its thirteen values, column under column. */
  lemma RowMatchesHeader(b: Booking, users: seq<UserModel.User>, dateText: int -> string)
    requires forall i :: 0 <= i < 13 ==> ',' !in Cells(b, users, dateText)[i]
    ensures Split(Row(b, users, dateText), ',') == Cells(b, users, dateText)
    ensures |Split(Row(b, users, dateText), ',')| == |Split(CsvHeader[..|CsvHeader| - 1], ',')|
  {
    SplitJoin(Cells(b, users, dateText), ',');
    HeaderColumns();
  }

  /** The export query: a creation-time window only when both ends are given, and the status when one is given. */
  predicate ExportMatch(b: Booking, from: Option<int>, to: Option<int>, status: string)
    ensures (from.None? || to.None?) && status == "" ==> ExportMatch(b, from, to, status)
  {
    && (from.Some? && to.Some? ==> from.value <= b.createdAt <= to.value)
    && (status != "" ==> StatusName(b.status) == status)
  }

  function Exported(bs: seq<Booking>, from: Option<int>, to: Option<int>, status: string): (r: seq<Booking>)
    ensures forall b :: b in r <==> b in bs && ExportMatch(b, from, to, status)
    ensures forall i, j :: 0 <= i < j < |r| ==> r[i].createdAt >= r[j].createdAt
  {
    var m := Seqs.Filter(bs, b => ExportMatch(b, from, to, status));
    var r := Seqs.SortDescBy(m, CreatedAt);
    assert forall b :: b in r <==> b in m by {
      forall b ensures b in r <==> b in m {
        Seqs.SortDescByMembership(m, CreatedAt, b);
      }
    }
    r
  }

  /** A window with only one end given is ignored: the export is the same as with no window. */
  lemma OneSidedWindowIgnored(bs: seq<Booking>, from: Option<int>, to: Option<int>, status: string)
    requires from.None? || to.None?
    ensures Exported(bs, from, to, status) == Exported(bs, None, None, status)
  {
    Seqs.FilterCongruent(bs, b => ExportMatch(b, from, to, status), b => ExportMatch(b, None, None, status));
  }

  function Rows(bs: seq<Booking>, users: seq<UserModel.User>, dateText: int -> string): (r: seq<string>)
    ensures |r| == |bs| && forall i :: 0 <= i < |bs| ==> r[i] == Row(bs[i], users, dateText)
  {
    if bs == [] then [] else [Row(bs[0], users, dateText)] + Rows(bs[1..], users, dateText)
  }

  /** GET /api/analytics/export (admins only): the header line, then one row per exported booking, newest first. */
  function Export(bs: seq<Booking>, users: seq<UserModel.User>, me: UserModel.User,
                  from: Option<int>, to: Option<int>, status: string, dateText: int -> string): (r: Result<string>)
    ensures me.role != UserModel.Admin ==> r == Err(AuthMiddleware.Authorize(me, [UserModel.Admin]).failure)
    ensures r.Ok? <==> me.role == UserModel.Admin
    ensures r.Ok? ==> |r.value| >= |CsvHeader| && r.value[..|CsvHeader|] == CsvHeader
    ensures r.Ok? ==> r.value[|CsvHeader|..] == Join(Rows(Exported(bs, from, to, status), users, dateText), "\n")
  {
    match AuthMiddleware.Authorize(me, [UserModel.Admin])
    case Err(f) => Err(f)
    case Ok(_) =>
      var body := Join(Rows(Exported(bs, from, to, status), users, dateText), "\n");
      assert (CsvHeader + body)[..|CsvHeader|] == CsvHeader;
      assert (CsvHeader + body)[|CsvHeader|..] == body;
      Ok(CsvHeader + body)
  }
}

=== FILE: announcement_model.dfy ===
/** The announcement document (backend/models/Announcement.js). */
module AnnouncementModel {
  import opened Wrappers

  datatype Target = All | Users | Agents

  function TargetName(t: Target): string
  {
    match t
    case All => "all"
    case Users => "users"
    case Agents => "agents"
  }

  /** The schema's enum check on `target`. */
  function ParseTarget(name: string): (r: Option<Target>)
    ensures r.Some? ==> TargetName(r.value) == name
    ensures forall t :: TargetName(t) == name ==> r == Some(t)
  {
    if name == "all" then Some(All)
    else if name == "users" then Some(Users)
    else if name == "agents" then Some(Agents)
    else None
  }

  datatype Priority = Low | Medium | High | Critical

  function PriorityName(p: Priority): string
  {
    match p
    case Low => "low"
    case Medium => "medium"
    case High => "high"
    case Critical => "critical"
  }

  /** The schema's enum check on `priority`. */
  function ParsePriority(name: string): (r: Option<Priority>)
    ensures r.Some? ==> PriorityName(r.value) == name
    ensures forall p :: PriorityName(p) == name ==> r == Some(p)
  {
    if name == "low" then Some(Low)
    else if name == "medium" then Some(Medium)
    else if name == "high" then Some(High)
    else if name == "critical" then Some(Critical)
    else None
  }

  datatype Announcement = Announcement(
    key: Key,
    title: string,
    content: string,
    target: Target,
    priority: Priority,
    expiresAt: Option<int>,
    createdBy: Option<Key>,
    isActive: bool,
    createdAt: int)

  /**
   * Builds the document `Announcement.create` writes: an absent target or
   * priority takes its default ('all', 'medium'); a value outside the enum, an
   * empty title or an empty content fails validation.
   */
  function MakeAnnouncement(key: Key, title: string, content: string, target: Option<string>,
                            priority: Option<string>, expiresAt: Option<int>, createdBy: Option<Key>,
                            createdAt: int): (r: Result<Announcement>)
    ensures r.Ok? <==> title != "" && content != ""
                       && (target.Some? ==> ParseTarget(target.value).Some?)
                       && (priority.Some? ==> ParsePriority(priority.value).Some?)
    ensures r.Ok? ==> r.value.isActive && r.value.createdBy == createdBy
    ensures r.Ok? && target.None? ==> r.value.target == All
    ensures r.Ok? && priority.None? ==> r.value.priority == Medium
    ensures r.Ok? && target.Some? ==> TargetName(r.value.target) == target.value
    ensures r.Ok? && priority.Some? ==> PriorityName(r.value.priority) == priority.value
    ensures r.Err? ==> r.failure.ServerError?
  {
    var t := if target.None? then Some(All) else ParseTarget(target.value);
    var p := if priority.None? then Some(Medium) else ParsePriority(priority.value);
    if title == "" || content == "" || t.None? || p.None? then Err(ServerError("Announcement validation failed"))
    else Ok(Announcement(key, title, content, t.value, p.value, expiresAt, createdBy, true, createdAt))
  }

  /** The sort key of `sort('-createdAt')`. */
  function CreatedAt(a: Announcement): int { a.createdAt }
}

=== FILE: announcements.dfy ===
/**
 * The announcement handlers of backend/routes/announcements.js: the reader's
 * feed, creation by an admin, and the soft delete that deactivates.
 */
module Announcements {
  import opened Wrappers
  import Seqs
  import opened AnnouncementModel
  import UserModel
  import Database
  import AuthMiddleware

  /** The audience a reader belongs to: agents read 'agents', every other role (admins included) reads 'users'. */
  function Audience(role: UserModel.Role): (t: Target)
    ensures t != All
    ensures t == Agents <==> role == UserModel.Agent
  {
    if role == UserModel.Agent then Agents else Users
  }

  /** The feed query: active, and aimed at everyone or at the given audience. */
  predicate VisibleIn(a: Announcement, audience: Target)
  {
    a.isActive && (a.target == All || a.target == audience)
  }

  /** At most ten announcements visible to an audience, newest first. */
  function FeedFor(as_: seq<Announcement>, audience: Target): (r: seq<Announcement>)
    ensures |r| <= 10
    ensures forall a :: a in r ==> a in as_ && VisibleIn(a, audience)
    ensures forall i, j :: 0 <= i < j < |r| ==> r[i].createdAt >= r[j].createdAt
    ensures Seqs.Count(as_, a => VisibleIn(a, audience)) <= 10 ==> forall a :: a in as_ && VisibleIn(a, audience) ==> a in r
    ensures |r| == if 10 <= Seqs.Count(as_, a => VisibleIn(a, audience)) then 10 else Seqs.Count(as_, a => VisibleIn(a, audience))
    ensures forall a :: a in as_ && VisibleIn(a, audience) && a !in r ==> |r| == 10 && a.createdAt <= r[9].createdAt
  {
    Seqs.NewestFirstKeepsNewest(as_, a => VisibleIn(a, audience), CreatedAt, 10);
    Seqs.NewestFirstComplete(as_, a => VisibleIn(a, audience), CreatedAt, 10);
    Seqs.NewestFirst(as_, a => VisibleIn(a, audience), CreatedAt, 10)
  }

  /** GET /api/announcements: the feed of the reader's audience. */
  function Feed(as_: seq<Announcement>, role: UserModel.Role): (r: seq<Announcement>)
    ensures forall a :: a in r ==> a in as_ && a.isActive
    ensures forall a :: a in r ==> a.target == All || (a.target == Agents <==> role == UserModel.Agent)
  {
    FeedFor(as_, Audience(role))
  }

  /** An admin reads the same feed as a customer: announcements aimed at agents only never reach admins. */
  lemma AdminsReadTheUserFeed(as_: seq<Announcement>)
    ensures Feed(as_, UserModel.Admin) == Feed(as_, UserModel.Customer)
  {
  }

  /** The body of POST /api/announcements; absent fields are None. */
  datatype AnnouncementRequest = AnnouncementRequest(title: string, content: string, target: Option<string>,
                                                     priority: Option<string>, expiresAt: Option<int>)

  /** POST /api/announcements (admins only): the document is created with the caller as its author. */
  function CreateOutcome(nextKey: Key, me: UserModel.User, req: AnnouncementRequest, now: int): (r: Result<Announcement>)
    ensures me.role != UserModel.Admin ==> r == Err(AuthMiddleware.Authorize(me, [UserModel.Admin]).failure)
    ensures me.role == UserModel.Admin ==>
              r == MakeAnnouncement(nextKey, req.title, req.content, req.target, req.priority, req.expiresAt, Some(me.key), now)
    ensures r.Ok? ==> r.value.createdBy == Some(me.key) && r.value.key == nextKey && r.value.isActive
  {
    match AuthMiddleware.Authorize(me, [UserModel.Admin])
    case Err(f) => Err(f)
    case Ok(_) => MakeAnnouncement(nextKey, req.title, req.content, req.target, req.priority, req.expiresAt, Some(me.key), now)
  }

  method Create(db: Database.Db, me: UserModel.User, req: AnnouncementRequest, now: int) returns (r: Result<Announcement>)
    requires db.Valid()
    modifies db`announcements, db`nextKey
    ensures db.Valid()
    ensures r == CreateOutcome(old(db.nextKey), me, req, now)
    ensures r.Err? ==> db.announcements == old(db.announcements) && db.nextKey == old(db.nextKey)
    ensures r.Ok? ==> db.announcements == old(db.announcements) + [r.value] && db.nextKey == old(db.nextKey) + 1
  {
    r := CreateOutcome(db.nextKey, me, req, now);
    if r.Ok? {
      db.announcements := db.announcements + [r.value];
      db.nextKey := db.nextKey + 1;
    }
  }

  /** `findByIdAndUpdate(id, { isActive: false })`: an unknown id changes nothing. */
  function Deactivated(as_: seq<Announcement>, id: Key): (r: seq<Announcement>)
    ensures |r| == |as_|
    ensures Database.FindAnnouncement(as_, id).Some? ==>
              r[Database.FindAnnouncement(as_, id).value] == as_[Database.FindAnnouncement(as_, id).value].(isActive := false)
    ensures forall i :: 0 <= i < |as_| && Database.FindAnnouncement(as_, id) != Some(i) ==> r[i] == as_[i]
  {
    match Database.FindAnnouncement(as_, id)
    case None => as_
    case Some(i) => as_[i := as_[i].(isActive := false)]
  }

  /** A deactivated announcement drops out of every reader's feed, while the document stays stored. */
  lemma DeactivatedLeavesEveryFeed(as_: seq<Announcement>, id: Key, role: UserModel.Role)
    requires Database.FindAnnouncement(as_, id).Some?
    requires Seqs.NoDuplicates(as_)
    ensures var i := Database.FindAnnouncement(as_, id).value;
            var after := Deactivated(as_, id);
            as_[i] !in Feed(after, role) && after[i].key == id && |after| == |as_|
  {
    var i := Database.FindAnnouncement(as_, id).value;
    var after := Deactivated(as_, id);
    forall a | a in Feed(after, role) ensures a != as_[i] {
      var k :| 0 <= k < |after| && after[k] == a;
      assert !after[i].isActive && a.isActive;
      assert k != i;
      assert a == as_[k];
    }
  }

  /** DELETE /api/announcements/:id (admins only): a soft delete, successful even for an unknown id. */
  method Delete(db: Database.Db, me: UserModel.User, id: Key) returns (r: Result<()>)
    requires db.Valid()
    modifies db`announcements
    ensures db.Valid()
    ensures r.Ok? <==> me.role == UserModel.Admin
    ensures r.Err? ==> r == Err(AuthMiddleware.Authorize(me, [UserModel.Admin]).failure) && db.announcements == old(db.announcements)
    ensures r.Ok? ==> db.announcements == Deactivated(old(db.announcements), id)
  {
    match AuthMiddleware.Authorize(me, [UserModel.Admin])
    case Err(f) => r := Err(f);
    case Ok(_) =>
      db.announcements := Deactivated(db.announcements, id);
      r := Ok(());
  }
}

=== FILE: auth_middleware.dfy ===
/**
 * The request guards of backend/middleware/auth.js: `protect` resolves the
 * bearer token to an active user, `authorize` checks the user's role.  Token
 * verification (`jwt.verify`) is not part of this model: it is the parameter
 * `verify`, which yields the user id a valid token carries and None when
 * verification throws.
 */
module AuthMiddleware {
  import opened Wrappers
  import opened Text
  import opened UserModel
  import Database

  /** The token of an Authorization header: its second space-separated part, when the header starts with "Bearer". */
  function BearerToken(header: Option<string>): (r: Option<string>)
    ensures r.Some? ==> header.Some? && StartsWith(header.value, "Bearer") && r.value != ""
    ensures r.Some? ==> |Split(header.value, ' ')| >= 2 && Split(header.value, ' ')[1] == r.value
    ensures (header.Some? && StartsWith(header.value, "Bearer") && |Split(header.value, ' ')| >= 2
             && Split(header.value, ' ')[1] != "") ==> r.Some?
  {
    if header.None? || !StartsWith(header.value, "Bearer") then None
    else
      var parts := Split(header.value, ' ');
      if |parts| < 2 || parts[1] == "" then None else Some(parts[1])
  }

  /** A well-formed header yields exactly the token it carries. */
  lemma BearerRoundTrip(token: string)
    requires token != "" && ' ' !in token
    ensures BearerToken(Some("Bearer " + token)) == Some(token)
  {
    var h := "Bearer " + token;
    assert h[..6] == "Bearer";
    assert ' ' in h by { assert h[6] == ' '; }
    assert FirstIndex(h, ' ') == 6 by {
      assert forall i :: 0 <= i < 6 ==> h[i] != ' ';
    }
    assert h[7..] == token;
    assert Split(token, ' ') == [token];
  }

  /**
   * `protect`: the user the request acts for, with its secrets withheld.  The
   * checks run in order: a token is present, it verifies, its user exists, the
   * account is active; each failure is a 401 with its own message.
   */
  function Protect(users: seq<User>, header: Option<string>, verify: string -> Option<Key>): (r: Result<User>)
    ensures BearerToken(header).None? ==> r == Err(Unauthorized("Not authorized, no token"))
    ensures BearerToken(header).Some? && verify(BearerToken(header).value).None?
            ==> r == Err(Unauthorized("Not authorized, token invalid"))
    ensures BearerToken(header).Some? && verify(BearerToken(header).value).Some?
            && Database.FindUser(users, verify(BearerToken(header).value).value).None?
            ==> r == Err(Unauthorized("User not found"))
    ensures BearerToken(header).Some? && verify(BearerToken(header).value).Some?
            && Database.FindUser(users, verify(BearerToken(header).value).value).Some?
            && !users[Database.FindUser(users, verify(BearerToken(header).value).value).value].isActive
            ==> r == Err(Unauthorized("Account deactivated"))
    ensures r.Err? ==> r.failure.Unauthorized?
    ensures r.Ok? <==> BearerToken(header).Some? && verify(BearerToken(header).value).Some?
                       && Database.FindUser(users, verify(BearerToken(header).value).value).Some?
                       && users[Database.FindUser(users, verify(BearerToken(header).value).value).value].isActive
    ensures r.Ok? ==> r.value.isActive && r.value.key == verify(BearerToken(header).value).value
    ensures r.Ok? ==> r.value == Sanitized(users[Database.FindUser(users, r.value.key).value])
  {
    match BearerToken(header)
    case None => Err(Unauthorized("Not authorized, no token"))
    case Some(token) =>
      match verify(token)
      case None => Err(Unauthorized("Not authorized, token invalid"))
      case Some(id) =>
        match Database.FindUser(users, id)
        case None => Err(Unauthorized("User not found"))
        case Some(i) =>
          if !users[i].isActive then Err(Unauthorized("Account deactivated"))
          else Ok(Sanitized(users[i]))
  }

  /** `authorize(...roles)`: the user passes iff its role is listed, and is otherwise refused with 403. */
  function Authorize(me: User, roles: seq<Role>): (r: Result<User>)
    ensures r.Ok? <==> me.role in roles
    ensures r.Ok? ==> r.value == me
    ensures r.Err? ==> r.failure == Forbidden("Role '" + RoleName(me.role) + "' is not authorized to access this route")
  {
    if me.role in roles then Ok(me)
    else Err(Forbidden("Role '" + RoleName(me.role) + "' is not authorized to access this route"))
  }

  /** A deactivated account is refused whatever token it presents. */
  lemma DeactivatedNeverPasses(users: seq<User>, header: Option<string>, verify: string -> Option<Key>, i: nat)
    requires i < |users| && !users[i].isActive
    requires forall j :: 0 <= j < |users| && j != i ==> users[j].key != users[i].key
    ensures Protect(users, header, verify).Ok? ==> Protect(users, header, verify).value.key != users[i].key
  {
  }
}

=== FILE: auth_routes.dfy ===
/**
 * The account handlers of backend/routes/auth.js: one-time-password issue and
 * verification, password login for staff, profile update, and the address
 * book.  Token signing (`jwt.sign`) is not part of this model: a successful
 * login yields the user the token would be signed for.
 */
module AuthRoutes {
  import opened Wrappers
  import opened Text
  import Seqs
  import opened UserModel
  import Database

  // ---------------------------------------------------------------- one-time passwords

  function Pow10(k: nat): (p: nat)
    ensures p >= 1
  {
    if k == 0 then 1 else 10 * Pow10(k - 1)
  }

  /** A number of k + 1 decimal digits renders as k + 1 characters. */
  lemma {:induction false} NatToStringLength(n: nat, k: nat)
    requires Pow10(k) <= n < Pow10(k + 1)
    ensures |NatToString(n)| == k + 1
  {
    if k > 0 {
      NatToStringLength(n / 10, k - 1);
    }
  }

  /**
   * `generateOTP`: `floor(100000 + random * 900000)` rendered in decimal, where
   * `draw` is `floor(random * 900000)`.  The code is always six digits and
   * reads back as a number in 100000..999999.
   */
  function GenerateOtp(draw: nat): (otp: string)
    requires draw < 900000
    ensures |otp| == 6 && forall i :: 0 <= i < 6 ==> IsDigit(otp[i])
    ensures 100000 <= ParseDigits(otp) <= 999999 && ParseDigits(otp) == 100000 + draw
  {
    var n := 100000 + draw;
    assert Pow10(5) == 100000 && Pow10(6) == 1000000;
    NatToStringLength(n, 5);
    ParseNatToString(n);
    NatToString(n)
  }

  /** How long an issued code stays valid: ten minutes, in milliseconds. */
  const OtpLifetime: int := 10 * 60 * 1000

  /**
   * POST /api/auth/send-otp: a missing phone is refused; otherwise the code and
   * its expiry are written onto the account with that phone, which is created
   * when there is none.  The code is echoed back only in development mode.
   */
  function SendOtpOutcome(users: seq<User>, nextKey: Key, phone: string, draw: nat, now: int, digits: string): (r: Result<User>)
    requires draw < 900000 && AllLowerBase36(digits)
    ensures phone == "" ==> r == Err(BadRequest("Phone number is required"))
    ensures phone != "" && Database.FindUserByPhone(users, phone).None? ==>
              r.Ok? && r.value.key == nextKey && r.value.role == Customer && !r.value.isVerified
    ensures phone != "" && Database.FindUserByPhone(users, phone).Some? && SchemaValid(users[Database.FindUserByPhone(users, phone).value]) ==>
              r.Ok? && r.value == PreSave(users[Database.FindUserByPhone(users, phone).value].(otp := Some(GenerateOtp(draw)), otpExpiry := Some(now + OtpLifetime)), digits)
    ensures r.Ok? ==> Stored(r.value) && r.value.phone == phone
    ensures r.Ok? ==> r.value.otp == Some(GenerateOtp(draw)) && r.value.otpExpiry == Some(now + OtpLifetime)
  {
    if phone == "" then Err(BadRequest("Phone number is required"))
    else
      var otp := GenerateOtp(draw);
      var doc := match Database.FindUserByPhone(users, phone)
        case None => NewUser(nextKey, phone, now).(otp := Some(otp), otpExpiry := Some(now + OtpLifetime))
        case Some(j) => users[j].(otp := Some(otp), otpExpiry := Some(now + OtpLifetime));
      if !SchemaValid(doc) then Err(ServerError("User validation failed"))
      else Ok(PreSave(doc, digits))
  }

  method SendOtp(db: Database.Db, phone: string, draw: nat, now: int, digits: string, development: bool)
    returns (r: Result<Option<string>>)
    requires db.Valid() && draw < 900000 && AllLowerBase36(digits)
    modifies db`users, db`nextKey
    ensures db.Valid()
    ensures SendOtpOutcome(old(db.users), old(db.nextKey), phone, draw, now, digits).Err? ==>
              db.users == old(db.users) && r == Err(SendOtpOutcome(old(db.users), old(db.nextKey), phone, draw, now, digits).failure)
    ensures SendOtpOutcome(old(db.users), old(db.nextKey), phone, draw, now, digits).Ok? ==>
              db.users == Database.UpsertUser(old(db.users), SendOtpOutcome(old(db.users), old(db.nextKey), phone, draw, now, digits).value)
              && r == Ok(if development then Some(GenerateOtp(draw)) else None)
  {
    var o := SendOtpOutcome(db.users, db.nextKey, phone, draw, now, digits);
    if o.Err? {
      return Err(o.failure);
    }
    assert Database.FindUser(db.users, o.value.key).Some? || o.value.key == db.nextKey by {
      if Database.FindUserByPhone(db.users, phone).Some? {
        assert o.value.key == db.users[Database.FindUserByPhone(db.users, phone).value].key;
      }
    }
    Database.SaveUser(db, o.value);
    r := Ok(if development then Some(GenerateOtp(draw)) else None);
  }

  /**
   * POST /api/auth/verify-otp.  The checks run in this order, each failing with
   * 400: both fields present, an account with the phone, the code equal to the
   * stored one, the code not expired.  Success marks the account verified and
   * erases the code and its expiry.
   */
  function VerifyOtpOutcome(users: seq<User>, phone: string, otp: string, now: int, digits: string): (r: Result<User>)
    requires AllLowerBase36(digits)
    ensures phone == "" || otp == "" ==> r == Err(BadRequest("Phone and OTP are required"))
    ensures phone != "" && otp != "" && Database.FindUserByPhone(users, phone).None? ==> r == Err(BadRequest("User not found"))
    ensures phone != "" && otp != "" && Database.FindUserByPhone(users, phone).Some? ==>
              var u := users[Database.FindUserByPhone(users, phone).value];
              && (u.otp != Some(otp) ==> r == Err(BadRequest("Invalid OTP")))
              && (u.otp == Some(otp) && u.otpExpiry.Some? && u.otpExpiry.value < now ==> r == Err(BadRequest("OTP expired")))
              && ((u.otp == Some(otp) && !(u.otpExpiry.Some? && u.otpExpiry.value < now) && SchemaValid(u))
                    ==> r == Ok(PreSave(u.(isVerified := true, otp := None, otpExpiry := None), digits)))
    ensures r.Ok? ==> r.value.isVerified && r.value.otp.None? && r.value.otpExpiry.None? && r.value.phone == phone
  {
    if phone == "" || otp == "" then Err(BadRequest("Phone and OTP are required"))
    else
      match Database.FindUserByPhone(users, phone)
      case None => Err(BadRequest("User not found"))
      case Some(j) =>
        var u := users[j];
        if u.otp != Some(otp) then Err(BadRequest("Invalid OTP"))
        else if u.otpExpiry.Some? && u.otpExpiry.value < now then Err(BadRequest("OTP expired"))
        else
          var doc := u.(isVerified := true, otp := None, otpExpiry := None);
          if !SchemaValid(doc) then Err(ServerError("User validation failed"))
          else Ok(PreSave(doc, digits))
  }

  /** The verify-otp handler: the outcome is saved over the account found by phone and answered. */
  method VerifyOtp(db: Database.Db, phone: string, otp: string, now: int, digits: string) returns (r: Result<User>)
    requires db.Valid() && AllLowerBase36(digits)
    modifies db`users, db`nextKey
    ensures db.Valid()
    ensures r == VerifyOtpOutcome(old(db.users), phone, otp, now, digits)
    ensures r.Err? ==> db.users == old(db.users)
    ensures r.Ok? ==> db.users == Database.UpsertUser(old(db.users), r.value)
  {
    r := VerifyOtpOutcome(db.users, phone, otp, now, digits);
    if r.Ok? {
      assert Database.FindUser(db.users, r.value.key).Some? by {
        var j := Database.FindUserByPhone(db.users, phone).value;
        assert r.value.key == db.users[j].key;
      }
      Database.SaveUser(db, r.value);
    }
  }

  /**
   * Saving a document whose phone is new, or which replaces the first account
   * with its phone, makes that document the account found by phone.
   */
  lemma SavedIsFoundByPhone(users: seq<User>, u: User)
    requires match Database.FindUserByPhone(users, u.phone)
             case Some(j) => users[j].key == u.key
             case None => Database.FindUser(users, u.key).None?
    ensures var after := Database.UpsertUser(users, u);
            Database.FindUserByPhone(after, u.phone).Some? && after[Database.FindUserByPhone(after, u.phone).value] == u
  {
    var after := Database.UpsertUser(users, u);
    match Database.FindUserByPhone(users, u.phone)
    case None =>
      assert forall i :: 0 <= i < |users| ==> after[i].phone != u.phone;
      assert after[|users|] == u;
    case Some(j) =>
      assert users[j].key == u.key;
      var k := Database.FindUser(users, u.key).value;
      assert k <= j && after[k] == u;
      assert forall i :: 0 <= i < k ==> after[i] == users[i];
      assert forall i :: 0 <= i < k ==> after[i].phone != u.phone;
  }

  /** A code verifies at most once: after a successful verification is saved, the same code is refused. */
  lemma OtpSingleUse(users: seq<User>, phone: string, otp: string, now: int, later: int, digits: string)
    requires AllLowerBase36(digits)
    requires VerifyOtpOutcome(users, phone, otp, now, digits).Ok?
    ensures var after := Database.UpsertUser(users, VerifyOtpOutcome(users, phone, otp, now, digits).value);
            VerifyOtpOutcome(after, phone, otp, later, digits) == Err(BadRequest("Invalid OTP"))
  {
    var j := Database.FindUserByPhone(users, phone).value;
    var u := VerifyOtpOutcome(users, phone, otp, now, digits).value;
    assert u.key == users[j].key;
    SavedIsFoundByPhone(users, u);
  }

  /** A code just issued is accepted until its expiry has passed, and refused as expired afterwards. */
  lemma OtpAcceptedUntilExpiry(users: seq<User>, nextKey: Key, phone: string, draw: nat, issued: int, now: int, digits: string)
    requires draw < 900000 && AllLowerBase36(digits) && phone != ""
    requires forall i :: 0 <= i < |users| ==> Stored(users[i]) && users[i].key < nextKey
    ensures SendOtpOutcome(users, nextKey, phone, draw, issued, digits).Ok?
    ensures var after := Database.UpsertUser(users, SendOtpOutcome(users, nextKey, phone, draw, issued, digits).value);
            var v := VerifyOtpOutcome(after, phone, GenerateOtp(draw), now, digits);
            && (now <= issued + OtpLifetime ==> v.Ok?)
            && (now > issued + OtpLifetime ==> v == Err(BadRequest("OTP expired")))
  {
    var u := SendOtpOutcome(users, nextKey, phone, draw, issued, digits).value;
    if Database.FindUserByPhone(users, phone).Some? {
      assert u.key == users[Database.FindUserByPhone(users, phone).value].key;
    }
    SavedIsFoundByPhone(users, u);
  }

  // ---------------------------------------------------------------- staff login

  predicate IsStaff(u: User) { u.role == Admin || u.role == Agent }

  /** `findOne({ phone, role: { $in: ['admin', 'agent'] } })`. */
  function FindStaff(users: seq<User>, phone: string): (r: Option<nat>)
    ensures r.Some? ==> r.value < |users| && users[r.value].phone == phone && IsStaff(users[r.value])
    ensures r.None? <==> forall i :: 0 <= i < |users| ==> !(users[i].phone == phone && IsStaff(users[i]))
  {
    Seqs.IndexWhere(users, (u: User) => u.phone == phone && IsStaff(u))
  }

  /**
   * POST /api/auth/admin-login: only admin and agent accounts may log in with
   * a password; an account without one is told so; the account's active flag
   * is not consulted.
   */
  function AdminLogin(users: seq<User>, phone: string, password: string): (r: Result<User>)
    ensures phone == "" || password == "" ==> r == Err(BadRequest("Phone and password required"))
    ensures phone != "" && password != "" ==>
              && (FindStaff(users, phone).None? ==> r == Err(Unauthorized("Invalid credentials")))
              && ((FindStaff(users, phone).Some? && users[FindStaff(users, phone).value].password.None?)
                    ==> r == Err(Unauthorized("Password not set. Contact admin.")))
    ensures r.Ok? <==> phone != "" && password != "" && FindStaff(users, phone).Some?
                       && users[FindStaff(users, phone).value].password.Some?
                       && Matches(password, users[FindStaff(users, phone).value].password.value)
    ensures r.Ok? ==> r.value == users[FindStaff(users, phone).value] && IsStaff(r.value)
    ensures r.Err? && phone != "" && password != "" ==> r.failure.Unauthorized?
  {
    if phone == "" || password == "" then Err(BadRequest("Phone and password required"))
    else
      match FindStaff(users, phone)
      case None => Err(Unauthorized("Invalid credentials"))
      case Some(i) =>
        var u := users[i];
        if u.password.None? then Err(Unauthorized("Password not set. Contact admin."))
        else if !Matches(password, u.password.value) then Err(Unauthorized("Invalid credentials"))
        else Ok(u)
  }

  /** A customer account never logs in with a password, whatever password it holds. */
  lemma CustomersCannotPasswordLogin(users: seq<User>, phone: string, password: string)
    requires forall i :: 0 <= i < |users| && users[i].phone == phone ==> users[i].role == Customer
    ensures AdminLogin(users, phone, password).Err?
  {
  }

  /** A deactivated staff account still logs in with its password. */
  lemma DeactivatedStaffCanLogin(u: User, password: string)
    requires u.phone != "" && password != "" && u.role == Admin && !u.isActive
    requires u.password == Some(Hashed(password))
    ensures AdminLogin([u], u.phone, password) == Ok(u)
  {
    assert FindStaff([u], u.phone) == Some(0);
  }

  // ---------------------------------------------------------------- profile and addresses

  /** PUT /api/auth/profile: only supplied, non-empty name, email and push token are written; the name is trimmed, the email trimmed and lower-cased. */
  function ProfileUpdated(u: User, name: string, email: string, fcmToken: string): (r: User)
    ensures r.name == (if name != "" then Trim(name) else u.name)
    ensures r.email == (if email != "" then Lower(Trim(email)) else u.email)
    ensures r.fcmToken == (if fcmToken != "" then fcmToken else u.fcmToken)
    ensures r.(name := u.name, email := u.email, fcmToken := u.fcmToken) == u
  {
    u.(name := if name != "" then Trim(name) else u.name,
       email := if email != "" then Lower(Trim(email)) else u.email,
       fcmToken := if fcmToken != "" then fcmToken else u.fcmToken)
  }

  /** An empty update writes nothing. */
  lemma EmptyProfileUpdate(u: User)
    ensures ProfileUpdated(u, "", "", "") == u
  {
  }

  /** `findByIdAndUpdate` on the caller, answering with the updated account minus its secrets (nothing when the account is gone). */
  method UpdateProfile(db: Database.Db, me: Key, name: string, email: string, fcmToken: string) returns (r: Option<User>)
    requires db.Valid()
    modifies db`users
    ensures db.Valid()
    ensures Database.FindUser(old(db.users), me).None? ==> r.None? && db.users == old(db.users)
    ensures Database.FindUser(old(db.users), me).Some? ==>
              var j := Database.FindUser(old(db.users), me).value;
              && db.users == old(db.users)[j := ProfileUpdated(old(db.users)[j], name, email, fcmToken)]
              && r == Some(Sanitized(db.users[j]))
  {
    match Database.FindUser(db.users, me)
    case None => r := None;
    case Some(j) =>
      var users := db.users[j := ProfileUpdated(db.users[j], name, email, fcmToken)];
      assert forall k :: 0 <= k < |users| ==> users[k].key < db.nextKey && Stored(users[k]);
      Database.WriteUsers(db, users);
      r := Some(Sanitized(users[j]));
  }

  /** The body of POST /api/auth/address; `city` is None when the body omits it. */
  datatype AddressRequest = AddressRequest(fullAddress: string, landmark: string, city: Option<string>, pincode: string, labelText: string)

  /**
   * The address book after adding an entry: refused without a street address;
   * the label defaults to 'Home' and the city to 'Nizampet'; the new entry is
   * the default exactly when the book was empty.
   */
  function AddressAdded(u: User, req: AddressRequest, key: Key): (r: Result<seq<SavedAddress>>)
    ensures r.Err? <==> req.fullAddress == ""
    ensures r.Err? ==> r == Err(BadRequest("Full address is required"))
    ensures r.Ok? ==> |r.value| == |u.addresses| + 1 && r.value[..|u.addresses|] == u.addresses
    ensures r.Ok? ==> var a := r.value[|u.addresses|];
                      && a.key == key && a.fullAddress == req.fullAddress
                      && a.isDefault == (u.addresses == [])
                      && a.labelText == (if req.labelText != "" then req.labelText else "Home")
                      && a.city == req.city.GetOr("Nizampet")
  {
    if req.fullAddress == "" then Err(BadRequest("Full address is required"))
    else
      var entry := SavedAddress(key, if req.labelText != "" then req.labelText else "Home", req.fullAddress,
                                req.landmark, req.city.GetOr("Nizampet"), req.pincode, u.addresses == []);
      Ok(u.addresses + [entry])
  }

  /** Adding to a stored account keeps it fit to store. */
  lemma AddressAddedKeepsStored(u: User, req: AddressRequest, key: Key)
    requires Stored(u) && AddressAdded(u, req, key).Ok?
    ensures Stored(u.(addresses := AddressAdded(u, req, key).value))
  {
    var r := AddressAdded(u, req, key).value;
    forall i | 0 <= i < |r| ensures r[i].fullAddress != "" {
      if i < |u.addresses| {
        assert r[i] == u.addresses[i];
      }
    }
  }

  /** At most one address is the default after an add, when at most one was before. */
  lemma AddressAddedOneDefault(u: User, req: AddressRequest, key: Key)
    requires AddressAdded(u, req, key).Ok?
    requires forall i, j :: 0 <= i < j < |u.addresses| ==> !(u.addresses[i].isDefault && u.addresses[j].isDefault)
    requires u.addresses != [] ==> exists i :: 0 <= i < |u.addresses| && u.addresses[i].isDefault
    ensures var r := AddressAdded(u, req, key).value;
            forall i, j :: 0 <= i < j < |r| ==> !(r[i].isDefault && r[j].isDefault)
  {
    var r := AddressAdded(u, req, key).value;
    forall i, j | 0 <= i < j < |r| ensures !(r[i].isDefault && r[j].isDefault) {
      if j == |u.addresses| {
        assert r[j].isDefault ==> u.addresses == [];
      } else {
        assert r[i] == u.addresses[i] && r[j] == u.addresses[j];
      }
    }
  }

  predicate KeptAddress(a: SavedAddress, id: Key) { a.key != id }

  /** The address book after a delete: exactly the entries with other ids, in order; no new default is chosen. */
  function AddressDeleted(u: User, id: Key): (r: seq<SavedAddress>)
    ensures forall a :: a in r <==> a in u.addresses && a.key != id
    ensures |r| <= |u.addresses|
    ensures Seqs.SubsequenceOf(r, u.addresses)
  {
    Seqs.FilterKeepsOrder(u.addresses, a => KeptAddress(a, id));
    Seqs.Filter(u.addresses, a => KeptAddress(a, id))
  }

  /** Deleting the default address leaves the book without a default when it had only one. */
  lemma DeleteDefaultLeavesNone(u: User, id: Key)
    requires forall i :: 0 <= i < |u.addresses| && u.addresses[i].isDefault ==> u.addresses[i].key == id
    ensures forall i :: 0 <= i < |AddressDeleted(u, id)| ==> !AddressDeleted(u, id)[i].isDefault
  {
    var r := AddressDeleted(u, id);
    forall i | 0 <= i < |r| ensures !r[i].isDefault {
      assert r[i] in u.addresses;
    }
  }

  /**
   * POST /api/auth/address: writes the extended book onto the caller, using
   * `key` as the new entry's id.  A caller whose account is gone fails when the
   * handler reads its book.
   */
  method AddAddress(db: Database.Db, me: Key, req: AddressRequest, key: Key) returns (r: Result<seq<SavedAddress>>)
    requires db.Valid()
    modifies db`users
    ensures db.Valid()
    ensures req.fullAddress == "" ==> r == Err(BadRequest("Full address is required")) && db.users == old(db.users)
    ensures req.fullAddress != "" && Database.FindUser(old(db.users), me).None? ==> r.Err? && r.failure.ServerError? && db.users == old(db.users)
    ensures req.fullAddress != "" && Database.FindUser(old(db.users), me).Some? ==>
              var j := Database.FindUser(old(db.users), me).value;
              && r == AddressAdded(old(db.users)[j], req, key)
              && db.users == old(db.users)[j := old(db.users)[j].(addresses := r.value)]
  {
    if req.fullAddress == "" {
      return Err(BadRequest("Full address is required"));
    }
    match Database.FindUser(db.users, me)
    case None => r := Err(ServerError("Cannot read properties of null"));
    case Some(j) =>
      r := AddressAdded(db.users[j], req, key);
      AddressAddedKeepsStored(db.users[j], req, key);
      var users := db.users[j := db.users[j].(addresses := r.value)];
      assert forall k :: 0 <= k < |users| ==> users[k].key < db.nextKey && Stored(users[k]);
      Database.WriteUsers(db, users);
  }

  /** DELETE /api/auth/address/:addressId: writes the filtered book onto the caller. */
  method DeleteAddress(db: Database.Db, me: Key, id: Key) returns (r: Result<seq<SavedAddress>>)
    requires db.Valid()
    modifies db`users
    ensures db.Valid()
    ensures Database.FindUser(old(db.users), me).None? ==> r.Err? && r.failure.ServerError? && db.users == old(db.users)
    ensures Database.FindUser(old(db.users), me).Some? ==>
              var j := Database.FindUser(old(db.users), me).value;
              && r == Ok(AddressDeleted(old(db.users)[j], id))
              && db.users == old(db.users)[j := old(db.users)[j].(addresses := r.value)]
  {
    match Database.FindUser(db.users, me)
    case None => r := Err(ServerError("Cannot read properties of null"));
    case Some(j) =>
      var book := AddressDeleted(db.users[j], id);
      var u := db.users[j].(addresses := book);
      assert Stored(u) by {
        forall i | 0 <= i < |book| ensures book[i].fullAddress != "" {
          assert book[i] in db.users[j].addresses;
        }
      }
      var users := db.users[j := u];
      assert forall k :: 0 <= k < |users| ==> users[k].key < db.nextKey && Stored(users[k]);
      Database.WriteUsers(db, users);
      r := Ok(book);
  }
}

=== FILE: booking_detail.dfy ===
/**
 * The derived display of mobile/src/screens/BookingDetailScreen.js: the
 * progress tracker over the booking's status, the cancel button, and the
 * amounts and weights shown.  Everything here is computed from the fetched
 * booking.
 */
module BookingDetail {
  import opened Wrappers
  import opened BookingModel
  import opened Text
  import UserModel
  import Database
  import BookingRoutes
  import CategoryModel

  /** The tracker's steps, in order; cancelled is not one of them. */
  const StatusSteps: seq<BookingStatus> := [Pending, Confirmed, Assigned, OutForPickup, Completed]

  /** `STATUS_STEPS.indexOf(status)`: the status's step, or -1 for a cancelled booking. */
  function CurrentIndex(st: BookingStatus): (i: int)
    ensures -1 <= i < |StatusSteps|
    ensures i == -1 <==> st == Cancelled
    ensures i >= 0 ==> StatusSteps[i] == st && forall j :: 0 <= j < i ==> StatusSteps[j] != st
  {
    match st
    case Pending => 0
    case Confirmed => 1
    case Assigned => 2
    case OutForPickup => 3
    case Completed => 4
    case Cancelled => -1
  }

  /** One row of the tracker: the step, whether it is ticked, and whether it is marked current. */
  datatype TrackerStep = TrackerStep(status: BookingStatus, done: bool, current: bool)

  function StepsFrom(k: nat, cur: int): (r: seq<TrackerStep>)
    requires k <= |StatusSteps|
    ensures |r| == |StatusSteps| - k
    ensures forall i :: 0 <= i < |r| ==> r[i] == TrackerStep(StatusSteps[k + i], k + i <= cur, k + i == cur)
    decreases |StatusSteps| - k
  {
    if k == |StatusSteps| then []
    else [TrackerStep(StatusSteps[k], k <= cur, k == cur)] + StepsFrom(k + 1, cur)
  }

  /** The tracker, or nothing: it is not shown for a cancelled booking. */
  function Tracker(st: BookingStatus): (r: Option<seq<TrackerStep>>)
    ensures r.None? <==> st == Cancelled
    ensures r.Some? ==> |r.value| == 5 && forall i :: 0 <= i < 5 ==> r.value[i].status == StatusSteps[i]
  {
    if st == Cancelled then None else Some(StepsFrom(0, CurrentIndex(st)))
  }

  lemma StepsDistinct()
    ensures forall i, j :: 0 <= i < j < |StatusSteps| ==> StatusSteps[i] != StatusSteps[j]
  {
  }

  /** A non-cancelled status sits at its own step and at no other. */
  lemma StepOfStatus(st: BookingStatus, i: int)
    requires st != Cancelled && 0 <= i < |StatusSteps|
    ensures StatusSteps[i] == st <==> i == CurrentIndex(st)
  {
    StepsDistinct();
  }

  /**
   * The ticked steps are the booking's step and all before it, and exactly one
   * step, the booking's own, is marked current.
   */
  lemma TrackerMarks(st: BookingStatus)
    requires st != Cancelled
    ensures var t := Tracker(st).value;
            && (forall i :: 0 <= i < 5 ==> (t[i].done <==> StatusSteps[i] == st || (exists j :: i < j < 5 && StatusSteps[j] == st)))
            && (forall i :: 0 <= i < 5 ==> (t[i].current <==> t[i].status == st))
            && (exists i :: 0 <= i < 5 && t[i].current)
            && (forall i, j :: 0 <= i < 5 && 0 <= j < 5 && t[i].current && t[j].current ==> i == j)
  {
    var t := Tracker(st).value;
    var c := CurrentIndex(st);
    assert forall i :: 0 <= i < 5 ==> t[i] == TrackerStep(StatusSteps[i], i <= c, i == c);
    forall i | 0 <= i < 5
      ensures t[i].done <==> StatusSteps[i] == st || (exists j :: i < j < 5 && StatusSteps[j] == st)
      ensures t[i].current <==> t[i].status == st
    {
      StepOfStatus(st, i);
      if i < c {
        assert StatusSteps[c] == st;
      } else if i > c {
        forall j | i < j < 5 ensures StatusSteps[j] != st {
          StepOfStatus(st, j);
        }
      }
    }
    assert t[c].current;
  }

  /** A booking further along the flow has at least as many steps ticked. */
  lemma TrackerMonotone(a: BookingStatus, b: BookingStatus)
    requires a != Cancelled && b != Cancelled && CurrentIndex(a) <= CurrentIndex(b)
    ensures forall i :: 0 <= i < 5 && Tracker(a).value[i].done ==> Tracker(b).value[i].done
  {
  }

  /** The Cancel button is shown for a pending or confirmed booking only. */
  predicate ShowsCancel(st: BookingStatus)
  {
    st == Pending || st == Confirmed
  }

  /** Where the button shows, the server lets the owner cancel. */
  lemma CancelButtonAllowed(bs: seq<Booking>, me: UserModel.User, id: Key, reason: string, now: Instant, digits: string)
    requires WellFormedInstant(now) && AllLowerBase36(digits)
    requires Database.FindBooking(bs, id).Some?
    requires bs[Database.FindBooking(bs, id).value].user == me.key
    requires ShowsCancel(bs[Database.FindBooking(bs, id).value].status)
    ensures BookingRoutes.CancelOutcome(bs, me, id, reason, now, digits).Ok?
  {
  }

  /** The reason the screen sends with its cancel request. */
  const ScreenCancelReason := "Cancelled by customer"

  /**
   * Confirming the cancel dialog on a booking that shows the button cancels it
   * with the screen's reason, and the reloaded booking shows no tracker.
   */
  lemma CancelFromScreen(bs: seq<Booking>, me: UserModel.User, id: Key, now: Instant, digits: string)
    requires WellFormedInstant(now) && AllLowerBase36(digits)
    requires Database.FindBooking(bs, id).Some?
    requires bs[Database.FindBooking(bs, id).value].user == me.key
    requires ShowsCancel(bs[Database.FindBooking(bs, id).value].status)
    ensures var o := BookingRoutes.CancelOutcome(bs, me, id, ScreenCancelReason, now, digits);
            && o.Ok?
            && o.value.doc.cancelReason == ScreenCancelReason
            && Tracker(o.value.doc.status).None?
            && !ShowsCancel(o.value.doc.status)
  {
  }

  /** The button is narrower than the server: an assigned or en-route pickup is hidden from it but cancellable. */
  lemma CancelButtonNarrower(bs: seq<Booking>, me: UserModel.User, id: Key, reason: string, now: Instant, digits: string)
    requires WellFormedInstant(now) && AllLowerBase36(digits)
    requires Database.FindBooking(bs, id).Some?
    requires bs[Database.FindBooking(bs, id).value].user == me.key
    requires bs[Database.FindBooking(bs, id).value].status in {Assigned, OutForPickup}
    ensures !ShowsCancel(bs[Database.FindBooking(bs, id).value].status)
    ensures BookingRoutes.CancelOutcome(bs, me, id, reason, now, digits).Ok?
  {
  }

  /** `finalAmount || estimatedAmount`: the final amount once it is set (non-zero), the estimate before. */
  function DisplayedTotal(b: Booking): (v: int)
    ensures v == b.finalAmount || v == b.estimatedAmount
    ensures v != b.finalAmount ==> b.finalAmount == 0
    ensures v == 0 <==> b.finalAmount == 0 && b.estimatedAmount == 0
  {
    if b.finalAmount != 0 then b.finalAmount else b.estimatedAmount
  }

  /** The total's label: 'Final Amount' for a completed booking, 'Estimated Amount' otherwise. */
  function TotalLabel(b: Booking): (s: string)
    ensures s == "Final Amount" <==> b.status == Completed
    ensures s == "Final Amount" || s == "Estimated Amount"
  {
    if b.status == Completed then "Final Amount" else "Estimated Amount"
  }

  /** A fresh booking shows its estimate under 'Estimated Amount'. */
  lemma NewBookingShowsEstimate(key: Key, user: Key, items: seq<Item>, estimated: int, address: BookingAddress,
                                scheduledDate: Option<int>, timeSlot: string, notes: string, paymentMethod: string,
                                now: Instant, digits: string)
    requires WellFormedInstant(now) && AllLowerBase36(digits)
    requires BookingRoutes.CreatedBooking(key, user, items, estimated, address, scheduledDate, timeSlot, notes, paymentMethod, now, digits).Ok?
    ensures var b := BookingRoutes.CreatedBooking(key, user, items, estimated, address, scheduledDate, timeSlot, notes, paymentMethod, now, digits).value;
            DisplayedTotal(b) == estimated && TotalLabel(b) == "Estimated Amount"
  {
    BookingRoutes.CreatedBookingContents(key, user, items, estimated, address, scheduledDate, timeSlot, notes, paymentMethod, now, digits);
  }

  /** `actualWeight || estimatedWeight`: the weighed weight when present and non-zero. */
  function ShownWeight(it: Item): (w: int)
    ensures w == it.estimatedWeight || (it.actualWeight.Some? && w == it.actualWeight.value)
    ensures it.actualWeight.Some? && it.actualWeight.value != 0 ==> w == it.actualWeight.value
    ensures it.actualWeight.None? || it.actualWeight.value == 0 ==> w == it.estimatedWeight
  {
    if it.actualWeight.Some? && it.actualWeight.value != 0 then it.actualWeight.value else it.estimatedWeight
  }

  /** `amount || pricePerKg * estimatedWeight`: the stored amount when non-zero, else the estimate's line value. */
  function ShownAmount(it: Item): (v: int)
    ensures it.amount != 0 ==> v == it.amount
    ensures it.amount == 0 ==> v == it.pricePerKg * it.estimatedWeight
  {
    if it.amount != 0 then it.amount else it.pricePerKg * it.estimatedWeight
  }

  /** For an item as the server prices it at creation, the shown amount is price × estimated weight either way. */
  lemma ShownAmountOfSnapshot(c: CategoryModel.Category, weight: int)
    ensures ShownAmount(BookingRoutes.Snapshot(c, weight)) == c.pricePerKg * weight
    ensures ShownWeight(BookingRoutes.Snapshot(c, weight)) == weight
  {
  }
}

=== FILE: booking_model.dfy ===
/**
 * The booking document (backend/models/Booking.js): its enumerations, line
 * items, the bookingId generator and the two pre-save hooks.  A hook that
 * assigns fields of `this` before the write is modelled as a function from the
 * document about to be written to the document actually written.
 */
module BookingModel {
  import opened Wrappers
  import opened Text

  datatype BookingStatus = Pending | Confirmed | Assigned | OutForPickup | Completed | Cancelled

  function StatusName(s: BookingStatus): string
  {
    match s
    case Pending => "pending"
    case Confirmed => "confirmed"
    case Assigned => "assigned"
    case OutForPickup => "out_for_pickup"
    case Completed => "completed"
    case Cancelled => "cancelled"
  }

  /** The schema's enum check on `status`: a string is accepted iff it names one of the six states. */
  function ParseStatus(name: string): (r: Option<BookingStatus>)
    ensures r.Some? ==> StatusName(r.value) == name
    ensures forall s :: StatusName(s) == name ==> r == Some(s)
  {
    if name == "pending" then Some(Pending)
    else if name == "confirmed" then Some(Confirmed)
    else if name == "assigned" then Some(Assigned)
    else if name == "out_for_pickup" then Some(OutForPickup)
    else if name == "completed" then Some(Completed)
    else if name == "cancelled" then Some(Cancelled)
    else None
  }

  datatype TimeSlot = Slot8To10 | Slot10To12 | Slot12To2 | Slot2To4 | Slot4To6 | Slot6To8

  /** The six pickup windows the schema accepts, in order. */
  const TimeSlotNames: seq<string> := ["8AM-10AM", "10AM-12PM", "12PM-2PM", "2PM-4PM", "4PM-6PM", "6PM-8PM"]

  function SlotName(t: TimeSlot): string
  {
    match t
    case Slot8To10 => TimeSlotNames[0]
    case Slot10To12 => TimeSlotNames[1]
    case Slot12To2 => TimeSlotNames[2]
    case Slot2To4 => TimeSlotNames[3]
    case Slot4To6 => TimeSlotNames[4]
    case Slot6To8 => TimeSlotNames[5]
  }

  /** The schema's enum check on `timeSlot`: accepted iff the string is one of `TimeSlotNames`. */
  function ParseTimeSlot(name: string): (r: Option<TimeSlot>)
    ensures r.Some? <==> name in TimeSlotNames
    ensures r.Some? ==> SlotName(r.value) == name
  {
    if name == TimeSlotNames[0] then Some(Slot8To10)
    else if name == TimeSlotNames[1] then Some(Slot10To12)
    else if name == TimeSlotNames[2] then Some(Slot12To2)
    else if name == TimeSlotNames[3] then Some(Slot2To4)
    else if name == TimeSlotNames[4] then Some(Slot4To6)
    else if name == TimeSlotNames[5] then Some(Slot6To8)
    else None
  }

  datatype PaymentMethod = Cash | Upi | Razorpay

  function PaymentMethodName(m: PaymentMethod): string
  {
    match m
    case Cash => "cash"
    case Upi => "upi"
    case Razorpay => "razorpay"
  }

  /** The schema's enum check on `paymentMethod`. */
  function ParsePaymentMethod(name: string): (r: Option<PaymentMethod>)
    ensures r.Some? ==> PaymentMethodName(r.value) == name
    ensures forall m :: PaymentMethodName(m) == name ==> r == Some(m)
  {
    if name == "cash" then Some(Cash)
    else if name == "upi" then Some(Upi)
    else if name == "razorpay" then Some(Razorpay)
    else None
  }

  datatype PaymentStatus = PaymentPending | PaymentCompleted | PaymentFailed

  function PaymentStatusName(s: PaymentStatus): string
  {
    match s
    case PaymentPending => "pending"
    case PaymentCompleted => "completed"
    case PaymentFailed => "failed"
  }

  /** A line item: the category reference with its name and unit price snapshotted at booking time. */
  datatype Item = Item(
    category: Key,
    categoryName: string,
    estimatedWeight: int,
    actualWeight: Option<int>,
    pricePerKg: int,
    amount: int)

  /** The pickup address; the geocode (latitude, longitude) is not part of this model. */
  datatype BookingAddress = BookingAddress(fullAddress: string, landmark: string, city: string, pincode: string)

  /** An item's `amount`, the term of the order totals. */
  function ItemAmount(it: Item): int { it.amount }

  datatype HistoryEntry = HistoryEntry(status: BookingStatus, timestamp: int)

  /** A reading of the server clock: epoch milliseconds with the local calendar date it falls on. */
  datatype Instant = Instant(ms: int, year: nat, month: nat, day: nat)

  predicate WellFormedInstant(now: Instant)
  {
    1 <= now.month <= 12 && 1 <= now.day <= 31
  }

  /**
   * A booking document.  Optional strings of the schema (notes, cancelReason,
   * feedback, razorpay ids, bookingId) are "" when unset, as both read as
   * falsy to the handlers.
   */
  datatype Booking = Booking(
    key: Key,
    bookingId: string,
    user: Key,
    items: seq<Item>,
    address: BookingAddress,
    scheduledDate: int,
    timeSlot: TimeSlot,
    notes: string,
    status: BookingStatus,
    agent: Option<Key>,
    estimatedAmount: int,
    finalAmount: int,
    paymentMethod: PaymentMethod,
    paymentStatus: PaymentStatus,
    razorpayOrderId: string,
    razorpayPaymentId: string,
    photos: seq<string>,
    completedAt: Option<int>,
    cancelReason: string,
    rating: Option<int>,
    feedback: string,
    statusHistory: seq<HistoryEntry>,
    createdAt: int)

  /** The sort key of `sort('-createdAt')`. */
  function CreatedAt(b: Booking): int { b.createdAt }

  /** A fresh document with the schema's defaults, before the save hooks run. */
  function NewBooking(key: Key, user: Key, items: seq<Item>, address: BookingAddress, scheduledDate: int,
                      timeSlot: TimeSlot, notes: string, paymentMethod: PaymentMethod,
                      estimatedAmount: int, createdAt: int): Booking
  {
    Booking(key, "", user, items, address, scheduledDate, timeSlot, notes, Pending, None,
            estimatedAmount, 0, paymentMethod, PaymentPending, "", "", [], None, "", None, "", [], createdAt)
  }

  /** The schema validators run on every save: a non-empty street address and a rating within 1..5. */
  predicate SchemaValid(b: Booking)
  {
    b.address.fullAddress != "" && (b.rating.Some? ==> 1 <= b.rating.value <= 5)
  }

  // ---------------------------------------------------------------- bookingId

  /** The generated id: "GC", two-digit year, zero-padded month and day, then the random suffix. */
  function BookingIdFor(now: Instant, digits: string): (id: string)
    requires WellFormedInstant(now) && AllLowerBase36(digits)
    ensures |id| > 2 && id[..2] == "GC"
  {
    JoinFive("GC", Last(NatToString(now.year), 2), Pad2(now.month), Pad2(now.day), RandomSuffix(digits, 5));
    Join(["GC", Last(NatToString(now.year), 2), Pad2(now.month), Pad2(now.day), RandomSuffix(digits, 5)], "")
  }

  /** Joining five pieces with nothing between them concatenates them. */
  lemma JoinFive(a: string, b: string, c: string, d: string, e: string)
    ensures Join([a, b, c, d, e], "") == a + b + c + d + e
  {
    JoinNothingCons(d, [e]);
    JoinNothingCons(c, [d, e]);
    JoinNothingCons(b, [c, d, e]);
    JoinNothingCons(a, [b, c, d, e]);
  }

  lemma JoinNothingCons(x: string, rest: seq<string>)
    requires rest != []
    ensures Join([x] + rest, "") == x + Join(rest, "")
  {
    assert ([x] + rest)[1..] == rest;
    assert x + "" == x;
  }

  datatype IdParts = IdParts(yy: nat, mm: nat, dd: nat, suffix: string)

  /** Reads a bookingId back into its date stamp and suffix. */
  function ParseBookingId(id: string): Option<IdParts>
  {
    if |id| < 8 || id[..2] != "GC" || !(forall i :: 2 <= i < 8 ==> IsDigit(id[i])) then None
    else if |id| > 13 || !(forall i :: 8 <= i < |id| ==> IsUpperBase36(id[i])) then None
    else Some(IdParts(ParseDigits(id[2..4]), ParseDigits(id[4..6]), ParseDigits(id[6..8]), id[8..]))
  }

  predicate AllDigits(s: string) { forall i :: 0 <= i < |s| ==> IsDigit(s[i]) }

  /** An id of the generated shape reads back into its date fields and suffix. */
  lemma ParseShaped(id: string)
    requires 8 <= |id| <= 13 && id[..2] == "GC"
    requires forall i :: 2 <= i < 8 ==> IsDigit(id[i])
    requires forall i :: 8 <= i < |id| ==> IsUpperBase36(id[i])
    ensures ParseBookingId(id) == Some(IdParts(ParseDigits(id[2..4]), ParseDigits(id[4..6]), ParseDigits(id[6..8]), id[8..]))
  {
  }

  lemma TwoDigits(s: string)
    requires |s| == 2 && IsDigit(s[0]) && IsDigit(s[1])
    ensures AllDigits(s)
  {
  }

  lemma AllDigitsConcat(a: string, b: string)
    requires AllDigits(a) && AllDigits(b)
    ensures AllDigits(a + b)
  {
  }

  /** Any "GC" + three two-digit fields + a short upper-case suffix reads back into its parts. */
  lemma ParseAssembledId(yy: string, mm: string, dd: string, sfx: string)
    requires |yy| == 2 && |mm| == 2 && |dd| == 2 && |sfx| <= 5
    requires IsDigit(yy[0]) && IsDigit(yy[1]) && IsDigit(mm[0]) && IsDigit(mm[1]) && IsDigit(dd[0]) && IsDigit(dd[1])
    requires forall i :: 0 <= i < |sfx| ==> IsUpperBase36(sfx[i])
    ensures ParseBookingId("GC" + yy + mm + dd + sfx)
            == Some(IdParts(ParseDigits(yy), ParseDigits(mm), ParseDigits(dd), sfx))
  {
    var id := "GC" + yy + mm + dd + sfx;
    AssembledLayout(yy, mm, dd, sfx);
    TwoDigits(yy);
    TwoDigits(mm);
    TwoDigits(dd);
    AllDigitsConcat(yy, mm);
    AllDigitsConcat(yy + mm, dd);
    forall i | 2 <= i < 8 ensures IsDigit(id[i]) {
      assert id[2..8][i - 2] == id[i];
    }
    ParseShaped(id);
  }

  /** Where each piece of an assembled id sits. */
  lemma AssembledLayout(yy: string, mm: string, dd: string, sfx: string)
    requires |yy| == 2 && |mm| == 2 && |dd| == 2
    ensures var id := "GC" + yy + mm + dd + sfx;
            && |id| == 8 + |sfx| && id[..2] == "GC" && id[2..8] == yy + mm + dd
            && id[2..4] == yy && id[4..6] == mm && id[6..8] == dd && id[8..] == sfx
            && forall i :: 8 <= i < |id| ==> id[i] == sfx[i - 8]
  {
    var head := "GC" + yy + mm + dd;
    var id := head + sfx;
    assert id[..8] == head && id[8..] == sfx;
    assert head[2..] == yy + mm + dd;
    assert id[2..8] == head[2..];
    assert id[2..4] == yy && id[4..6] == mm && id[6..8] == dd;
  }

  /**
   * A generated id has the documented shape: it decodes to the creation date's
   * year of the century, month and day, followed by at most five upper-case
   * base-36 characters.
   */
  lemma BookingIdShape(now: Instant, digits: string)
    requires WellFormedInstant(now) && AllLowerBase36(digits) && now.year >= 10
    ensures ParseBookingId(BookingIdFor(now, digits))
            == Some(IdParts(now.year % 100, now.month, now.day, RandomSuffix(digits, 5)))
  {
    LastTwoDigits(now.year);
    Pad2Parse(now.year % 100);
    Pad2Parse(now.month);
    Pad2Parse(now.day);
    JoinFive("GC", Last(NatToString(now.year), 2), Pad2(now.month), Pad2(now.day), RandomSuffix(digits, 5));
    ParseAssembledId(Pad2(now.year % 100), Pad2(now.month), Pad2(now.day), RandomSuffix(digits, 5));
  }

  // ---------------------------------------------------------------- save hooks

  /** Mongoose's `isModified('status')`: the document is new, or its status differs from the stored one. */
  predicate StatusModified(stored: Option<Booking>, doc: Booking)
  {
    stored.None? || stored.value.status != doc.status
  }

  /**
   * Both pre-save hooks, in registration order: assign a bookingId when there is
   * none; when the status was modified, append one history entry for it and,
   * for 'completed', stamp completedAt.
   */
  function PreSave(stored: Option<Booking>, doc: Booking, now: Instant, digits: string): (r: Booking)
    requires WellFormedInstant(now) && AllLowerBase36(digits)
    ensures r.bookingId != ""
    ensures doc.bookingId != "" ==> r.bookingId == doc.bookingId
    ensures StatusModified(stored, doc) ==> r.statusHistory == doc.statusHistory + [HistoryEntry(doc.status, now.ms)]
    ensures !StatusModified(stored, doc) ==> r.statusHistory == doc.statusHistory
    ensures r.completedAt == (if StatusModified(stored, doc) && doc.status == Completed then Some(now.ms) else doc.completedAt)
    ensures r == doc.(bookingId := r.bookingId, statusHistory := r.statusHistory, completedAt := r.completedAt)
  {
    var withId := if doc.bookingId == "" then doc.(bookingId := BookingIdFor(now, digits)) else doc;
    if StatusModified(stored, doc) then
      withId.(statusHistory := doc.statusHistory + [HistoryEntry(doc.status, now.ms)],
              completedAt := if doc.status == Completed then Some(now.ms) else doc.completedAt)
    else withId
  }

  /**
   * What every stored booking satisfies: it has an id, its history is non-empty
   * and ends with its current status, a completed booking has a completion
   * time, and the schema validators hold.
   */
  predicate Invariant(b: Booking)
  {
    && b.bookingId != ""
    && |b.statusHistory| >= 1
    && b.statusHistory[|b.statusHistory| - 1].status == b.status
    && (b.status == Completed ==> b.completedAt.Some?)
    && SchemaValid(b)
  }

  /**
   * The first save of a valid new document establishes the invariant, and a
   * save of an edited stored document preserves it provided the handler left
   * the history alone.
   */
  lemma {:induction false} PreSaveKeepsInvariant(stored: Option<Booking>, doc: Booking, now: Instant, digits: string)
    requires WellFormedInstant(now) && AllLowerBase36(digits)
    requires SchemaValid(doc)
    requires stored.Some? ==> Invariant(stored.value) && doc.statusHistory == stored.value.statusHistory
    requires stored.Some? ==> (doc.status == Completed && stored.value.status == Completed ==> doc.completedAt.Some?)
    ensures Invariant(PreSave(stored, doc, now, digits))
  {
    if StatusModified(stored, doc) {
      PreSaveStatusChange(stored, doc, now, digits);
    } else {
      PreSaveSameStatus(stored.value, doc, now, digits);
    }
  }

  /** A save that records a status change ends the history with the new status. */
  lemma PreSaveStatusChange(stored: Option<Booking>, doc: Booking, now: Instant, digits: string)
    requires WellFormedInstant(now) && AllLowerBase36(digits)
    requires SchemaValid(doc) && StatusModified(stored, doc)
    ensures Invariant(PreSave(stored, doc, now, digits))
  {
    var r := PreSave(stored, doc, now, digits);
    assert r.status == doc.status && r.address == doc.address && r.rating == doc.rating;
    assert r.statusHistory[|r.statusHistory| - 1] == HistoryEntry(doc.status, now.ms);
  }

  /** A save with the status unchanged keeps the stored history, which already ends with that status. */
  lemma PreSaveSameStatus(prev: Booking, doc: Booking, now: Instant, digits: string)
    requires WellFormedInstant(now) && AllLowerBase36(digits)
    requires SchemaValid(doc) && Invariant(prev)
    requires doc.statusHistory == prev.statusHistory && prev.status == doc.status
    requires doc.status == Completed ==> doc.completedAt.Some?
    ensures Invariant(PreSave(Some(prev), doc, now, digits))
  {
    var r := PreSave(Some(prev), doc, now, digits);
    assert !StatusModified(Some(prev), doc);
    assert r.statusHistory == prev.statusHistory && r.status == prev.status;
  }

  /** Re-saving a stored document unchanged changes nothing: the id is kept and no history entry is added. */
  lemma ResaveIsIdentity(b: Booking, now: Instant, digits: string)
    requires WellFormedInstant(now) && AllLowerBase36(digits)
    requires b.bookingId != ""
    ensures PreSave(Some(b), b, now, digits) == b
  {
  }
}

=== FILE: booking_routes.dfy ===
/**
 * The booking handlers of backend/routes/bookings.js: create (with its pricing
 * loop), the customer and admin lists, fetch, the generic status route,
 * assign, cancel and rate.  Each state-changing handler is a pure outcome
 * function over the stored bookings, which the lemmas reason about, and a
 * method that writes that outcome into the store.
 */
module BookingRoutes {
  import opened Wrappers
  import opened Text
  import Seqs
  import opened BookingModel
  import UserModel
  import CategoryModel
  import opened Database
  import AuthMiddleware

  type User = UserModel.User

  // ---------------------------------------------------------------- create

  /** One element of the request's `items`. */
  datatype ItemRequest = ItemRequest(category: Key, estimatedWeight: int)

  /** The stored line item for a request whose category resolved: the category's name and price are copied in. */
  function Snapshot(c: CategoryModel.Category, weight: int): (it: Item)
    ensures it.category == c.key && it.categoryName == c.name && it.pricePerKg == c.pricePerKg
    ensures it.estimatedWeight == weight && it.actualWeight.None?
    ensures it.amount == c.pricePerKg * weight
  {
    Item(c.key, c.name, weight, None, c.pricePerKg, c.pricePerKg * weight)
  }

  function LineValue(it: Item): int { it.pricePerKg * it.estimatedWeight }

  /** What one request contributes: its snapshot, or nothing when the category is unknown. */
  function Priced(req: ItemRequest, cats: seq<CategoryModel.Category>): (r: seq<Item>)
    ensures |r| <= 1
    ensures r == [] <==> FindCategory(cats, req.category).None?
    ensures r != [] ==> r[0] == Snapshot(cats[FindCategory(cats, req.category).value], req.estimatedWeight)
  {
    match FindCategory(cats, req.category)
    case None => []
    case Some(j) => [Snapshot(cats[j], req.estimatedWeight)]
  }

  /** The items creation stores, in request order: one snapshot per request whose category resolves. */
  function PricedItems(reqs: seq<ItemRequest>, cats: seq<CategoryModel.Category>): (r: seq<Item>)
    ensures |r| <= |reqs|
  {
    if reqs == [] then []
    else PricedItems(reqs[..|reqs| - 1], cats) + Priced(reqs[|reqs| - 1], cats)
  }

  /**
   * Every stored item belongs to a category that resolved, carries that
   * category's name and price as they were at booking time, and is priced at
   * price × estimated weight.
   */
  lemma {:induction false} PricedItemsSnapshot(reqs: seq<ItemRequest>, cats: seq<CategoryModel.Category>, k: nat)
    requires k < |PricedItems(reqs, cats)|
    ensures FindCategory(cats, PricedItems(reqs, cats)[k].category).Some?
    ensures var it := PricedItems(reqs, cats)[k];
            var c := cats[FindCategory(cats, it.category).value];
            it.categoryName == c.name && it.pricePerKg == c.pricePerKg
            && it.amount == c.pricePerKg * it.estimatedWeight && it.actualWeight.None?
  {
    var n := |reqs| - 1;
    var front := PricedItems(reqs[..n], cats);
    if k < |front| {
      PricedItemsSnapshot(reqs[..n], cats, k);
    } else {
      assert PricedItems(reqs, cats)[k] == Priced(reqs[n], cats)[0];
    }
  }

  /** When every category resolves, nothing is dropped and the items follow the requests one for one. */
  lemma {:induction false} PricedItemsAllResolve(reqs: seq<ItemRequest>, cats: seq<CategoryModel.Category>)
    requires forall k :: 0 <= k < |reqs| ==> FindCategory(cats, reqs[k].category).Some?
    ensures |PricedItems(reqs, cats)| == |reqs|
    ensures forall k :: 0 <= k < |reqs| ==>
              (PricedItems(reqs, cats)[k].category == reqs[k].category
               && PricedItems(reqs, cats)[k].estimatedWeight == reqs[k].estimatedWeight)
  {
    if reqs != [] {
      var front := reqs[..|reqs| - 1];
      assert forall k :: 0 <= k < |front| ==> FindCategory(cats, front[k].category).Some? by {
        forall k | 0 <= k < |front| ensures FindCategory(cats, front[k].category).Some? {
          assert front[k] == reqs[k];
        }
      }
      PricedItemsAllResolve(front, cats);
      ResolvedStep(reqs, cats);
    }
  }

  /** Appending one resolving request to a prefix whose requests all resolved. */
  lemma ResolvedStep(reqs: seq<ItemRequest>, cats: seq<CategoryModel.Category>)
    requires reqs != [] && FindCategory(cats, reqs[|reqs| - 1].category).Some?
    requires var front := PricedItems(reqs[..|reqs| - 1], cats);
             |front| == |reqs| - 1
             && forall k :: 0 <= k < |front| ==>
                  front[k].category == reqs[..|reqs| - 1][k].category
                  && front[k].estimatedWeight == reqs[..|reqs| - 1][k].estimatedWeight
    ensures |PricedItems(reqs, cats)| == |reqs|
    ensures forall k :: 0 <= k < |reqs| ==>
              (PricedItems(reqs, cats)[k].category == reqs[k].category
               && PricedItems(reqs, cats)[k].estimatedWeight == reqs[k].estimatedWeight)
  {
    var n := |reqs| - 1;
    var front := PricedItems(reqs[..n], cats);
    var last := Priced(reqs[n], cats);
    var r := PricedItems(reqs, cats);
    assert r == front + last;
    assert |last| == 1 && last[0].category == reqs[n].category && last[0].estimatedWeight == reqs[n].estimatedWeight;
    forall k | 0 <= k < |reqs|
      ensures r[k].category == reqs[k].category && r[k].estimatedWeight == reqs[k].estimatedWeight
    {
      if k < n {
        assert reqs[..n][k] == reqs[k] && r[k] == front[k];
      } else {
        assert k == n && r[k] == last[0];
      }
    }
  }

  /** An unknown category is skipped, not reported: requests whose categories all fail to resolve store no items. */
  lemma {:induction false} PricedItemsNoneResolve(reqs: seq<ItemRequest>, cats: seq<CategoryModel.Category>)
    requires forall k :: 0 <= k < |reqs| ==> FindCategory(cats, reqs[k].category).None?
    ensures PricedItems(reqs, cats) == []
  {
    if reqs != [] {
      PricedItemsNoneResolve(reqs[..|reqs| - 1], cats);
    }
  }

  /** The estimate is the sum of price × estimated weight over the stored items. */
  lemma EstimateIsPriceTimesWeight(reqs: seq<ItemRequest>, cats: seq<CategoryModel.Category>)
    ensures Seqs.Sum(PricedItems(reqs, cats), ItemAmount) == Seqs.Sum(PricedItems(reqs, cats), LineValue)
  {
    var items := PricedItems(reqs, cats);
    forall k | 0 <= k < |items| ensures ItemAmount(items[k]) == LineValue(items[k]) {
      PricedItemsSnapshot(reqs, cats, k);
    }
    Seqs.SumCongruent(items, ItemAmount, LineValue);
  }

  /** The running estimate of the pricing loop: each resolved request adds its line amount. */
  function Estimate(reqs: seq<ItemRequest>, cats: seq<CategoryModel.Category>): int
  {
    if reqs == [] then 0
    else
      var next := Priced(reqs[|reqs| - 1], cats);
      Estimate(reqs[..|reqs| - 1], cats) + (if next == [] then 0 else next[0].amount)
  }

  /** The running estimate is the sum of the stored items' amounts. */
  lemma {:induction false} EstimateIsSum(reqs: seq<ItemRequest>, cats: seq<CategoryModel.Category>)
    ensures Estimate(reqs, cats) == Seqs.Sum(PricedItems(reqs, cats), ItemAmount)
  {
    if reqs != [] {
      var init := reqs[..|reqs| - 1];
      var next := Priced(reqs[|reqs| - 1], cats);
      EstimateIsSum(init, cats);
      Seqs.SumAppend(PricedItems(init, cats), next, ItemAmount);
      if next != [] {
        assert next == [next[0]];
        Seqs.SumSingleton(next[0], ItemAmount);
      }
    }
  }

  /** One turn of the pricing loop: the next request's snapshot, if any, is appended and its amount added. */
  lemma PricingStep(reqs: seq<ItemRequest>, i: nat, cats: seq<CategoryModel.Category>)
    requires i < |reqs|
    ensures var next := Priced(reqs[i], cats);
            && PricedItems(reqs[..i + 1], cats) == PricedItems(reqs[..i], cats) + next
            && Estimate(reqs[..i + 1], cats) == Estimate(reqs[..i], cats) + (if next == [] then 0 else next[0].amount)
  {
    assert reqs[..i + 1][..i] == reqs[..i];
  }

  /** The pricing loop: looks each requested category up, skips unknown ones, and accumulates the estimate. */
  method PriceItems(reqs: seq<ItemRequest>, cats: seq<CategoryModel.Category>) returns (items: seq<Item>, estimated: int)
    ensures items == PricedItems(reqs, cats)
    ensures estimated == Seqs.Sum(items, ItemAmount)
  {
    items := [];
    estimated := 0;
    var i := 0;
    while i < |reqs|
      invariant 0 <= i <= |reqs|
      invariant items == PricedItems(reqs[..i], cats)
      invariant estimated == Estimate(reqs[..i], cats)
    {
      PricingStep(reqs, i, cats);
      // the `findById` lookup and, when it finds the category, the snapshot line
      var next := Priced(reqs[i], cats);
      if next != [] {
        estimated := estimated + next[0].amount;
        items := items + next;
      }
      i := i + 1;
    }
    assert reqs[..|reqs|] == reqs;
    EstimateIsSum(reqs, cats);
  }

  /**
   * The document `Booking.create` writes for already priced items, or the
   * validation failure: a street address, a date and a known time slot are
   * required, and the payment method defaults to cash when none is given.
   */
  function CreatedBooking(key: Key, user: Key, items: seq<Item>, estimated: int, address: BookingAddress,
                          scheduledDate: Option<int>, timeSlot: string, notes: string, paymentMethod: string,
                          now: Instant, digits: string): (r: Result<Booking>)
    requires WellFormedInstant(now) && AllLowerBase36(digits)
    ensures r.Ok? <==> address.fullAddress != "" && scheduledDate.Some? && ParseTimeSlot(timeSlot).Some?
                       && (paymentMethod == "" || ParsePaymentMethod(paymentMethod).Some?)
    ensures r.Err? ==> r.failure.ServerError?
    ensures r.Ok? ==> Invariant(r.value) && r.value.key == key
  {
    var pay := if paymentMethod == "" then Some(Cash) else ParsePaymentMethod(paymentMethod);
    var slot := ParseTimeSlot(timeSlot);
    if address.fullAddress == "" || scheduledDate.None? || slot.None? || pay.None? then
      Err(ServerError("Booking validation failed"))
    else
      var doc := NewBooking(key, user, items, address, scheduledDate.value, slot.value, notes, pay.value, estimated, now.ms);
      PreSaveKeepsInvariant(None, doc, now, digits);
      Ok(PreSave(None, doc, now, digits))
  }

  /**
   * A created booking starts pending with a one-entry history, unassigned and
   * unpaid, with the customer, items, estimate, address and slot it was
   * created with, and cash as the payment method when none was chosen.
   */
  lemma CreatedBookingContents(key: Key, user: Key, items: seq<Item>, estimated: int, address: BookingAddress,
                               scheduledDate: Option<int>, timeSlot: string, notes: string, paymentMethod: string,
                               now: Instant, digits: string)
    requires WellFormedInstant(now) && AllLowerBase36(digits)
    requires CreatedBooking(key, user, items, estimated, address, scheduledDate, timeSlot, notes, paymentMethod, now, digits).Ok?
    ensures var b := CreatedBooking(key, user, items, estimated, address, scheduledDate, timeSlot, notes, paymentMethod, now, digits).value;
            && b.status == Pending && b.statusHistory == [HistoryEntry(Pending, now.ms)]
            && b.paymentMethod == (if paymentMethod == "" then Cash else ParsePaymentMethod(paymentMethod).value)
            && b.user == user && b.items == items && b.estimatedAmount == estimated
            && b.agent.None? && b.finalAmount == 0 && b.paymentStatus == PaymentPending && b.completedAt.None?
            && SlotName(b.timeSlot) == timeSlot && b.address == address && b.scheduledDate == scheduledDate.value
  {
  }

  /** `$inc: { totalPickups: 1 }` on the user with the given id; no other user and no other field changes. */
  function AddPickup(users: seq<User>, id: Key): (r: seq<User>)
    ensures |r| == |users|
    ensures forall j :: 0 <= j < |users| && FindUser(users, id) != Some(j) ==> r[j] == users[j]
    ensures FindUser(users, id).Some? ==>
              var j := FindUser(users, id).value;
              r[j].totalPickups == users[j].totalPickups + 1 && r[j].(totalPickups := users[j].totalPickups) == users[j]
    ensures forall j :: 0 <= j < |users| ==> r[j].key == users[j].key
  {
    match FindUser(users, id)
    case None => users
    case Some(j) => users[j := users[j].(totalPickups := users[j].totalPickups + 1)]
  }

  /** Writes a created booking and counts the pickup on its customer. */
  method StoreBooking(db: Db, doc: Booking, customer: Key)
    requires db.Valid() && Invariant(doc) && doc.key == db.nextKey
    modifies db`bookings, db`users, db`nextKey
    ensures db.Valid()
    ensures db.bookings == old(db.bookings) + [doc] && db.users == AddPickup(old(db.users), customer)
  {
    InsertBooking(db, doc);
    var users := AddPickup(db.users, customer);
    assert forall j :: 0 <= j < |users| ==> users[j].key == db.users[j].key && UserModel.Stored(users[j]);
    WriteUsers(db, users);
  }

  /**
   * POST /api/bookings.  A missing or empty item list is refused before
   * anything is read; otherwise the items are priced, the booking is stored
   * under a fresh id, and the customer's pickup count rises by one.  A
   * validation failure stores nothing and counts nothing.
   */
  method CreateBooking(db: Db, me: User, items: Option<seq<ItemRequest>>, address: BookingAddress,
                       scheduledDate: Option<int>, timeSlot: string, notes: string, paymentMethod: string,
                       now: Instant, digits: string) returns (r: Result<Booking>)
    requires db.Valid() && WellFormedInstant(now) && AllLowerBase36(digits)
    modifies db`bookings, db`users, db`nextKey
    ensures db.Valid()
    ensures items.None? || items.value == [] ==> r == Err(BadRequest("At least one item is required"))
    ensures items.Some? && items.value != [] ==>
              var priced := PricedItems(items.value, old(db.categories));
              r == CreatedBooking(old(db.nextKey), me.key, priced, Seqs.Sum(priced, ItemAmount), address,
                                  scheduledDate, timeSlot, notes, paymentMethod, now, digits)
    ensures r.Err? ==> db.bookings == old(db.bookings) && db.users == old(db.users)
    ensures r.Ok? ==> db.bookings == old(db.bookings) + [r.value] && db.users == AddPickup(old(db.users), me.key)
    ensures r.Ok? ==> forall i :: 0 <= i < |old(db.bookings)| ==> old(db.bookings)[i].key != r.value.key
  {
    if items.None? || items.value == [] {
      return Err(BadRequest("At least one item is required"));
    }
    var priced, estimated := PriceItems(items.value, db.categories);
    r := CreatedBooking(db.nextKey, me.key, priced, estimated, address, scheduledDate, timeSlot, notes, paymentMethod, now, digits);
    if r.Ok? {
      StoreBooking(db, r.value, me.key);
    }
  }

  // ---------------------------------------------------------------- lists and fetch

  predicate MineWithStatus(b: Booking, me: Key, status: string)
  {
    b.user == me && (status == "" || StatusName(b.status) == status)
  }

  lemma PageOfSorted(matching: seq<Booking>, sorted: seq<Booking>, p: seq<Booking>, skip: nat)
    requires sorted == Seqs.SortDescBy(matching, CreatedAt)
    requires skip + |p| <= |sorted| || p == []
    requires forall i :: 0 <= i < |p| ==> p[i] == sorted[skip + i]
    ensures forall k :: 0 <= k < |p| ==> p[k] in matching
    ensures forall k, l :: 0 <= k < l < |p| ==> p[k].createdAt >= p[l].createdAt
  {
    forall k | 0 <= k < |p| ensures p[k] in matching {
      assert p[k] in sorted;
      Seqs.SortDescByMembership(matching, CreatedAt, p[k]);
    }
    forall k, l | 0 <= k < l < |p| ensures p[k].createdAt >= p[l].createdAt {
      assert p[k] == sorted[skip + k] && p[l] == sorted[skip + l];
      assert CreatedAt(sorted[skip + k]) >= CreatedAt(sorted[skip + l]);
    }
  }

  /** `sort({ createdAt: -1 })` then `limit`/`skip`: one page of the matches, newest first. */
  function NewestPage(matching: seq<Booking>, page: int, limit: int): (r: Result<seq<Booking>>)
    ensures r.Err? <==> SkipCount(page, limit) < 0
    ensures r.Ok? ==> forall k :: 0 <= k < |r.value| ==> r.value[k] in matching
    ensures r.Ok? ==> forall k, l :: 0 <= k < l < |r.value| ==> r.value[k].createdAt >= r.value[l].createdAt
    ensures r.Ok? ==> IsWindow(r.value, Seqs.SortDescBy(matching, CreatedAt), SkipCount(page, limit), limit)
    ensures r.Ok? ==> |r.value| == PageSize(|matching|, SkipCount(page, limit), limit)
  {
    var sorted := Seqs.SortDescBy(matching, CreatedAt);
    var r := Paginate(sorted, page, limit);
    if r.Err? then Err(r.failure)
    else
      PageOfSorted(matching, sorted, r.value, SkipCount(page, limit));
      Ok(r.value)
  }

  /**
   * GET /api/bookings/my: the caller's bookings, with the given status when
   * one is given, newest first, one page of them; the total counts every
   * match.  An absent page is 1 and an absent limit is 20.
   */
  function MyBookings(bs: seq<Booking>, me: Key, status: string, page: Option<int>, limit: Option<int>): (r: Result<(seq<Booking>, nat)>)
    ensures r.Err? <==> SkipCount(page.GetOr(1), limit.GetOr(20)) < 0
    ensures r.Ok? ==> r.value.1 == Seqs.Count(bs, b => MineWithStatus(b, me, status))
    ensures r.Ok? ==> |r.value.0| == PageSize(r.value.1, SkipCount(page.GetOr(1), limit.GetOr(20)), limit.GetOr(20))
    ensures r.Ok? ==> IsWindow(r.value.0, Seqs.SortDescBy(Seqs.Filter(bs, b => MineWithStatus(b, me, status)), CreatedAt),
                               SkipCount(page.GetOr(1), limit.GetOr(20)), limit.GetOr(20))
    ensures r.Ok? ==> forall k :: 0 <= k < |r.value.0| ==> r.value.0[k] in bs && MineWithStatus(r.value.0[k], me, status)
    ensures r.Ok? ==> forall k, l :: 0 <= k < l < |r.value.0| ==> r.value.0[k].createdAt >= r.value.0[l].createdAt
  {
    var matching := Seqs.Filter(bs, b => MineWithStatus(b, me, status));
    match NewestPage(matching, page.GetOr(1), limit.GetOr(20))
    case Err(f) => Err(f)
    case Ok(p) => Ok((p, |matching|))
  }

  /** The admin list's filters: a status other than "all", a scheduled day, and a case-insensitive search. */
  datatype AdminQuery = AdminQuery(status: string, day: Option<(int, int)>, search: string)

  predicate AdminMatch(b: Booking, users: seq<User>, q: AdminQuery)
    ensures (q.status == "" || q.status == "all") && q.day.None? && q.search == "" ==> AdminMatch(b, users, q)
  {
    && (q.status == "" || q.status == "all" || StatusName(b.status) == q.status)
    && (q.day.Some? ==> q.day.value.0 <= b.scheduledDate <= q.day.value.1)
    && (q.search != "" ==>
          || MatchesText(b.bookingId, q.search)
          || MatchesText(b.address.fullAddress, q.search)
          || exists j :: 0 <= j < |users| && users[j].key == b.user && UserModel.MatchesSearch(users[j], q.search))
  }

  /**
   * GET /api/bookings/all (admins only): every booking passing the filters,
   * newest first, one page of them; `day` is the local midnight-to-midnight
   * range of the requested date.  An absent page is 1 and an absent limit is 50.
   */
  function AllBookings(bs: seq<Booking>, users: seq<User>, me: User, q: AdminQuery, page: Option<int>, limit: Option<int>)
    : (r: Result<(seq<Booking>, nat)>)
    ensures me.role != UserModel.Admin ==> r == Err(AuthMiddleware.Authorize(me, [UserModel.Admin]).failure)
    ensures me.role == UserModel.Admin ==> (r.Err? <==> SkipCount(page.GetOr(1), limit.GetOr(50)) < 0)
    ensures r.Ok? ==> r.value.1 == Seqs.Count(bs, b => AdminMatch(b, users, q))
    ensures r.Ok? ==> |r.value.0| == PageSize(r.value.1, SkipCount(page.GetOr(1), limit.GetOr(50)), limit.GetOr(50))
    ensures r.Ok? ==> IsWindow(r.value.0, Seqs.SortDescBy(Seqs.Filter(bs, b => AdminMatch(b, users, q)), CreatedAt),
                               SkipCount(page.GetOr(1), limit.GetOr(50)), limit.GetOr(50))
    ensures r.Ok? ==> forall k :: 0 <= k < |r.value.0| ==> r.value.0[k] in bs && AdminMatch(r.value.0[k], users, q)
    ensures r.Ok? ==> forall k, l :: 0 <= k < l < |r.value.0| ==> r.value.0[k].createdAt >= r.value.0[l].createdAt
  {
    match AuthMiddleware.Authorize(me, [UserModel.Admin])
    case Err(f) => Err(f)
    case Ok(_) =>
      var matching := Seqs.Filter(bs, b => AdminMatch(b, users, q));
      match NewestPage(matching, page.GetOr(1), limit.GetOr(50))
      case Err(f) => Err(f)
      case Ok(p) => Ok((p, |matching|))
  }

  /** GET /api/bookings/:id: an unknown id is 404; a customer may only see their own bookings, other roles see any. */
  function GetBooking(bs: seq<Booking>, me: User, id: Key): (r: Result<Booking>)
    ensures FindBooking(bs, id).None? ==> r == Err(NotFound("Booking not found"))
    ensures r.Ok? <==> FindBooking(bs, id).Some?
                       && (me.role == UserModel.Customer ==> bs[FindBooking(bs, id).value].user == me.key)
    ensures r.Ok? ==> r.value.key == id && r.value in bs
    ensures r.Err? && FindBooking(bs, id).Some? ==> r == Err(Forbidden("Not authorized"))
  {
    match FindBooking(bs, id)
    case None => Err(NotFound("Booking not found"))
    case Some(i) =>
      if me.role == UserModel.Customer && bs[i].user != me.key then Err(Forbidden("Not authorized"))
      else Ok(bs[i])
  }

  // ---------------------------------------------------------------- status, assign, cancel

  /**
   * PUT /api/bookings/:id/status: any admin or agent may set any of the six
   * statuses on any booking; there is no transition check and no check that an
   * agent owns the booking.  A cancel reason is written only when one is given.
   * A status outside the enumeration fails validation.
   */
  function StatusOutcome(bs: seq<Booking>, me: User, id: Key, status: string, cancelReason: string,
                         now: Instant, digits: string): (r: Result<Edit>)
    requires WellFormedInstant(now) && AllLowerBase36(digits)
    ensures !(me.role in [UserModel.Admin, UserModel.Agent]) ==> r == Err(AuthMiddleware.Authorize(me, [UserModel.Admin, UserModel.Agent]).failure)
    ensures me.role in [UserModel.Admin, UserModel.Agent] && FindBooking(bs, id).None? ==> r == Err(NotFound("Booking not found"))
    ensures r.Ok? <==> me.role in [UserModel.Admin, UserModel.Agent] && FindBooking(bs, id).Some? && ParseStatus(status).Some?
    ensures r.Ok? ==> r.value.index == FindBooking(bs, id).value
    ensures r.Ok? ==> r.value.doc.status == ParseStatus(status).value && StatusName(r.value.doc.status) == status
    ensures r.Ok? ==> r.value.doc.cancelReason == if cancelReason != "" then cancelReason else bs[r.value.index].cancelReason
    ensures r.Ok? ==> r.value.doc.agent == bs[r.value.index].agent && r.value.doc.items == bs[r.value.index].items
    ensures r.Ok? ==> var b := bs[r.value.index];
                      r.value.doc == PreSave(Some(b), b.(status := r.value.doc.status, cancelReason := r.value.doc.cancelReason), now, digits)
  {
    match AuthMiddleware.Authorize(me, [UserModel.Admin, UserModel.Agent])
    case Err(f) => Err(f)
    case Ok(_) =>
      match FindBooking(bs, id)
      case None => Err(NotFound("Booking not found"))
      case Some(i) =>
        match ParseStatus(status)
        case None => Err(ServerError("Booking validation failed"))
        case Some(s) =>
          var edited := bs[i].(status := s, cancelReason := if cancelReason != "" then cancelReason else bs[i].cancelReason);
          Ok(Edit(i, PreSave(Some(bs[i]), edited, now, digits)))
  }

  /** Even a completed booking can be sent back to 'pending' by the status route, and its history records the step. */
  lemma StatusRouteReopensCompleted(bs: seq<Booking>, me: User, id: Key, now: Instant, digits: string)
    requires WellFormedInstant(now) && AllLowerBase36(digits)
    requires me.role == UserModel.Agent
    requires FindBooking(bs, id).Some? && bs[FindBooking(bs, id).value].status == Completed
    ensures StatusOutcome(bs, me, id, "pending", "", now, digits).Ok?
    ensures StatusOutcome(bs, me, id, "pending", "", now, digits).value.doc.status == Pending
    ensures StatusOutcome(bs, me, id, "pending", "", now, digits).value.doc.statusHistory
            == bs[FindBooking(bs, id).value].statusHistory + [HistoryEntry(Pending, now.ms)]
  {
  }

  /** PUT /api/bookings/:id/assign: an admin sets the agent (unchecked) and forces 'assigned' whatever the prior status. */
  function AssignOutcome(bs: seq<Booking>, me: User, id: Key, agentId: Option<Key>, now: Instant, digits: string): (r: Result<Edit>)
    requires WellFormedInstant(now) && AllLowerBase36(digits)
    ensures me.role != UserModel.Admin ==> r == Err(AuthMiddleware.Authorize(me, [UserModel.Admin]).failure)
    ensures r.Ok? <==> me.role == UserModel.Admin && FindBooking(bs, id).Some?
    ensures r.Err? && me.role == UserModel.Admin ==> r == Err(NotFound("Booking not found"))
    ensures r.Ok? ==> r.value.index == FindBooking(bs, id).value
    ensures r.Ok? ==> r.value.doc.agent == agentId && r.value.doc.status == Assigned
    ensures r.Ok? ==> r.value.doc.items == bs[r.value.index].items && r.value.doc.cancelReason == bs[r.value.index].cancelReason
    ensures r.Ok? ==> var b := bs[r.value.index];
                      r.value.doc == PreSave(Some(b), b.(agent := agentId, status := Assigned), now, digits)
  {
    match AuthMiddleware.Authorize(me, [UserModel.Admin])
    case Err(f) => Err(f)
    case Ok(_) =>
      match FindBooking(bs, id)
      case None => Err(NotFound("Booking not found"))
      case Some(i) =>
        Ok(Edit(i, PreSave(Some(bs[i]), bs[i].(agent := agentId, status := Assigned), now, digits)))
  }

  /**
   * PUT /api/bookings/:id/cancel: the owning customer or an admin may cancel
   * any booking that is not already completed or cancelled, so a pickup that is
   * out for collection can still be cancelled.  The reason defaults to
   * 'Cancelled by user'.
   */
  function CancelOutcome(bs: seq<Booking>, me: User, id: Key, reason: string, now: Instant, digits: string): (r: Result<Edit>)
    requires WellFormedInstant(now) && AllLowerBase36(digits)
    ensures FindBooking(bs, id).None? ==> r == Err(NotFound("Booking not found"))
    ensures FindBooking(bs, id).Some? ==>
              var b := bs[FindBooking(bs, id).value];
              && (b.user != me.key && me.role != UserModel.Admin ==> r == Err(Forbidden("Not authorized")))
              && (((b.user == me.key || me.role == UserModel.Admin) && b.status in {Completed, Cancelled})
                    ==> r == Err(BadRequest("Cannot cancel this booking")))
              && (r.Ok? <==> (b.user == me.key || me.role == UserModel.Admin) && b.status !in {Completed, Cancelled})
    ensures r.Ok? ==> r.value.index == FindBooking(bs, id).value
    ensures r.Ok? ==> r.value.doc.status == Cancelled
    ensures r.Ok? ==> r.value.doc.cancelReason == if reason != "" then reason else "Cancelled by user"
    ensures r.Ok? ==> var b := bs[r.value.index];
                      r.value.doc == PreSave(Some(b), b.(status := Cancelled, cancelReason := r.value.doc.cancelReason), now, digits)
  {
    match FindBooking(bs, id)
    case None => Err(NotFound("Booking not found"))
    case Some(i) =>
      if bs[i].user != me.key && me.role != UserModel.Admin then Err(Forbidden("Not authorized"))
      else if bs[i].status in {Completed, Cancelled} then Err(BadRequest("Cannot cancel this booking"))
      else
        var edited := bs[i].(status := Cancelled, cancelReason := if reason != "" then reason else "Cancelled by user");
        Ok(Edit(i, PreSave(Some(bs[i]), edited, now, digits)))
  }

  /** Cancelling twice fails the second time: a cancelled booking cannot be cancelled again. */
  lemma CancelNotRepeatable(bs: seq<Booking>, me: User, id: Key, r1: string, r2: string, now: Instant, digits: string)
    requires WellFormedInstant(now) && AllLowerBase36(digits)
    requires CancelOutcome(bs, me, id, r1, now, digits).Ok?
    ensures CancelOutcome(Apply(bs, CancelOutcome(bs, me, id, r1, now, digits)), me, id, r2, now, digits)
            == Err(BadRequest("Cannot cancel this booking"))
  {
    var o := CancelOutcome(bs, me, id, r1, now, digits);
    var bs' := Apply(bs, o);
    var i := o.value.index;
    assert FindBooking(bs', id) == Some(i) by {
      assert forall j :: 0 <= j < i ==> bs'[j] == bs[j];
    }
  }

  /**
   * The status route, assign and cancel keep every stored booking's
   * invariant: they change neither the id nor the history before the hook
   * runs, so the hook leaves the history ending in the new status.
   */
  lemma EditsKeepInvariant(bs: seq<Booking>, me: User, id: Key, status: string, text: string, agentId: Option<Key>,
                           now: Instant, digits: string)
    requires WellFormedInstant(now) && AllLowerBase36(digits)
    requires forall i :: 0 <= i < |bs| ==> Invariant(bs[i])
    ensures Committable(bs, StatusOutcome(bs, me, id, status, text, now, digits))
    ensures Committable(bs, AssignOutcome(bs, me, id, agentId, now, digits))
    ensures Committable(bs, CancelOutcome(bs, me, id, text, now, digits))
  {
    StatusKeepsInvariant(bs, me, id, status, text, now, digits);
    AssignKeepsInvariant(bs, me, id, agentId, now, digits);
    CancelKeepsInvariant(bs, me, id, text, now, digits);
  }

  /** A status update keeps the invariant of the booking it edits. */
  lemma StatusKeepsInvariant(bs: seq<Booking>, me: User, id: Key, status: string, text: string, now: Instant, digits: string)
    requires WellFormedInstant(now) && AllLowerBase36(digits)
    requires forall i :: 0 <= i < |bs| ==> Invariant(bs[i])
    ensures Committable(bs, StatusOutcome(bs, me, id, status, text, now, digits))
  {
    match FindBooking(bs, id)
    case None =>
    case Some(i) =>
      var b := bs[i];
      if ParseStatus(status).Some? {
        var s := ParseStatus(status).value;
        PreSaveKeepsInvariant(Some(b), b.(status := s, cancelReason := if text != "" then text else b.cancelReason), now, digits);
      }
  }

  /** Assigning an agent keeps the invariant of the booking it edits. */
  lemma AssignKeepsInvariant(bs: seq<Booking>, me: User, id: Key, agentId: Option<Key>, now: Instant, digits: string)
    requires WellFormedInstant(now) && AllLowerBase36(digits)
    requires forall i :: 0 <= i < |bs| ==> Invariant(bs[i])
    ensures Committable(bs, AssignOutcome(bs, me, id, agentId, now, digits))
  {
    match FindBooking(bs, id)
    case None =>
    case Some(i) =>
      PreSaveKeepsInvariant(Some(bs[i]), bs[i].(agent := agentId, status := Assigned), now, digits);
  }

  /** Cancelling keeps the invariant of the booking it edits. */
  lemma CancelKeepsInvariant(bs: seq<Booking>, me: User, id: Key, text: string, now: Instant, digits: string)
    requires WellFormedInstant(now) && AllLowerBase36(digits)
    requires forall i :: 0 <= i < |bs| ==> Invariant(bs[i])
    ensures Committable(bs, CancelOutcome(bs, me, id, text, now, digits))
  {
    match FindBooking(bs, id)
    case None =>
    case Some(i) =>
      PreSaveKeepsInvariant(Some(bs[i]), bs[i].(status := Cancelled, cancelReason := if text != "" then text else "Cancelled by user"), now, digits);
  }

  method UpdateStatus(db: Db, me: User, id: Key, status: string, cancelReason: string, now: Instant, digits: string)
    returns (r: Result<Booking>)
    requires db.Valid() && WellFormedInstant(now) && AllLowerBase36(digits)
    modifies db`bookings
    ensures db.Valid()
    ensures db.bookings == Apply(old(db.bookings), StatusOutcome(old(db.bookings), me, id, status, cancelReason, now, digits))
    ensures r == Response(StatusOutcome(old(db.bookings), me, id, status, cancelReason, now, digits))
  {
    StatusKeepsInvariant(db.bookings, me, id, status, cancelReason, now, digits);
    r := CommitBooking(db, StatusOutcome(db.bookings, me, id, status, cancelReason, now, digits));
  }

  method Assign(db: Db, me: User, id: Key, agentId: Option<Key>, now: Instant, digits: string)
    returns (r: Result<Booking>)
    requires db.Valid() && WellFormedInstant(now) && AllLowerBase36(digits)
    modifies db`bookings
    ensures db.Valid()
    ensures db.bookings == Apply(old(db.bookings), AssignOutcome(old(db.bookings), me, id, agentId, now, digits))
    ensures r == Response(AssignOutcome(old(db.bookings), me, id, agentId, now, digits))
  {
    AssignKeepsInvariant(db.bookings, me, id, agentId, now, digits);
    r := CommitBooking(db, AssignOutcome(db.bookings, me, id, agentId, now, digits));
  }

  method Cancel(db: Db, me: User, id: Key, reason: string, now: Instant, digits: string)
    returns (r: Result<Booking>)
    requires db.Valid() && WellFormedInstant(now) && AllLowerBase36(digits)
    modifies db`bookings
    ensures db.Valid()
    ensures db.bookings == Apply(old(db.bookings), CancelOutcome(old(db.bookings), me, id, reason, now, digits))
    ensures r == Response(CancelOutcome(old(db.bookings), me, id, reason, now, digits))
  {
    CancelKeepsInvariant(db.bookings, me, id, reason, now, digits);
    r := CommitBooking(db, CancelOutcome(db.bookings, me, id, reason, now, digits));
  }

  // ---------------------------------------------------------------- rate

  /**
   * PUT /api/bookings/:id/rate, the booking half: only a completed booking may
   * be rated, by anyone signed in (there is no ownership check); a rating
   * outside 1..5 fails validation.  An absent rating clears the stored one.
   */
  function RateOutcome(bs: seq<Booking>, id: Key, rating: Option<int>, feedback: string, now: Instant, digits: string): (r: Result<Edit>)
    requires WellFormedInstant(now) && AllLowerBase36(digits)
    ensures FindBooking(bs, id).None? || bs[FindBooking(bs, id).value].status != Completed
            ==> r == Err(BadRequest("Cannot rate this booking"))
    ensures r.Ok? <==> FindBooking(bs, id).Some? && bs[FindBooking(bs, id).value].status == Completed
                       && SchemaValid(bs[FindBooking(bs, id).value].(rating := rating))
    ensures r.Ok? ==> r.value.index == FindBooking(bs, id).value
    ensures r.Ok? ==> var b := bs[r.value.index];
                      r.value.doc.rating == rating && r.value.doc.feedback == feedback
                      && r.value.doc.status == Completed && r.value.doc.statusHistory == b.statusHistory
                      && r.value.doc.agent == b.agent
    ensures r.Ok? ==> var b := bs[r.value.index];
                      r.value.doc == PreSave(Some(b), b.(rating := rating, feedback := feedback), now, digits)
  {
    match FindBooking(bs, id)
    case None => Err(BadRequest("Cannot rate this booking"))
    case Some(i) =>
      if bs[i].status != Completed then Err(BadRequest("Cannot rate this booking"))
      else
        var edited := bs[i].(rating := rating, feedback := feedback);
        if !SchemaValid(edited) then Err(ServerError("Booking validation failed"))
        else Ok(Edit(i, PreSave(Some(bs[i]), edited, now, digits)))
  }

  lemma RateKeepsInvariant(bs: seq<Booking>, id: Key, rating: Option<int>, feedback: string, now: Instant, digits: string)
    requires WellFormedInstant(now) && AllLowerBase36(digits)
    requires forall i :: 0 <= i < |bs| ==> Invariant(bs[i])
    ensures Committable(bs, RateOutcome(bs, id, rating, feedback, now, digits))
  {
    var o := RateOutcome(bs, id, rating, feedback, now, digits);
    if o.Ok? {
      var b := bs[o.value.index];
      PreSaveKeepsInvariant(Some(b), b.(rating := rating, feedback := feedback), now, digits);
    }
  }

  /** A booking of the agent that carries a rating: what the mean is taken over. */
  predicate RatedBy(b: Booking, agent: Key)
  {
    b.agent == Some(agent) && b.rating.Some?
  }

  /** What a booking adds to the agent's rating total: its rating when it is rated for the agent, 0 otherwise. */
  function RatingPoints(b: Booking, agent: Key): int
  {
    if RatedBy(b, agent) then b.rating.value else 0
  }

  /** The ratings of an agent's rated bookings, in store order. */
  function RatingsOf(bs: seq<Booking>, agent: Key): (r: seq<int>)
    ensures |r| <= |bs|
    ensures |r| == RatedCount(bs, agent)
    ensures forall x :: x in r <==> exists j :: 0 <= j < |bs| && bs[j].agent == Some(agent) && bs[j].rating == Some(x)
  {
    if bs == [] then []
    else
      var rest := RatingsOf(bs[1..], agent);
      assert forall x :: (exists j :: 0 <= j < |bs| && bs[j].agent == Some(agent) && bs[j].rating == Some(x))
                         <==> (bs[0].agent == Some(agent) && bs[0].rating == Some(x))
                              || (exists j :: 0 <= j < |bs[1..]| && bs[1..][j].agent == Some(agent) && bs[1..][j].rating == Some(x)) by {
        forall x | exists j :: 0 <= j < |bs| && bs[j].agent == Some(agent) && bs[j].rating == Some(x)
          ensures (bs[0].agent == Some(agent) && bs[0].rating == Some(x))
                  || (exists j :: 0 <= j < |bs[1..]| && bs[1..][j].agent == Some(agent) && bs[1..][j].rating == Some(x))
        {
          var j :| 0 <= j < |bs| && bs[j].agent == Some(agent) && bs[j].rating == Some(x);
          if j > 0 { assert bs[1..][j - 1] == bs[j]; }
        }
      }
      (if bs[0].agent == Some(agent) && bs[0].rating.Some? then [bs[0].rating.value] else []) + rest
  }

  function SumInts(s: seq<int>): int
  {
    if s == [] then 0 else s[0] + SumInts(s[1..])
  }

  /** The mean of an agent's ratings; None when the agent has no rated booking (the source divides 0 by 0 there). */
  function MeanRating(bs: seq<Booking>, agent: Key): (m: Option<real>)
    ensures m.Some? <==> exists j :: 0 <= j < |bs| && bs[j].agent == Some(agent) && bs[j].rating.Some?
  {
    var rs := RatingsOf(bs, agent);
    if rs == [] then
      assert forall j :: 0 <= j < |bs| && bs[j].agent == Some(agent) && bs[j].rating.Some? ==> bs[j].rating.value in rs;
      None
    else
      assert rs[0] in rs;
      Some(SumInts(rs) as real / |rs| as real)
  }

  /** The ratings listed for an agent add up to the agent's rating total over all bookings. */
  lemma {:induction false} RatingsOfSum(bs: seq<Booking>, agent: Key)
    ensures SumInts(RatingsOf(bs, agent)) == RatingTotal(bs, agent)
  {
    if bs != [] {
      RatingsOfSum(bs[1..], agent);
      var rest := RatingsOf(bs[1..], agent);
      if RatedBy(bs[0], agent) {
        assert RatingsOf(bs, agent) == [bs[0].rating.value] + rest;
        assert ([bs[0].rating.value] + rest)[1..] == rest;
      } else {
        assert RatingsOf(bs, agent) == rest;
      }
    }
  }

  /** The number of the agent's rated bookings. */
  function RatedCount(bs: seq<Booking>, agent: Key): nat
  {
    Seqs.Count(bs, (b: Booking) => RatedBy(b, agent))
  }

  /** The sum of the ratings of the agent's rated bookings. */
  function RatingTotal(bs: seq<Booking>, agent: Key): int
  {
    Seqs.Sum(bs, (b: Booking) => RatingPoints(b, agent))
  }

  /**
   * The mean written to the agent is the rating total over the agent's rated
   * bookings divided by their number, and exists exactly when that number is
   * not zero.
   */
  lemma MeanRatingIsAverage(bs: seq<Booking>, agent: Key)
    ensures MeanRating(bs, agent).Some? <==> RatedCount(bs, agent) > 0
    ensures RatedCount(bs, agent) > 0 ==> MeanRating(bs, agent) == Some(RatingTotal(bs, agent) as real / RatedCount(bs, agent) as real)
  {
    RatingsOfSum(bs, agent);
  }

  lemma {:induction false} SumIntsBounds(s: seq<int>, lo: int, hi: int)
    requires forall k :: 0 <= k < |s| ==> lo <= s[k] <= hi
    ensures lo * |s| <= SumInts(s) <= hi * |s|
  {
    if s != [] {
      SumIntsBounds(s[1..], lo, hi);
    }
  }

  /** When every stored rating lies in 1..5, so does the mean written to the agent. */
  lemma MeanRatingInScale(bs: seq<Booking>, agent: Key)
    requires forall j :: 0 <= j < |bs| ==> SchemaValid(bs[j])
    ensures MeanRating(bs, agent).Some? ==> 1.0 <= MeanRating(bs, agent).value <= 5.0
  {
    var rs := RatingsOf(bs, agent);
    if rs != [] {
      forall k | 0 <= k < |rs| ensures 1 <= rs[k] <= 5 {
        assert rs[k] in rs;
      }
      SumIntsBounds(rs, 1, 5);
      MeanBounds(SumInts(rs) as real, |rs| as real);
    }
  }

  lemma MeanBounds(s: real, n: real)
    requires n > 0.0 && n <= s <= 5.0 * n
    ensures 1.0 <= s / n <= 5.0
  {
    var q := s / n;
    assert q * n == s;
    if q < 1.0 {
      ProductPositive(1.0 - q, n);
      assert false;
    }
    if q > 5.0 {
      ProductPositive(q - 5.0, n);
      assert false;
    }
  }

  lemma ProductPositive(a: real, b: real)
    requires a > 0.0 && b > 0.0
    ensures a * b > 0.0
  {
  }

  /** Writes `agentRating` on the user with the given id, if there is one; nothing else changes. */
  function SetAgentRating(users: seq<User>, agent: Key, m: real): (r: seq<User>)
    ensures |r| == |users|
    ensures forall j :: 0 <= j < |users| && FindUser(users, agent) != Some(j) ==> r[j] == users[j]
    ensures FindUser(users, agent).Some? ==>
              var j := FindUser(users, agent).value;
              r[j].agentRating == m && r[j].(agentRating := users[j].agentRating) == users[j]
    ensures forall j :: 0 <= j < |users| ==> r[j].key == users[j].key
  {
    match FindUser(users, agent)
    case None => users
    case Some(j) => users[j := users[j].(agentRating := m)]
  }

  /**
   * PUT /api/bookings/:id/rate.  After the booking is saved, a booking with an
   * agent sets that agent's rating to the mean over the agent's rated
   * bookings.  When there is none (the rating was cleared and no other booking
   * of the agent is rated) the division fails: the booking stays saved and the
   * response is a server error.
   */
  method Rate(db: Db, id: Key, rating: Option<int>, feedback: string, now: Instant, digits: string)
    returns (r: Result<Booking>)
    requires db.Valid() && WellFormedInstant(now) && AllLowerBase36(digits)
    modifies db`bookings, db`users
    ensures db.Valid()
    ensures db.bookings == Apply(old(db.bookings), RateOutcome(old(db.bookings), id, rating, feedback, now, digits))
    ensures RateOutcome(old(db.bookings), id, rating, feedback, now, digits).Err?
            ==> r == Response(RateOutcome(old(db.bookings), id, rating, feedback, now, digits)) && db.users == old(db.users)
    ensures RateOutcome(old(db.bookings), id, rating, feedback, now, digits).Ok? ==>
              var doc := RateOutcome(old(db.bookings), id, rating, feedback, now, digits).value.doc;
              && (doc.agent.None? ==> r == Ok(doc) && db.users == old(db.users))
              && ((doc.agent.Some? && MeanRating(db.bookings, doc.agent.value).None?)
                    ==> r == Err(ServerError("Cast to Number failed")) && db.users == old(db.users))
              && ((doc.agent.Some? && MeanRating(db.bookings, doc.agent.value).Some?)
                    ==> r == Ok(doc) && db.users == SetAgentRating(old(db.users), doc.agent.value, MeanRating(db.bookings, doc.agent.value).value))
  {
    RateKeepsInvariant(db.bookings, id, rating, feedback, now, digits);
    var o := RateOutcome(db.bookings, id, rating, feedback, now, digits);
    r := CommitBooking(db, o);
    assert o == RateOutcome(old(db.bookings), id, rating, feedback, now, digits);
    assert o.Ok? ==> r == Ok(o.value.doc);
    if o.Ok? && o.value.doc.agent.Some? {
      var agent := o.value.doc.agent.value;
      var m := MeanRating(db.bookings, agent);
      if m.None? {
        r := Err(ServerError("Cast to Number failed"));
      } else {
        var users := SetAgentRating(db.users, agent, m.value);
        SetAgentRatingKeepsStored(db.users, agent, m.value, db.nextKey);
        WriteUsers(db, users);
      }
    }
  }

  /** Recording an agent's rating keeps every user stored under its key. */
  lemma SetAgentRatingKeepsStored(users: seq<User>, agent: Key, m: real, nextKey: int)
    requires forall j :: 0 <= j < |users| ==> users[j].key < nextKey && UserModel.Stored(users[j])
    ensures var r := SetAgentRating(users, agent, m);
            forall j :: 0 <= j < |r| ==> r[j].key < nextKey && UserModel.Stored(r[j])
  {
    var r := SetAgentRating(users, agent, m);
    forall j | 0 <= j < |r| ensures r[j].key < nextKey && UserModel.Stored(r[j]) {
      assert r[j].key == users[j].key;
    }
  }
}

=== FILE: category_model.dfy ===
/**
 * The scrap category document (backend/models/Category.js): the slug derived
 * from the name, and the pre-save hook that re-derives the slug and extends
 * the price history.
 */
module CategoryModel {
  import opened Wrappers
  import opened Text
  import Seqs

  datatype Unit = Kg | Piece | Each

  function UnitName(u: Unit): string
  {
    match u
    case Kg => "kg"
    case Piece => "piece"
    case Each => "unit"
  }

  /** The schema's enum check on `unit`. */
  function ParseUnit(name: string): (r: Option<Unit>)
    ensures r.Some? ==> UnitName(r.value) == name
    ensures forall u :: UnitName(u) == name ==> r == Some(u)
  {
    if name == "kg" then Some(Kg)
    else if name == "piece" then Some(Piece)
    else if name == "unit" then Some(Each)
    else None
  }

  datatype PricePoint = PricePoint(price: int, date: int)

  datatype Category = Category(
    key: Key,
    name: string,
    slug: string,
    icon: string,
    image: string,
    pricePerKg: int,
    unit: Unit,
    description: string,
    isActive: bool,
    sortOrder: int,
    color: string,
    minQuantity: int,
    priceHistory: seq<PricePoint>,
    createdAt: int)

  // ---------------------------------------------------------------- slug

  /** Drops the leading run of characters outside [a-z0-9]. */
  function DropRun(s: string): (r: string)
    ensures |r| <= |s| && r == s[|s| - |r|..]
    ensures r == [] || IsLowerAlnum(r[0])
    ensures forall i :: 0 <= i < |s| - |r| ==> !IsLowerAlnum(s[i])
  {
    if s != [] && !IsLowerAlnum(s[0]) then
      var r := DropRun(s[1..]);
      assert s[1..][|s| - 1 - |r|..] == s[|s| - |r|..];
      assert forall i :: 1 <= i < |s| - |r| ==> s[i] == s[1..][i - 1];
      r
    else s
  }

  /** `replace(/[^a-z0-9]+/g, '-')`: every maximal run of characters outside [a-z0-9] becomes one '-'. */
  function Collapse(s: string): (r: string)
    ensures forall i :: 0 <= i < |r| ==> IsLowerAlnum(r[i]) || r[i] == '-'
    ensures forall i :: 0 <= i < |r| - 1 ==> !(r[i] == '-' && r[i + 1] == '-')
    ensures r != [] && r[0] == '-' ==> s != [] && !IsLowerAlnum(s[0])
    decreases |s|
  {
    if s == [] then []
    else if IsLowerAlnum(s[0]) then [s[0]] + Collapse(s[1..])
    else ['-'] + Collapse(DropRun(s))
  }

  /** The slug the pre-save hook derives from a category name: only a-z, 0-9 and single hyphens. */
  function Slugify(name: string): (r: string)
    ensures IsSlug(r)
  {
    Collapse(Lower(name))
  }

  predicate IsSlug(s: string)
  {
    && (forall i :: 0 <= i < |s| ==> IsLowerAlnum(s[i]) || s[i] == '-')
    && (forall i :: 0 <= i < |s| - 1 ==> !(s[i] == '-' && s[i + 1] == '-'))
  }

  lemma {:induction false} CollapseOfSlug(s: string)
    requires IsSlug(s)
    ensures Collapse(s) == s
  {
    if s != [] {
      if IsLowerAlnum(s[0]) {
        CollapseOfSlug(s[1..]);
      } else {
        assert s[0] == '-';
        assert DropRun(s) == s[1..] by {
          if |s| > 1 {
            assert IsLowerAlnum(s[1]);
          }
        }
        CollapseOfSlug(s[1..]);
      }
    }
  }

  lemma LowerOfSlug(s: string)
    requires IsSlug(s)
    ensures Lower(s) == s
  {
  }

  /** Slugifying a slug returns it unchanged. */
  lemma SlugifyIdempotent(name: string)
    ensures Slugify(Slugify(name)) == Slugify(name)
  {
    var s := Slugify(name);
    LowerOfSlug(s);
    CollapseOfSlug(s);
  }

  /** The [a-z0-9] characters of the lower-cased name survive in order; only the runs between them change. */
  lemma {:induction false} CollapseKeepsAlnum(s: string)
    ensures Seqs.Filter(Collapse(s), IsLowerAlnum) == Seqs.Filter(s, IsLowerAlnum)
    decreases |s|
  {
    if s != [] {
      if IsLowerAlnum(s[0]) {
        CollapseKeepsAlnum(s[1..]);
        KeepsAlnumAtLetter(s);
      } else {
        CollapseKeepsAlnum(DropRun(s));
        KeepsAlnumAtRun(s);
      }
    }
  }

  lemma KeepsAlnumAtLetter(s: string)
    requires s != [] && IsLowerAlnum(s[0])
    requires Seqs.Filter(Collapse(s[1..]), IsLowerAlnum) == Seqs.Filter(s[1..], IsLowerAlnum)
    ensures Seqs.Filter(Collapse(s), IsLowerAlnum) == Seqs.Filter(s, IsLowerAlnum)
  {
    Seqs.FilterAppend([s[0]], Collapse(s[1..]), IsLowerAlnum);
    Seqs.FilterAppend([s[0]], s[1..], IsLowerAlnum);
    assert s == [s[0]] + s[1..];
  }

  lemma KeepsAlnumAtRun(s: string)
    requires s != [] && !IsLowerAlnum(s[0])
    requires Seqs.Filter(Collapse(DropRun(s)), IsLowerAlnum) == Seqs.Filter(DropRun(s), IsLowerAlnum)
    ensures Seqs.Filter(Collapse(s), IsLowerAlnum) == Seqs.Filter(s, IsLowerAlnum)
  {
    FilterDropRun(s);
    FilterCollapseRun(s);
  }

  /** The '-' a run becomes is no [a-z0-9] character either. */
  lemma FilterCollapseRun(s: string)
    requires s != [] && !IsLowerAlnum(s[0])
    ensures Seqs.Filter(Collapse(s), IsLowerAlnum) == Seqs.Filter(Collapse(DropRun(s)), IsLowerAlnum)
  {
    var c := Collapse(s);
    assert c[1..] == Collapse(DropRun(s));
    assert Seqs.Filter(c, IsLowerAlnum) == Seqs.Filter(c[1..], IsLowerAlnum);
  }

  /** The run DropRun removes holds no [a-z0-9] character. */
  lemma {:induction false} FilterDropRun(s: string)
    ensures Seqs.Filter(DropRun(s), IsLowerAlnum) == Seqs.Filter(s, IsLowerAlnum)
  {
    if s != [] && !IsLowerAlnum(s[0]) {
      FilterDropRun(s[1..]);
    }
  }

  lemma DropRunBefore(c: char, b: char)
    requires !IsLowerAlnum(c) && IsLowerAlnum(b)
    ensures DropRun([c, b]) == [b]
  {
    assert [c, b][1..] == [b];
    assert DropRun([b]) == [b];
  }

  lemma CollapseOne(b: char)
    requires IsLowerAlnum(b)
    ensures Collapse([b]) == [b]
  {
    assert [b][1..] == [];
  }

  /** One separator between two letters or digits becomes one '-'. */
  lemma CollapseAroundOne(a: char, c: char, b: char)
    requires IsLowerAlnum(a) && IsLowerAlnum(b) && !IsLowerAlnum(c)
    ensures Collapse([a, c, b]) == [a, '-', b]
  {
    DropRunBefore(c, b);
    CollapseOne(b);
    assert Collapse([c, b]) == ['-'] + Collapse([b]);
    assert [a, c, b][1..] == [c, b];
  }

  /** Distinct names share a slug, although the schema declares the slug unique. */
  lemma SlugNotInjective()
    ensures "A B" != "A-B" && Slugify("A B") == Slugify("A-B") == "a-b"
  {
    assert "A B"[1] != "A-B"[1];
    assert Lower("A B") == ['a', ' ', 'b'];
    assert Lower("A-B") == ['a', '-', 'b'];
    CollapseAroundOne('a', ' ', 'b');
    CollapseAroundOne('a', '-', 'b');
  }

  // ---------------------------------------------------------------- save hook

  predicate NameModified(stored: Option<Category>, doc: Category)
  {
    stored.None? || stored.value.name != doc.name
  }

  predicate PriceModified(stored: Option<Category>, doc: Category)
  {
    stored.None? || stored.value.pricePerKg != doc.pricePerKg
  }

  /**
   * The pre-save hook: a modified name re-derives the slug, a modified price
   * appends exactly one {price, date} entry; nothing else changes.
   */
  function PreSave(stored: Option<Category>, doc: Category, now: int): (r: Category)
    ensures r.slug == if NameModified(stored, doc) then Slugify(doc.name) else doc.slug
    ensures r.priceHistory == if PriceModified(stored, doc) then doc.priceHistory + [PricePoint(doc.pricePerKg, now)] else doc.priceHistory
    ensures r == doc.(slug := r.slug, priceHistory := r.priceHistory)
  {
    var named := if NameModified(stored, doc) then doc.(slug := Slugify(doc.name)) else doc;
    if PriceModified(stored, doc) then named.(priceHistory := doc.priceHistory + [PricePoint(doc.pricePerKg, now)])
    else named
  }

  /**
   * What the save hook keeps for a category whose slug and history the
   * clients leave alone: a name, the slug of that name, and a price history
   * whose latest entry is the current price.
   */
  predicate Stored(c: Category)
  {
    c.name != "" && c.slug == Slugify(c.name) && |c.priceHistory| >= 1 && c.priceHistory[|c.priceHistory| - 1].price == c.pricePerKg
  }

  /**
   * What the schema's validators demand of every saved category: a name that
   * is not blank.  A stored category need not be `Stored`: a body may supply
   * its own slug or price history.
   */
  predicate SchemaValid(c: Category)
  {
    c.name != ""
  }

  /** The first save of a named category, and any later save of a stored one, leaves it fit to store. */
  lemma {:induction false} PreSaveKeepsStored(stored: Option<Category>, doc: Category, now: int)
    requires doc.name != ""
    requires stored.Some? ==> Stored(stored.value) && doc.priceHistory == stored.value.priceHistory
    requires stored.Some? && !NameModified(stored, doc) ==> doc.slug == stored.value.slug
    ensures Stored(PreSave(stored, doc, now))
  {
    PreSaveSlugOfName(stored, doc, now);
    PreSavePriceLast(stored, doc, now);
  }

  lemma PreSaveSlugOfName(stored: Option<Category>, doc: Category, now: int)
    requires stored.Some? ==> Stored(stored.value)
    requires stored.Some? && !NameModified(stored, doc) ==> doc.slug == stored.value.slug
    ensures PreSave(stored, doc, now).slug == Slugify(doc.name)
  {
  }

  lemma PreSavePriceLast(stored: Option<Category>, doc: Category, now: int)
    requires stored.Some? ==> Stored(stored.value) && doc.priceHistory == stored.value.priceHistory
    ensures var h := PreSave(stored, doc, now).priceHistory;
            |h| >= 1 && h[|h| - 1].price == doc.pricePerKg
  {
  }

  /** The price history only grows: a save keeps every earlier entry as a prefix. */
  lemma PreSaveHistoryAppendOnly(stored: Option<Category>, doc: Category, now: int)
    ensures doc.priceHistory <= PreSave(stored, doc, now).priceHistory
    ensures |PreSave(stored, doc, now).priceHistory| <= |doc.priceHistory| + 1
  {
  }
}

=== FILE: category_routes.dfy ===
/**
 * The category handlers of backend/routes/categories.js: the public and admin
 * lists, fetch, create, update by assignment and save, and hard delete.
 */
module CategoryRoutes {
  import opened Wrappers
  import opened Text
  import Seqs
  import opened CategoryModel
  import UserModel
  import Database
  import AuthMiddleware

  type User = UserModel.User

  function SortOrder(c: Category): int { c.sortOrder }

  predicate IsActive(c: Category) { c.isActive }

  /** GET /api/categories: exactly the active categories, by ascending sortOrder. */
  function ListActive(cats: seq<Category>): (r: seq<Category>)
    ensures forall c :: c in r <==> c in cats && c.isActive
    ensures Seqs.SortedBy(r, SortOrder)
    ensures multiset(r) == multiset(Seqs.Filter(cats, IsActive))
  {
    var active := Seqs.Filter(cats, IsActive);
    var sorted := Seqs.SortBy(active, SortOrder);
    assert forall c :: c in sorted <==> c in active by {
      forall c ensures c in sorted <==> c in active {
        Seqs.SortByMembership(active, SortOrder, c);
      }
    }
    sorted
  }

  /** GET /api/categories/all: every category, by ascending sortOrder; admins only. */
  function ListAll(cats: seq<Category>, me: User): (r: Result<seq<Category>>)
    ensures r.Ok? <==> me.role == UserModel.Admin
    ensures r.Err? ==> r == Err(AuthMiddleware.Authorize(me, [UserModel.Admin]).failure)
    ensures r.Ok? ==> multiset(r.value) == multiset(cats) && Seqs.SortedBy(r.value, SortOrder)
  {
    match AuthMiddleware.Authorize(me, [UserModel.Admin])
    case Err(f) => Err(f)
    case Ok(_) => Ok(Seqs.SortBy(cats, SortOrder))
  }

  /** The inactive categories are exactly those the admin list shows and the public list does not. */
  lemma ActiveListIsAdminListFiltered(cats: seq<Category>, me: User, c: Category)
    requires me.role == UserModel.Admin
    ensures c in ListActive(cats) <==> c in ListAll(cats, me).value && c.isActive
  {
    Seqs.SortByMembership(cats, SortOrder, c);
  }

  /** GET /api/categories/:id. */
  function GetCategory(cats: seq<Category>, id: Key): (r: Result<Category>)
    ensures r.Ok? <==> Database.FindCategory(cats, id).Some?
    ensures r.Err? ==> r == Err(NotFound("Category not found"))
    ensures r.Ok? ==> r.value.key == id && r.value in cats
  {
    match Database.FindCategory(cats, id)
    case None => Err(NotFound("Category not found"))
    case Some(i) => Ok(cats[i])
  }

  /** The documented fields of a create or update body; None where the body omits the field. */
  datatype CategoryFields = CategoryFields(
    name: Option<string>,
    icon: Option<string>,
    image: Option<string>,
    pricePerKg: Option<int>,
    unit: Option<string>,
    description: Option<string>,
    isActive: Option<bool>,
    sortOrder: Option<int>,
    color: Option<string>,
    minQuantity: Option<int>,
    slug: Option<string>,
    priceHistory: Option<seq<PricePoint>>)

  /**
   * `Object.assign(category, body)`: every supplied field overwrites the stored
   * one; the name setter trims and the slug setter lower-cases.
   */
  function Assign(c: Category, f: CategoryFields, unit: Unit): (r: Category)
    ensures r.key == c.key && r.createdAt == c.createdAt
    ensures r.slug == (if f.slug.Some? then Lower(f.slug.value) else c.slug)
    ensures r.priceHistory == f.priceHistory.GetOr(c.priceHistory)
    ensures r.name == (if f.name.Some? then Trim(f.name.value) else c.name)
    ensures r.pricePerKg == f.pricePerKg.GetOr(c.pricePerKg) && r.unit == unit
    ensures r.icon == f.icon.GetOr(c.icon) && r.image == f.image.GetOr(c.image)
    ensures r.description == f.description.GetOr(c.description) && r.isActive == f.isActive.GetOr(c.isActive)
    ensures r.sortOrder == f.sortOrder.GetOr(c.sortOrder) && r.color == f.color.GetOr(c.color)
    ensures r.minQuantity == f.minQuantity.GetOr(c.minQuantity)
  {
    c.(name := if f.name.Some? then Trim(f.name.value) else c.name,
       icon := f.icon.GetOr(c.icon),
       image := f.image.GetOr(c.image),
       pricePerKg := f.pricePerKg.GetOr(c.pricePerKg),
       unit := unit,
       description := f.description.GetOr(c.description),
       isActive := f.isActive.GetOr(c.isActive),
       sortOrder := f.sortOrder.GetOr(c.sortOrder),
       color := f.color.GetOr(c.color),
       minQuantity := f.minQuantity.GetOr(c.minQuantity),
       slug := if f.slug.Some? then Lower(f.slug.value) else c.slug,
       priceHistory := f.priceHistory.GetOr(c.priceHistory))
  }

  /** The unit a body selects: the stored (or default) unit when absent, None when it names no unit. */
  function SelectedUnit(f: CategoryFields, current: Unit): (r: Option<Unit>)
    ensures f.unit.None? ==> r == Some(current)
    ensures f.unit.Some? ==> r == ParseUnit(f.unit.value)
  {
    if f.unit.None? then Some(current) else ParseUnit(f.unit.value)
  }

  /** The defaults of a new category, before the body is applied. */
  function Blank(key: Key, now: int): (c: Category)
    ensures c.unit == Kg && c.isActive && c.sortOrder == 0 && c.minQuantity == 1 && c.priceHistory == []
  {
    Category(key, "", "", "\U{1F4E6}", "", 0, Kg, "", true, 0, "#10B981", 1, [], now)
  }

  /**
   * POST /api/categories: `Category.create(body)`.  A name that is blank after
   * trimming, a missing price or an unknown unit fails validation; otherwise
   * the hook derives the slug (whatever slug the body gave) and appends the
   * price to the history the body gave, if any.
   */
  function CreateOutcome(key: Key, me: User, f: CategoryFields, now: int): (r: Result<Category>)
    ensures me.role != UserModel.Admin ==> r == Err(AuthMiddleware.Authorize(me, [UserModel.Admin]).failure)
    ensures r.Ok? <==> me.role == UserModel.Admin && f.name.Some? && Trim(f.name.value) != "" && f.pricePerKg.Some?
                       && SelectedUnit(f, Kg).Some?
    ensures r.Err? && me.role == UserModel.Admin ==> r.failure.ServerError?
    ensures r.Ok? ==> Stored(r.value) && r.value.key == key
    ensures r.Ok? ==> r.value.name == Trim(f.name.value) && r.value.slug == Slugify(Trim(f.name.value))
    ensures r.Ok? ==> r.value.pricePerKg == f.pricePerKg.value && r.value.priceHistory == f.priceHistory.GetOr([]) + [PricePoint(f.pricePerKg.value, now)]
    ensures r.Ok? ==> r.value.unit == SelectedUnit(f, Kg).value && r.value.isActive == f.isActive.GetOr(true)
  {
    match AuthMiddleware.Authorize(me, [UserModel.Admin])
    case Err(f) => Err(f)
    case Ok(_) =>
      var unit := SelectedUnit(f, Kg);
      if f.name.None? || Trim(f.name.value) == "" || f.pricePerKg.None? || unit.None? then
        Err(ServerError("Category validation failed"))
      else
        var doc := Assign(Blank(key, now), f, unit.value);
        PreSaveKeepsStored(None, doc, now);
        assert doc.priceHistory == f.priceHistory.GetOr([]);
        Ok(PreSave(None, doc, now))
  }

  /**
   * PUT /api/categories/:id: the supplied fields overwrite the stored ones and
   * the document is saved, so the hook re-derives the slug when the name
   * changed and records the price when it changed.  A name that trims to
   * blank or an unknown unit fails validation.
   */
  function UpdateOutcome(cats: seq<Category>, me: User, id: Key, f: CategoryFields, now: int): (r: Result<(nat, Category)>)
    ensures me.role != UserModel.Admin ==> r == Err(AuthMiddleware.Authorize(me, [UserModel.Admin]).failure)
    ensures me.role == UserModel.Admin && Database.FindCategory(cats, id).None? ==> r == Err(NotFound("Category not found"))
    ensures r.Ok? <==> me.role == UserModel.Admin && Database.FindCategory(cats, id).Some?
                       && (f.name.Some? ==> Trim(f.name.value) != "")
                       && (f.name.None? ==> cats[Database.FindCategory(cats, id).value].name != "")
                       && SelectedUnit(f, cats[Database.FindCategory(cats, id).value].unit).Some?
    ensures r.Ok? ==> r.value.0 == Database.FindCategory(cats, id).value
    ensures r.Ok? ==> var c := cats[r.value.0];
                      var a := Assign(c, f, SelectedUnit(f, c.unit).value);
                      r.value.1 == PreSave(Some(c), a, now)
  {
    match AuthMiddleware.Authorize(me, [UserModel.Admin])
    case Err(f) => Err(f)
    case Ok(_) =>
      match Database.FindCategory(cats, id)
      case None => Err(NotFound("Category not found"))
      case Some(i) =>
        var unit := SelectedUnit(f, cats[i].unit);
        if unit.None? then Err(ServerError("Category validation failed"))
        else
          var a := Assign(cats[i], f, unit.value);
          if a.name == "" then Err(ServerError("Category validation failed"))
          else Ok((i, PreSave(Some(cats[i]), a, now)))
  }

  /**
   * An update keeps the category's key and a name, and keeps a stored category
   * fit to store unless the body overrides the slug without renaming or the
   * history without repricing; without a history in the body the history only
   * grows.
   */
  lemma UpdateKeepsStored(cats: seq<Category>, me: User, id: Key, f: CategoryFields, now: int)
    requires UpdateOutcome(cats, me, id, f, now).Ok?
    ensures var (i, c) := UpdateOutcome(cats, me, id, f, now).value;
            c.key == cats[i].key && SchemaValid(c)
    ensures var (i, c) := UpdateOutcome(cats, me, id, f, now).value;
            (&& Stored(cats[i])
             && (f.slug.None? || c.name != cats[i].name)
             && (f.priceHistory.None? || c.pricePerKg != cats[i].pricePerKg))
            ==> Stored(c)
    ensures var (i, c) := UpdateOutcome(cats, me, id, f, now).value;
            f.priceHistory.None? ==> cats[i].priceHistory <= c.priceHistory
  {
    var (i, c) := UpdateOutcome(cats, me, id, f, now).value;
    var a := Assign(cats[i], f, SelectedUnit(f, cats[i].unit).value);
    assert c == PreSave(Some(cats[i]), a, now);
    if Stored(cats[i]) && (f.slug.None? || a.name != cats[i].name) && (f.priceHistory.None? || a.pricePerKg != cats[i].pricePerKg) {
      AssignedSaveKeepsStored(cats[i], f, a, now);
    }
    PreSaveHistoryAppendOnly(Some(cats[i]), a, now);
  }

  lemma AssignedSaveKeepsStored(c0: Category, f: CategoryFields, a: Category, now: int)
    requires Stored(c0) && a.name != ""
    requires a.slug == (if f.slug.Some? then Lower(f.slug.value) else c0.slug)
    requires a.priceHistory == f.priceHistory.GetOr(c0.priceHistory)
    requires f.slug.None? || a.name != c0.name
    requires f.priceHistory.None? || a.pricePerKg != c0.pricePerKg
    ensures Stored(PreSave(Some(c0), a, now))
  {
    if f.priceHistory.None? {
      PreSaveKeepsStored(Some(c0), a, now);
    } else {
      PreSaveSlugOfName(Some(c0), a, now);
    }
  }

  /**
   * The history an update leaves: the one the body gave, or else the stored
   * one, extended by exactly the new price when the price changed.
   */
  lemma UpdatePriceHistory(cats: seq<Category>, me: User, id: Key, f: CategoryFields, now: int)
    requires UpdateOutcome(cats, me, id, f, now).Ok?
    ensures var (i, c) := UpdateOutcome(cats, me, id, f, now).value;
            var h := f.priceHistory.GetOr(cats[i].priceHistory);
            && (c.pricePerKg != cats[i].pricePerKg ==> c.priceHistory == h + [PricePoint(c.pricePerKg, now)])
            && (c.pricePerKg == cats[i].pricePerKg ==> c.priceHistory == h)
  {
  }

  /**
   * The slug an update leaves: the slug of the new name after a rename,
   * otherwise the body's slug lower-cased, or else the stored one.
   */
  lemma UpdateSlug(cats: seq<Category>, me: User, id: Key, f: CategoryFields, now: int)
    requires UpdateOutcome(cats, me, id, f, now).Ok?
    ensures var (i, c) := UpdateOutcome(cats, me, id, f, now).value;
            && (c.name != cats[i].name ==> c.slug == Slugify(c.name))
            && (c.name == cats[i].name ==> c.slug == if f.slug.Some? then Lower(f.slug.value) else cats[i].slug)
  {
  }

  /** `findByIdAndDelete`: the first category with the id is removed; the others keep their order. */
  function DeleteOutcome(cats: seq<Category>, me: User, id: Key): (r: Result<seq<Category>>)
    ensures me.role != UserModel.Admin ==> r == Err(AuthMiddleware.Authorize(me, [UserModel.Admin]).failure)
    ensures r.Ok? <==> me.role == UserModel.Admin && Database.FindCategory(cats, id).Some?
    ensures r.Err? && me.role == UserModel.Admin ==> r == Err(NotFound("Category not found"))
    ensures r.Ok? ==> var i := Database.FindCategory(cats, id).value;
                      r.value == cats[..i] + cats[i + 1..]
  {
    match AuthMiddleware.Authorize(me, [UserModel.Admin])
    case Err(f) => Err(f)
    case Ok(_) =>
      match Database.FindCategory(cats, id)
      case None => Err(NotFound("Category not found"))
      case Some(i) => Ok(cats[..i] + cats[i + 1..])
  }

  /** With ids unique, a deleted category can no longer be found. */
  lemma DeleteRemoves(cats: seq<Category>, me: User, id: Key)
    requires forall i, j :: 0 <= i < j < |cats| ==> cats[i].key != cats[j].key
    requires DeleteOutcome(cats, me, id).Ok?
    ensures Database.FindCategory(DeleteOutcome(cats, me, id).value, id).None?
    ensures |DeleteOutcome(cats, me, id).value| == |cats| - 1
  {
    var i := Database.FindCategory(cats, id).value;
    var r := DeleteOutcome(cats, me, id).value;
    forall k | 0 <= k < |r| ensures r[k].key != id {
      if k < i {
        assert r[k] == cats[k];
      } else {
        assert r[k] == cats[k + 1];
      }
    }
  }

  /** Replacing one category by a valid one under the same key keeps every category valid. */
  lemma ReplacementKeepsValid(cats: seq<Category>, i: nat, c: Category, nextKey: nat)
    requires i < |cats| && c.key == cats[i].key && SchemaValid(c)
    requires forall j :: 0 <= j < |cats| ==> cats[j].key < nextKey && SchemaValid(cats[j])
    ensures var r := cats[i := c];
            forall j :: 0 <= j < |r| ==> r[j].key < nextKey && SchemaValid(r[j])
  {
  }

  /** Removing one category keeps every other one valid under a key already handed out. */
  lemma RemovalKeepsValid(cats: seq<Category>, i: nat, nextKey: nat)
    requires i < |cats|
    requires forall j :: 0 <= j < |cats| ==> cats[j].key < nextKey && SchemaValid(cats[j])
    ensures var r := cats[..i] + cats[i + 1..];
            forall j :: 0 <= j < |r| ==> r[j].key < nextKey && SchemaValid(r[j])
  {
    var r := cats[..i] + cats[i + 1..];
    forall j | 0 <= j < |r| ensures r[j].key < nextKey && SchemaValid(r[j]) {
      if j < i {
        assert r[j] == cats[j];
      } else {
        assert r[j] == cats[j + 1];
      }
    }
  }

  method Create(db: Database.Db, me: User, f: CategoryFields, now: int) returns (r: Result<Category>)
    requires db.Valid()
    modifies db`categories, db`nextKey
    ensures db.Valid()
    ensures r == CreateOutcome(old(db.nextKey), me, f, now)
    ensures r.Ok? ==> db.categories == old(db.categories) + [r.value]
    ensures r.Err? ==> db.categories == old(db.categories)
  {
    r := CreateOutcome(db.nextKey, me, f, now);
    if r.Ok? {
      Database.InsertCategory(db, r.value);
    }
  }

  method Update(db: Database.Db, me: User, id: Key, f: CategoryFields, now: int) returns (r: Result<Category>)
    requires db.Valid()
    modifies db`categories
    ensures db.Valid()
    ensures UpdateOutcome(old(db.categories), me, id, f, now).Err? ==>
              r == Err(UpdateOutcome(old(db.categories), me, id, f, now).failure) && db.categories == old(db.categories)
    ensures UpdateOutcome(old(db.categories), me, id, f, now).Ok? ==>
              var (i, c) := UpdateOutcome(old(db.categories), me, id, f, now).value;
              r == Ok(c) && db.categories == old(db.categories)[i := c]
  {
    var o := UpdateOutcome(db.categories, me, id, f, now);
    if o.Err? {
      return Err(o.failure);
    }
    var (i, c) := o.value;
    UpdateKeepsStored(db.categories, me, id, f, now);
    ReplacementKeepsValid(db.categories, i, c, db.nextKey);
    Database.WriteCategories(db, db.categories[i := c]);
    r := Ok(c);
  }

  method Delete(db: Database.Db, me: User, id: Key) returns (r: Result<()>)
    requires db.Valid()
    modifies db`categories
    ensures db.Valid()
    ensures r.Ok? <==> DeleteOutcome(old(db.categories), me, id).Ok?
    ensures r.Ok? ==> db.categories == DeleteOutcome(old(db.categories), me, id).value
    ensures r.Err? ==> r.failure == DeleteOutcome(old(db.categories), me, id).failure && db.categories == old(db.categories)
  {
    var o := DeleteOutcome(db.categories, me, id);
    if o.Err? {
      return Err(o.failure);
    }
    var i := Database.FindCategory(db.categories, id).value;
    RemovalKeepsValid(db.categories, i, db.nextKey);
    Database.WriteCategories(db, o.value);
    r := Ok(());
  }
}

=== FILE: database.dfy ===
/**
 * The document store: one sequence per collection, in insertion order, and
 * the counter that hands out fresh object ids.  Lookups return the position of
 * the first document with the id, as `findById` returns the one match.  The
 * query helpers model Mongo's `skip`/`limit` and `sort('-createdAt')`.
 */
module Database {
  import opened Wrappers
  import Seqs
  import BookingModel
  import UserModel
  import CategoryModel
  import NotificationModel
  import AnnouncementModel

  class Db {
    var bookings: seq<BookingModel.Booking>
    var users: seq<UserModel.User>
    var categories: seq<CategoryModel.Category>
    var notifications: seq<NotificationModel.Notification>
    var announcements: seq<AnnouncementModel.Announcement>
    var nextKey: nat

    /** Every stored booking satisfies the booking invariant, and every id in use is below `nextKey`. */
    ghost predicate Valid()
      reads this
    {
      && (forall i :: 0 <= i < |bookings| ==> BookingModel.Invariant(bookings[i]))
      && (forall i :: 0 <= i < |bookings| ==> bookings[i].key < nextKey)
      && (forall i :: 0 <= i < |users| ==> users[i].key < nextKey && UserModel.Stored(users[i]))
      && (forall i :: 0 <= i < |categories| ==> categories[i].key < nextKey && CategoryModel.SchemaValid(categories[i]))
      && (forall i :: 0 <= i < |notifications| ==> notifications[i].key < nextKey)
      && (forall i :: 0 <= i < |announcements| ==> announcements[i].key < nextKey)
    }

    constructor ()
      ensures Valid()
      ensures bookings == [] && users == [] && categories == [] && notifications == [] && announcements == []
    {
      bookings := [];
      users := [];
      categories := [];
      notifications := [];
      announcements := [];
      nextKey := 0;
    }
  }

  function FindBooking(s: seq<BookingModel.Booking>, id: Key): (r: Option<nat>)
    ensures r.Some? ==> r.value < |s| && s[r.value].key == id
    ensures r.None? <==> forall i :: 0 <= i < |s| ==> s[i].key != id
  {
    Seqs.IndexWhere(s, (b: BookingModel.Booking) => b.key == id)
  }

  function FindUser(s: seq<UserModel.User>, id: Key): (r: Option<nat>)
    ensures r.Some? ==> r.value < |s| && s[r.value].key == id
    ensures r.Some? ==> forall i :: 0 <= i < r.value ==> s[i].key != id
    ensures r.None? <==> forall i :: 0 <= i < |s| ==> s[i].key != id
  {
    Seqs.IndexWhere(s, (u: UserModel.User) => u.key == id)
  }

  function FindCategory(s: seq<CategoryModel.Category>, id: Key): (r: Option<nat>)
    ensures r.Some? ==> r.value < |s| && s[r.value].key == id
    ensures r.None? <==> forall i :: 0 <= i < |s| ==> s[i].key != id
  {
    Seqs.IndexWhere(s, (c: CategoryModel.Category) => c.key == id)
  }

  function FindNotification(s: seq<NotificationModel.Notification>, id: Key): (r: Option<nat>)
    ensures r.Some? ==> r.value < |s| && s[r.value].key == id
    ensures r.None? <==> forall i :: 0 <= i < |s| ==> s[i].key != id
  {
    Seqs.IndexWhere(s, (n: NotificationModel.Notification) => n.key == id)
  }

  function FindAnnouncement(s: seq<AnnouncementModel.Announcement>, id: Key): (r: Option<nat>)
    ensures r.Some? ==> r.value < |s| && s[r.value].key == id
    ensures r.None? <==> forall i :: 0 <= i < |s| ==> s[i].key != id
  {
    Seqs.IndexWhere(s, (a: AnnouncementModel.Announcement) => a.key == id)
  }

  /** `findOne({ phone })`: the first user with that phone number. */
  function FindUserByPhone(s: seq<UserModel.User>, phone: string): (r: Option<nat>)
    ensures r.Some? ==> r.value < |s| && s[r.value].phone == phone
    ensures r.Some? ==> forall i :: 0 <= i < r.value ==> s[i].phone != phone
    ensures r.None? <==> forall i :: 0 <= i < |s| ==> s[i].phone != phone
  {
    Seqs.IndexWhere(s, (u: UserModel.User) => u.phone == phone)
  }

  /** The number of documents `skip` passes over for a 1-based page. */
  function SkipCount(page: int, limit: int): int
  {
    (page - 1) * limit
  }

  /**
   * How many documents a page holds: whatever is left after `skip` of `n`,
   * cut to the absolute value of `limit` unless `limit` is 0.
   */
  function PageSize(n: nat, skip: int, limit: int): nat
  {
    if skip < 0 || n <= skip then 0
    else if limit == 0 then n - skip
    else if n - skip <= (if limit < 0 then -limit else limit) then n - skip
    else (if limit < 0 then -limit else limit)
  }

  /** `p` is exactly the page of `ranked` that starts after `skip` documents and holds `PageSize` of them. */
  ghost predicate IsWindow<T>(p: seq<T>, ranked: seq<T>, skip: int, limit: int)
  {
    && skip >= 0
    && |p| == PageSize(|ranked|, skip, limit)
    && forall k :: 0 <= k < |p| ==> skip + k < |ranked| && p[k] == ranked[skip + k]
  }

  /**
   * `.limit(limit).skip((page - 1) * limit)`: a negative skip is refused by the
   * database; a limit of 0 means no limit and a negative limit is read as its
   * absolute value.
   */
  function Paginate<T>(s: seq<T>, page: int, limit: int): (r: Result<seq<T>>)
    ensures r.Err? <==> SkipCount(page, limit) < 0
    ensures r.Err? ==> r.failure.ServerError?
    ensures r.Ok? ==> limit != 0 ==> |r.value| <= if limit < 0 then -limit else limit
    ensures r.Ok? ==> SkipCount(page, limit) + |r.value| <= |s| || r.value == []
    ensures r.Ok? ==> forall i :: 0 <= i < |r.value| ==> r.value[i] == s[SkipCount(page, limit) + i]
    ensures r.Ok? && limit == 0 ==> |r.value| == if SkipCount(page, limit) <= |s| then |s| - SkipCount(page, limit) else 0
    ensures r.Ok? ==> IsWindow(r.value, s, SkipCount(page, limit), limit)
  {
    var skip := SkipCount(page, limit);
    if skip < 0 then Err(ServerError("skip value must be non-negative"))
    else
      var rest := Seqs.Drop(s, skip);
      if limit == 0 then Ok(rest)
      else Ok(Seqs.Take(rest, if limit < 0 then -limit else limit))
  }

  /** A page of a list sorted newest first is drawn from that list and is itself sorted newest first. */
  lemma PageOfSortedDesc<T>(s: seq<T>, page: int, limit: int, key: T -> int)
    requires forall i, j :: 0 <= i < j < |s| ==> key(s[i]) >= key(s[j])
    ensures Paginate(s, page, limit).Ok? ==>
              var p := Paginate(s, page, limit).value;
              && (forall k :: 0 <= k < |p| ==> p[k] in s)
              && (forall k, l :: 0 <= k < l < |p| ==> key(p[k]) >= key(p[l]))
  {
    var r := Paginate(s, page, limit);
    if r.Ok? {
      WindowOfSortedDesc(s, r.value, SkipCount(page, limit), key);
    }
  }

  lemma WindowOfSortedDesc<T>(s: seq<T>, p: seq<T>, skip: int, key: T -> int)
    requires forall i, j :: 0 <= i < j < |s| ==> key(s[i]) >= key(s[j])
    requires skip >= 0 && (skip + |p| <= |s| || p == [])
    requires forall i :: 0 <= i < |p| ==> p[i] == s[skip + i]
    ensures forall k :: 0 <= k < |p| ==> p[k] in s
    ensures forall k, l :: 0 <= k < l < |p| ==> key(p[k]) >= key(p[l])
  {
    forall k | 0 <= k < |p| ensures p[k] in s {
      assert p[k] == s[skip + k];
    }
    forall k, l | 0 <= k < l < |p| ensures key(p[k]) >= key(p[l]) {
      assert p[k] == s[skip + k] && p[l] == s[skip + l];
    }
  }

  /** A handler's write to one booking: the position it replaces and the document saved there. */
  datatype Edit = Edit(index: nat, doc: BookingModel.Booking)

  /** The bookings after a handler's outcome: replaced at the edited position, or untouched on failure. */
  function Apply(bs: seq<BookingModel.Booking>, o: Result<Edit>): (r: seq<BookingModel.Booking>)
    ensures |r| == |bs|
    ensures o.Err? ==> r == bs
    ensures o.Ok? && o.value.index < |bs| ==> r[o.value.index] == o.value.doc
    ensures forall i :: 0 <= i < |bs| && (o.Err? || i != o.value.index) ==> r[i] == bs[i]
  {
    if o.Ok? && o.value.index < |bs| then bs[o.value.index := o.value.doc] else bs
  }

  /** The response a handler sends for its outcome: the saved document, or the failure. */
  function Response(o: Result<Edit>): (r: Result<BookingModel.Booking>)
    ensures r.Ok? <==> o.Ok?
    ensures r.Ok? ==> r.value == o.value.doc
    ensures r.Err? ==> r.failure == o.failure
  {
    match o
    case Ok(e) => Ok(e.doc)
    case Err(f) => Err(f)
  }

  /** An edit that can be written: it replaces an existing booking by one with the same id that keeps the invariant. */
  predicate Committable(bs: seq<BookingModel.Booking>, o: Result<Edit>)
  {
    o.Ok? ==> o.value.index < |bs| && o.value.doc.key == bs[o.value.index].key && BookingModel.Invariant(o.value.doc)
  }

  /** `booking.save()` for an outcome: writes the edited booking back in place. */
  method CommitBooking(db: Db, o: Result<Edit>) returns (r: Result<BookingModel.Booking>)
    requires db.Valid() && Committable(db.bookings, o)
    modifies db`bookings
    ensures db.Valid()
    ensures db.bookings == Apply(old(db.bookings), o)
    ensures r == Response(o)
  {
    if o.Ok? {
      db.bookings := db.bookings[o.value.index := o.value.doc];
    }
    r := Response(o);
  }

  /** Stores a new booking under the next free id. */
  method InsertBooking(db: Db, doc: BookingModel.Booking)
    requires db.Valid() && BookingModel.Invariant(doc) && doc.key == db.nextKey
    modifies db`bookings, db`nextKey
    ensures db.Valid()
    ensures db.bookings == old(db.bookings) + [doc] && db.nextKey == old(db.nextKey) + 1
  {
    db.bookings := db.bookings + [doc];
    db.nextKey := db.nextKey + 1;
  }

  /** Replaces the user collection by one whose ids are all already handed out. */
  method WriteUsers(db: Db, users: seq<UserModel.User>)
    requires db.Valid()
    requires forall j :: 0 <= j < |users| ==> users[j].key < db.nextKey && UserModel.Stored(users[j])
    modifies db`users
    ensures db.Valid() && db.users == users
  {
    db.users := users;
  }

  /** Stores a new user under the next free id. */
  method InsertUser(db: Db, u: UserModel.User)
    requires db.Valid() && UserModel.Stored(u) && u.key == db.nextKey
    modifies db`users, db`nextKey
    ensures db.Valid()
    ensures db.users == old(db.users) + [u] && db.nextKey == old(db.nextKey) + 1
  {
    db.users := db.users + [u];
    db.nextKey := db.nextKey + 1;
  }

  /** `user.save()`: replaces the user with the saved document's id, or appends it when no user has that id. */
  function UpsertUser(users: seq<UserModel.User>, u: UserModel.User): (r: seq<UserModel.User>)
    ensures FindUser(users, u.key).Some? ==> |r| == |users| && r[FindUser(users, u.key).value] == u
    ensures FindUser(users, u.key).None? ==> r == users + [u]
    ensures forall j :: 0 <= j < |users| && FindUser(users, u.key) != Some(j) ==> r[j] == users[j]
  {
    match FindUser(users, u.key)
    case Some(j) => users[j := u]
    case None => users + [u]
  }

  /** Replaces the category collection by one whose ids are all already handed out. */
  method WriteCategories(db: Db, categories: seq<CategoryModel.Category>)
    requires db.Valid()
    requires forall j :: 0 <= j < |categories| ==> categories[j].key < db.nextKey && CategoryModel.SchemaValid(categories[j])
    modifies db`categories
    ensures db.Valid() && db.categories == categories
  {
    db.categories := categories;
  }

  /** Stores a new category under the next free id. */
  method InsertCategory(db: Db, c: CategoryModel.Category)
    requires db.Valid() && CategoryModel.SchemaValid(c) && c.key == db.nextKey
    modifies db`categories, db`nextKey
    ensures db.Valid()
    ensures db.categories == old(db.categories) + [c] && db.nextKey == old(db.nextKey) + 1
  {
    db.categories := db.categories + [c];
    db.nextKey := db.nextKey + 1;
  }

  /** `user.save()` or `User.create`: writes the user over the stored one with its id, or stores it under the next free id. */
  method SaveUser(db: Db, u: UserModel.User)
    requires db.Valid() && UserModel.Stored(u)
    requires FindUser(db.users, u.key).Some? || u.key == db.nextKey
    modifies db`users, db`nextKey
    ensures db.Valid()
    ensures db.users == UpsertUser(old(db.users), u)
    ensures db.nextKey == if FindUser(old(db.users), u.key).Some? then old(db.nextKey) else old(db.nextKey) + 1
  {
    match FindUser(db.users, u.key)
    case Some(j) =>
      var users := db.users[j := u];
      assert forall k :: 0 <= k < |users| ==> users[k].key < db.nextKey && UserModel.Stored(users[k]);
      db.users := users;
    case None =>
      db.users := db.users + [u];
      db.nextKey := db.nextKey + 1;
  }
}

=== FILE: mobile_book_pickup.dfy ===
/**
 * The pickup wizard of mobile/src/screens/BookPickupScreen.js: a four-step
 * screen (items, address, schedule, confirm) holding a cart of selected
 * categories with estimated weights.  The cart transforms and the estimate are
 * pure functions; the screen's state is a class whose methods are the
 * screen's handlers.  The request the screen sends is returned as a value;
 * sending it is not part of this model.
 */
module MobileBookPickup {
  import opened Wrappers
  import opened Text
  import Seqs
  import opened BookingModel
  import CategoryModel
  import UserModel
  import Database
  import BookingRoutes

  /** The pickup windows offered on the schedule step. */
  const TimeSlots: seq<string> := ["8AM-10AM", "10AM-12PM", "12PM-2PM", "2PM-4PM", "4PM-6PM", "6PM-8PM"]

  /** The offered windows are exactly the ones the booking schema accepts, so any offered window is accepted. */
  lemma OfferedSlotsAccepted(s: string)
    requires s in TimeSlots
    ensures TimeSlots == TimeSlotNames
    ensures ParseTimeSlot(s).Some? && SlotName(ParseTimeSlot(s).value) == s
  {
  }

  /** One cart entry: the category id and name, the estimated weight in kg, and the icon shown. */
  datatype CartItem = CartItem(category: Key, categoryName: string, estimatedWeight: int, icon: string)

  predicate Selected(items: seq<CartItem>, k: Key)
  {
    exists it :: it in items && it.category == k
  }

  /** No category is in the cart twice. */
  predicate NoRepeats(items: seq<CartItem>)
  {
    forall i, j :: 0 <= i < j < |items| ==> items[i].category != items[j].category
  }

  predicate OtherThan(it: CartItem, k: Key) { it.category != k }

  lemma {:induction false} DropKeepsNoRepeats(items: seq<CartItem>, k: Key)
    requires NoRepeats(items)
    ensures NoRepeats(Seqs.Filter(items, it => OtherThan(it, k)))
  {
    if items != [] {
      var rest := Seqs.Filter(items[1..], it => OtherThan(it, k));
      DropKeepsNoRepeats(items[1..], k);
      forall x | x in rest ensures x.category != items[0].category {
        var j :| 0 <= j < |items[1..]| && items[1..][j] == x;
        assert items[j + 1] == x;
      }
    }
  }

  /** The entry a tap on an unselected category adds: that category at 5 kg. */
  function NewEntry(cat: CategoryModel.Category): CartItem
  {
    CartItem(cat.key, cat.name, 5, cat.icon)
  }

  /** `toggleItem`: a tap removes the category's entry when it is in the cart, and otherwise appends it at 5 kg. */
  function Toggled(items: seq<CartItem>, cat: CategoryModel.Category): (r: seq<CartItem>)
    ensures Selected(r, cat.key) <==> !Selected(items, cat.key)
    ensures forall k :: k != cat.key ==> (Selected(r, k) <==> Selected(items, k))
    ensures !Selected(items, cat.key) ==> r == items + [NewEntry(cat)]
    ensures Selected(items, cat.key) ==> forall it :: it in r <==> it in items && it.category != cat.key
    ensures NoRepeats(items) ==> NoRepeats(r)
  {
    if Selected(items, cat.key) then
      var r := Seqs.Filter(items, it => OtherThan(it, cat.key));
      assert NoRepeats(items) ==> NoRepeats(r) by {
        if NoRepeats(items) {
          DropKeepsNoRepeats(items, cat.key);
        }
      }
      r
    else
      var r := items + [NewEntry(cat)];
      assert r[|items|] == NewEntry(cat) && r[|items|] in r;
      assert forall it :: it in r <==> it in items || it == NewEntry(cat);
      r
  }

  /** Adding a category and tapping it again gives back the cart it started from. */
  lemma ToggleTwiceRestores(items: seq<CartItem>, cat: CategoryModel.Category)
    requires !Selected(items, cat.key)
    ensures Toggled(Toggled(items, cat), cat) == items
  {
    var p := (it: CartItem) => OtherThan(it, cat.key);
    Seqs.FilterAppend(items, [NewEntry(cat)], p);
    forall i | 0 <= i < |items| ensures p(items[i]) {
      assert items[i] in items;
    }
    Seqs.FilterAll(items, p);
  }

  /** Removing a category and adding it back puts it last at 5 kg: the weight entered for it is lost. */
  lemma ToggleTwiceResetsWeight(items: seq<CartItem>, cat: CategoryModel.Category)
    requires Selected(items, cat.key)
    ensures var r := Toggled(Toggled(items, cat), cat);
            |r| >= 1 && r[|r| - 1] == NewEntry(cat) && r[|r| - 1].estimatedWeight == 5
  {
  }

  // ---------------------------------------------------------------- parseInt

  predicate IsHexDigit(c: char) { IsDigit(c) || 'a' <= c <= 'f' || 'A' <= c <= 'F' }

  function HexValue(c: char): (d: nat)
    requires IsHexDigit(c)
    ensures d < 16
  {
    if IsDigit(c) then DigitValue(c) else if 'a' <= c <= 'f' then c as int - 'a' as int + 10 else c as int - 'A' as int + 10
  }

  /** The longest prefix whose characters all satisfy `ok`. */
  function LeadingRun(s: string, ok: char -> bool): (r: string)
    ensures |r| <= |s| && r == s[..|r|]
    ensures forall i :: 0 <= i < |r| ==> ok(r[i])
    ensures |r| < |s| ==> !ok(s[|r|])
  {
    if s == [] || !ok(s[0]) then [] else [s[0]] + LeadingRun(s[1..], ok)
  }

  lemma {:induction false} LeadingRunAppend(a: string, b: string, ok: char -> bool)
    requires forall i :: 0 <= i < |a| ==> ok(a[i])
    requires b == [] || !ok(b[0])
    ensures LeadingRun(a + b, ok) == a
  {
    if a != [] {
      assert (a + b)[1..] == a[1..] + b;
      LeadingRunAppend(a[1..], b, ok);
    }
  }

  function ParseHex(s: string): nat
    requires forall i :: 0 <= i < |s| ==> IsHexDigit(s[i])
  {
    if s == [] then 0 else ParseHex(s[..|s| - 1]) * 16 + HexValue(s[|s| - 1])
  }

  /** The magnitude part of `parseInt` after the sign: hexadecimal after a `0x` prefix, decimal otherwise. */
  function ParseMagnitude(s: string): Option<nat>
  {
    if |s| >= 2 && s[0] == '0' && (s[1] == 'x' || s[1] == 'X') then
      var h := LeadingRun(s[2..], IsHexDigit);
      if h == [] then None else Some(ParseHex(h))
    else
      var d := LeadingRun(s, IsDigit);
      if d == [] then None else Some(ParseDigits(d))
  }

  /**
   * `parseInt(text) || 0`: leading white space is skipped, a sign is read, and
   * the longest run of digits after it is the value; no digits is `NaN`,
   * which `|| 0` turns into 0.
   */
  function ParseIntOrZero(text: string): (n: int)
    ensures TrimStart(text) == [] ==> n == 0
  {
    var t := TrimStart(text);
    if t == [] then 0
    else
      var negative := t[0] == '-';
      var rest := if t[0] == '-' || t[0] == '+' then t[1..] else t;
      match ParseMagnitude(rest)
      case None => 0
      case Some(m) => var v: int := m; if negative then -v else v
  }

  /** Text starting with a digit has no white space or sign to skip. */
  lemma ParseIntUnsigned(s: string)
    requires s != [] && IsDigit(s[0])
    ensures ParseIntOrZero(s) == ParseMagnitude(s).GetOr(0)
  {
    assert !IsJsSpace(s[0]);
    assert TrimStart(s) == s;
  }

  lemma DecimalMagnitude(d: string, suffix: string)
    requires d != [] && forall i :: 0 <= i < |d| ==> IsDigit(d[i])
    requires d[0] == '0' ==> d == "0"
    requires suffix == [] || (!IsDigit(suffix[0]) && suffix[0] != 'x' && suffix[0] != 'X')
    ensures ParseMagnitude(d + suffix) == Some(ParseDigits(d))
  {
    var s := d + suffix;
    LeadingRunAppend(d, suffix, IsDigit);
    if |s| >= 2 && s[0] == '0' {
      assert s[1] == suffix[0];
    }
  }

  /**
   * A typed whole number reads back as itself, whatever text follows it that
   * does not continue it (a digit, or an `x` making `0x` a hexadecimal prefix).
   */
  lemma ParseIntOfNumber(n: nat, suffix: string)
    requires suffix == [] || (!IsDigit(suffix[0]) && suffix[0] != 'x' && suffix[0] != 'X')
    ensures ParseIntOrZero(NatToString(n) + suffix) == n
  {
    var d := NatToString(n);
    NoLeadingZero(n);
    DecimalMagnitude(d, suffix);
    ParseNatToString(n);
    assert (d + suffix)[0] == d[0];
    ParseIntUnsigned(d + suffix);
  }

  /** Only 0 is written with a leading zero. */
  lemma {:induction false} NoLeadingZero(n: nat)
    ensures NatToString(n)[0] == '0' ==> n == 0 && NatToString(n) == "0"
  {
    if n >= 10 {
      NoLeadingZero(n / 10);
      assert NatToString(n)[0] == NatToString(n / 10)[0];
    }
  }

  /** Text with no digits after the sign sets the weight to 0. */
  lemma ParseIntOfNonNumber(text: string)
    requires var t := TrimStart(text); t == [] || (!IsDigit(t[0]) && t[0] != '-' && t[0] != '+')
    ensures ParseIntOrZero(text) == 0
  {
  }

  /** `updateWeight`: the category's entry gets the new weight; every other entry is kept as it was. */
  function WithWeight(items: seq<CartItem>, k: Key, w: int): (r: seq<CartItem>)
    ensures |r| == |items|
    ensures forall i :: 0 <= i < |items| ==> r[i].category == items[i].category
    ensures forall i :: 0 <= i < |items| && items[i].category == k ==> r[i] == items[i].(estimatedWeight := w)
    ensures forall i :: 0 <= i < |items| && items[i].category != k ==> r[i] == items[i]
  {
    if items == [] then []
    else [if items[0].category == k then items[0].(estimatedWeight := w) else items[0]] + WithWeight(items[1..], k, w)
  }

  /** Editing a weight neither adds nor removes a category. */
  lemma WithWeightKeepsSelection(items: seq<CartItem>, k: Key, w: int)
    ensures forall c :: Selected(WithWeight(items, k, w), c) <==> Selected(items, c)
    ensures NoRepeats(items) ==> NoRepeats(WithWeight(items, k, w))
  {
    var r := WithWeight(items, k, w);
    forall c ensures Selected(r, c) <==> Selected(items, c) {
      if Selected(r, c) {
        var it :| it in r && it.category == c;
        var i :| 0 <= i < |r| && r[i] == it;
        assert items[i] in items;
      }
      if Selected(items, c) {
        var it :| it in items && it.category == c;
        var i :| 0 <= i < |items| && items[i] == it;
        assert r[i] in r;
      }
    }
  }

  // ---------------------------------------------------------------- estimate

  /** What one entry adds to the estimate: price × weight, or 0 when its category is not among the loaded ones. */
  function LineEstimate(it: CartItem, cats: seq<CategoryModel.Category>): (v: int)
    ensures Database.FindCategory(cats, it.category).None? ==> v == 0
  {
    match Database.FindCategory(cats, it.category)
    case None => 0
    case Some(j) => cats[j].pricePerKg * it.estimatedWeight
  }

  /** `getEstimatedTotal`: the sum of the entries' estimates. */
  function EstimatedTotal(items: seq<CartItem>, cats: seq<CategoryModel.Category>): int
  {
    if items == [] then 0 else LineEstimate(items[0], cats) + EstimatedTotal(items[1..], cats)
  }

  /** Before the categories load, or for a cart of unknown categories, the estimate is 0. */
  lemma {:induction false} EstimatedTotalNoneLoaded(items: seq<CartItem>, cats: seq<CategoryModel.Category>)
    requires forall i :: 0 <= i < |items| ==> Database.FindCategory(cats, items[i].category).None?
    ensures EstimatedTotal(items, cats) == 0
  {
    if items != [] {
      assert Database.FindCategory(cats, items[0].category).None?;
      EstimatedTotalNoneLoaded(items[1..], cats);
    }
  }

  lemma {:induction false} EstimatedTotalSnoc(items: seq<CartItem>, cats: seq<CategoryModel.Category>)
    requires items != []
    ensures EstimatedTotal(items, cats) == EstimatedTotal(items[..|items| - 1], cats) + LineEstimate(items[|items| - 1], cats)
  {
    if |items| > 1 {
      assert items[1..][..|items[1..]| - 1] == items[..|items| - 1][1..];
      EstimatedTotalSnoc(items[1..], cats);
    }
  }

  /** The item requests of the booking: each entry's category and estimated weight, in cart order. */
  function Requests(items: seq<CartItem>): (r: seq<BookingRoutes.ItemRequest>)
    ensures |r| == |items|
    ensures forall i :: 0 <= i < |items| ==> r[i] == BookingRoutes.ItemRequest(items[i].category, items[i].estimatedWeight)
  {
    if items == [] then [] else [BookingRoutes.ItemRequest(items[0].category, items[0].estimatedWeight)] + Requests(items[1..])
  }

  /**
   * The estimate the screen shows is the estimate the server stores for the
   * request, when both see the same categories: unknown categories count 0 on
   * the screen and are dropped by the server.
   */
  lemma {:induction false} EstimateMatchesServer(items: seq<CartItem>, cats: seq<CategoryModel.Category>)
    ensures EstimatedTotal(items, cats) == Seqs.Sum(BookingRoutes.PricedItems(Requests(items), cats), ItemAmount)
  {
    var reqs := Requests(items);
    if items != [] {
      var n := |items| - 1;
      EstimatedTotalSnoc(items, cats);
      assert reqs[..n] == Requests(items[..n]);
      EstimateMatchesServer(items[..n], cats);
      var front := BookingRoutes.PricedItems(reqs[..n], cats);
      var last := BookingRoutes.Priced(reqs[n], cats);
      assert BookingRoutes.PricedItems(reqs, cats) == front + last;
      Seqs.SumAppend(front, last, ItemAmount);
      if last != [] {
        assert last == [last[0]] && last[1..] == [];
      }
    }
  }

  // ---------------------------------------------------------------- booking request

  /** The create-booking request the screen sends. */
  datatype BookingPayload = BookingPayload(
    items: seq<BookingRoutes.ItemRequest>,
    address: BookingAddress,
    scheduledDate: string,
    timeSlot: string,
    notes: string,
    paymentMethod: string)

  /**
   * `handleBook`: the first missing piece, checked as address, date, time slot
   * then items, is reported; otherwise the request carries only category and
   * weight per item and the city Nizampet.
   */
  function BookRequest(items: seq<CartItem>, address: string, landmark: string, date: string, timeSlot: string,
                       notes: string, paymentMethod: string): (r: Result<BookingPayload>)
    ensures address == "" ==> r == Err(BadRequest("Please enter an address"))
    ensures address != "" && date == "" ==> r == Err(BadRequest("Please select a date"))
    ensures address != "" && date != "" && timeSlot == "" ==> r == Err(BadRequest("Please select a time slot"))
    ensures address != "" && date != "" && timeSlot != "" && items == [] ==> r == Err(BadRequest("Please select at least one item"))
    ensures r.Ok? <==> address != "" && date != "" && timeSlot != "" && items != []
    ensures r.Ok? ==> r.value.items == Requests(items) && |r.value.items| == |items|
    ensures r.Ok? ==> r.value.address == BookingAddress(address, landmark, "Nizampet", "")
    ensures r.Ok? ==> r.value.paymentMethod == paymentMethod && r.value.timeSlot == timeSlot && r.value.scheduledDate == date
    ensures r.Ok? ==> r.value.notes == notes
  {
    if address == "" then Err(BadRequest("Please enter an address"))
    else if date == "" then Err(BadRequest("Please select a date"))
    else if timeSlot == "" then Err(BadRequest("Please select a time slot"))
    else if items == [] then Err(BadRequest("Please select at least one item"))
    else Ok(BookingPayload(Requests(items), BookingAddress(address, landmark, "Nizampet", ""), date, timeSlot, notes, paymentMethod))
  }

  /** The address the screen starts with: the first default entry of the address book, else its first entry. */
  function Prefill(saved: seq<UserModel.SavedAddress>): (r: Option<UserModel.SavedAddress>)
    ensures r.None? <==> saved == []
    ensures r.Some? ==> r.value in saved
    ensures (exists a :: a in saved && a.isDefault) ==> r.Some? && r.value.isDefault
    ensures saved != [] && (forall a :: a in saved ==> !a.isDefault) ==> r == Some(saved[0])
    ensures r.Some? && r.value.isDefault ==>
              exists i :: 0 <= i < |saved| && saved[i] == r.value && forall j :: 0 <= j < i ==> !saved[j].isDefault
  {
    if saved == [] then None
    else match Seqs.IndexWhere(saved, (a: UserModel.SavedAddress) => a.isDefault)
      case Some(i) => Some(saved[i])
      case None => Some(saved[0])
  }

  /** The wizard's state. */
  class Screen {
    var step: int
    var categories: seq<CategoryModel.Category>
    var selected: seq<CartItem>
    var address: string
    var landmark: string
    var date: string
    var timeSlot: string
    var notes: string
    var paymentMethod: string

    /** The step is one of the four, and no category is in the cart twice. */
    ghost predicate Valid()
      reads this
    {
      1 <= step <= 4 && NoRepeats(selected)
    }

    /** The screen opens on step 1 with an empty cart, the prefilled address, tomorrow's date and cash. */
    constructor (cats: seq<CategoryModel.Category>, saved: seq<UserModel.SavedAddress>, tomorrow: string)
      ensures Valid()
      ensures step == 1 && selected == [] && categories == cats
      ensures date == tomorrow && timeSlot == "" && notes == "" && paymentMethod == "cash"
      ensures address == (if saved == [] then "" else Prefill(saved).value.fullAddress)
      ensures landmark == (if saved == [] then "" else Prefill(saved).value.landmark)
    {
      step := 1;
      categories := cats;
      selected := [];
      var pre := Prefill(saved);
      address := if pre.Some? then pre.value.fullAddress else "";
      landmark := if pre.Some? then pre.value.landmark else "";
      date := tomorrow;
      timeSlot := "";
      notes := "";
      paymentMethod := "cash";
    }

    method Toggle(cat: CategoryModel.Category)
      requires Valid()
      modifies this`selected
      ensures Valid() && selected == Toggled(old(selected), cat)
    {
      selected := Toggled(selected, cat);
    }

    method UpdateWeight(k: Key, text: string)
      requires Valid()
      modifies this`selected
      ensures Valid() && selected == WithWeight(old(selected), k, ParseIntOrZero(text))
    {
      WithWeightKeepsSelection(selected, k, ParseIntOrZero(text));
      selected := WithWeight(selected, k, ParseIntOrZero(text));
    }

    /** Continue: one step forward below step 4; disabled on step 1 while the cart is empty. */
    method Continue()
      requires Valid()
      modifies this`step
      ensures Valid()
      ensures step == if old(step) < 4 && !(old(step) == 1 && selected == []) then old(step) + 1 else old(step)
    {
      if step < 4 && !(step == 1 && selected == []) {
        step := step + 1;
      }
    }

    /** Back: one step back above step 1; on step 1 the screen is left instead. */
    method Back() returns (leave: bool)
      requires Valid()
      modifies this`step
      ensures Valid()
      ensures leave <==> old(step) == 1
      ensures step == if old(step) > 1 then old(step) - 1 else old(step)
    {
      leave := step == 1;
      if step > 1 {
        step := step - 1;
      }
    }

    /** The confirm button: the request to send, or the alert shown instead. */
    method Book() returns (r: Result<BookingPayload>)
      requires Valid()
      ensures r == BookRequest(selected, address, landmark, date, timeSlot, notes, paymentMethod)
      ensures r.Ok? ==> r.value.paymentMethod == paymentMethod
    {
      r := BookRequest(selected, address, landmark, date, timeSlot, notes, paymentMethod);
    }
  }
}

=== FILE: mobile_login.dfy ===
/**
 * The sign-in screen of mobile/src/screens/LoginScreen.js: the phone is sent
 * with +91 in front unless it already starts with +, and the screen switches
 * between the phone step and the code step.  The server's replies are
 * parameters of the handlers; storing the session after a successful sign-in
 * is not part of this model.
 */
module MobileLogin {
  import opened Wrappers
  import opened Text
  import AuthRoutes
  import WebLogin

  /** The number sent to the server: the input when it starts with +, else +91 and the input. */
  function FullPhone(phone: string): (r: string)
    ensures StartsWith(r, "+")
    ensures StartsWith(phone, "+") ==> r == phone
    ensures !StartsWith(phone, "+") ==> r == "+91" + phone && r[3..] == phone
  {
    if StartsWith(phone, "+") then phone else "+91" + phone
  }

  /** Prefixing a prefixed number changes nothing. */
  lemma FullPhoneIdempotent(phone: string)
    ensures FullPhone(FullPhone(phone)) == FullPhone(phone)
  {
  }

  /** For a plain ten-digit number the screen and the web page send the same phone. */
  lemma ClientsAgreeOnTenDigits(d: string)
    requires |d| == 10 && forall i :: 0 <= i < |d| ==> IsDigit(d[i])
    ensures FullPhone(d) == WebLogin.FormatPhone(d) == "+91" + d
  {
    DigitsOfDigits(d);
    assert d[0] != '+';
  }

  /**
   * For a twelve-digit number with the country code typed in, the two clients
   * differ: the web page sends +91 and the ten digits, the screen adds a
   * second 91.
   */
  lemma ClientsDisagreeOnCountryCode(d: string)
    requires |d| == 12 && d[..2] == "91" && forall i :: 0 <= i < |d| ==> IsDigit(d[i])
    ensures WebLogin.FormatPhone(d) == "+" + d
    ensures FullPhone(d) == "+91" + d && FullPhone(d) != WebLogin.FormatPhone(d)
  {
    DigitsOfDigits(d);
    assert d[0] != '+';
    assert |FullPhone(d)| == 15;
  }

  /** The send guard: fewer than ten characters is refused. */
  function SendRefusal(phone: string): (r: Option<string>)
    ensures r.Some? <==> |phone| < 10
    ensures r.Some? ==> r.value == "Please enter a valid phone number"
  {
    if |phone| < 10 then Some("Please enter a valid phone number") else None
  }

  /** The verify guard: fewer than six characters is refused. */
  function VerifyRefusal(otp: string): (r: Option<string>)
    ensures r.Some? <==> |otp| < 6
    ensures r.Some? ==> r.value == "Please enter a valid 6-digit OTP"
  {
    if |otp| < 6 then Some("Please enter a valid 6-digit OTP") else None
  }

  /** A code the server issues, and so a prefilled one, passes the verify guard. */
  lemma IssuedCodePasses(draw: nat)
    requires draw < 900000
    ensures VerifyRefusal(AuthRoutes.GenerateOtp(draw)).None?
  {
  }

  datatype Step = PhoneStep | OtpStep

  class Screen {
    var phone: string
    var otp: string
    var step: Step

    constructor ()
      ensures phone == "" && otp == "" && step == PhoneStep
    {
      phone := "";
      otp := "";
      step := PhoneStep;
    }

    /**
     * `sendOTP`, with `reply` the server's answer: a short phone is refused
     * before anything is sent; on success the screen moves to the code step,
     * with the code filled in when the server echoed it.
     */
    method SendOtp(reply: Result<Option<string>>) returns (sent: Option<string>)
      modifies this`otp, this`step
      ensures SendRefusal(phone).Some? ==> sent.None? && otp == old(otp) && step == old(step)
      ensures SendRefusal(phone).None? ==> sent == Some(FullPhone(phone))
      ensures SendRefusal(phone).None? && reply.Ok? ==>
                step == OtpStep && otp == (if reply.value.Some? && reply.value.value != "" then reply.value.value else old(otp))
      ensures SendRefusal(phone).None? && reply.Err? ==> otp == old(otp) && step == old(step)
    {
      if SendRefusal(phone).Some? {
        return None;
      }
      sent := Some(FullPhone(phone));
      if reply.Ok? {
        if reply.value.Some? && reply.value.value != "" {
          otp := reply.value.value;
        }
        step := OtpStep;
      }
    }

    /** `verifyOTP`: a short code sends nothing; otherwise the prefixed phone and the code are sent. */
    method VerifyOtp() returns (sent: Option<(string, string)>)
      ensures VerifyRefusal(otp).Some? <==> sent.None?
      ensures sent.Some? ==> sent.value == (FullPhone(phone), otp) && |sent.value.1| >= 6
    {
      if VerifyRefusal(otp).Some? {
        return None;
      }
      sent := Some((FullPhone(phone), otp));
    }

    /** 'Change phone number': back to the phone step; the typed code is kept. */
    method ChangePhone()
      modifies this`step
      ensures step == PhoneStep
    {
      step := PhoneStep;
    }
  }

  /** In development the echoed code is filled in, so verifying right after sending sends exactly the issued code. */
  method SendThenVerify(s: Screen, draw: nat) returns (sent: Option<(string, string)>)
    requires draw < 900000 && |s.phone| >= 10
    modifies s
    ensures s.step == OtpStep
    ensures sent == Some((FullPhone(s.phone), AuthRoutes.GenerateOtp(draw)))
  {
    var _ := s.SendOtp(Ok(Some(AuthRoutes.GenerateOtp(draw))));
    sent := s.VerifyOtp();
  }
}

=== FILE: notification_model.dfy ===
/** The notification document (backend/models/Notification.js). */
module NotificationModel {
  import opened Wrappers

  datatype NotificationType =
    | BookingConfirmed | BookingAssigned | OutForPickupNotice | PickupCompleted
    | PaymentReceived | Promotional | General

  function TypeName(t: NotificationType): string
  {
    match t
    case BookingConfirmed => "booking_confirmed"
    case BookingAssigned => "booking_assigned"
    case OutForPickupNotice => "out_for_pickup"
    case PickupCompleted => "pickup_completed"
    case PaymentReceived => "payment_received"
    case Promotional => "promotional"
    case General => "general"
  }

  /** The schema's enum check on `type`: exactly the seven tags are accepted. */
  function ParseType(name: string): (r: Option<NotificationType>)
    ensures r.Some? ==> TypeName(r.value) == name
    ensures forall t :: TypeName(t) == name ==> r == Some(t)
  {
    if name == "booking_confirmed" then Some(BookingConfirmed)
    else if name == "booking_assigned" then Some(BookingAssigned)
    else if name == "out_for_pickup" then Some(OutForPickupNotice)
    else if name == "pickup_completed" then Some(PickupCompleted)
    else if name == "payment_received" then Some(PaymentReceived)
    else if name == "promotional" then Some(Promotional)
    else if name == "general" then Some(General)
    else None
  }

  /** A notification; `user` is absent for a broadcast.  The free-form `data` payload is not part of this model. */
  datatype Notification = Notification(
    key: Key,
    user: Option<Key>,
    title: string,
    body: string,
    kind: NotificationType,
    isRead: bool,
    isBroadcast: bool,
    createdAt: int)

  /** A fresh document with the schema's defaults: type 'general', unread, not a broadcast. */
  function NewNotification(key: Key, user: Option<Key>, title: string, body: string, createdAt: int): (n: Notification)
    ensures n.kind == General && !n.isRead && !n.isBroadcast
    ensures n.key == key && n.user == user && n.title == title && n.body == body
  {
    Notification(key, user, title, body, General, false, false, createdAt)
  }

  /** The validators: title and body are required, so neither may be empty. */
  predicate SchemaValid(n: Notification)
  {
    n.title != "" && n.body != ""
  }

  /** The sort key of `sort('-createdAt')`. */
  function CreatedAt(n: Notification): int { n.createdAt }
}

=== FILE: notifications.dfy ===
/**
 * The notification handlers of backend/routes/notifications.js: a user's
 * inbox and unread count, marking one or all as read, and the admin's
 * promotional send to one user, to every active user of a role, or to all.
 */
module Notifications {
  import opened Wrappers
  import Seqs
  import opened NotificationModel
  import UserModel
  import Database
  import AuthMiddleware

  /** The inbox query: addressed to the user, or a broadcast. */
  predicate Visible(n: Notification, me: Key) { n.user == Some(me) || n.isBroadcast }

  /** The unread-count query: addressed to the user and unread; a broadcast without an addressee never matches. */
  predicate OwnUnread(n: Notification, me: Key) { n.user == Some(me) && !n.isRead }

  /** GET /api/notifications/my, the list: at most 50 visible notifications, newest first. */
  function Inbox(ns: seq<Notification>, me: Key): (r: seq<Notification>)
    ensures |r| <= 50
    ensures forall n :: n in r ==> n in ns && Visible(n, me)
    ensures forall i, j :: 0 <= i < j < |r| ==> r[i].createdAt >= r[j].createdAt
    ensures Seqs.Count(ns, n => Visible(n, me)) <= 50 ==> forall n :: n in ns && Visible(n, me) ==> n in r
    ensures |r| == if 50 <= Seqs.Count(ns, n => Visible(n, me)) then 50 else Seqs.Count(ns, n => Visible(n, me))
    ensures forall n :: n in ns && Visible(n, me) && n !in r ==> |r| == 50 && n.createdAt <= r[49].createdAt
  {
    Seqs.NewestFirstKeepsNewest(ns, n => Visible(n, me), CreatedAt, 50);
    Seqs.NewestFirstComplete(ns, n => Visible(n, me), CreatedAt, 50);
    Seqs.NewestFirst(ns, n => Visible(n, me), CreatedAt, 50)
  }

  /** GET /api/notifications/my, the badge: the number of the user's own unread notifications. */
  function UnreadCount(ns: seq<Notification>, me: Key): (c: nat)
    ensures c <= |ns|
    ensures c == 0 <==> forall i :: 0 <= i < |ns| ==> !OwnUnread(ns[i], me)
  {
    var own := Seqs.Filter(ns, n => OwnUnread(n, me));
    assert own == [] <==> forall i :: 0 <= i < |ns| ==> !OwnUnread(ns[i], me) by {
      if own == [] {
        forall i | 0 <= i < |ns| ensures !OwnUnread(ns[i], me) {
          assert ns[i] in ns;
        }
      } else {
        assert own[0] in own;
      }
    }
    |own|
  }

  /** Each notification stored adds one to the badge when it is the user's own and unread, and nothing otherwise. */
  lemma UnreadCountAppend(ns: seq<Notification>, n: Notification, me: Key)
    ensures UnreadCount(ns + [n], me) == UnreadCount(ns, me) + (if OwnUnread(n, me) then 1 else 0)
    ensures UnreadCount([], me) == 0
  {
    Seqs.FilterAppend(ns, [n], m => OwnUnread(m, me));
  }

  /** A broadcast does not raise anyone's unread count. */
  lemma BroadcastNotCounted(ns: seq<Notification>, b: Notification, me: Key)
    requires b.user.None?
    ensures UnreadCount(ns + [b], me) == UnreadCount(ns, me)
  {
    Seqs.FilterAppend(ns, [b], n => OwnUnread(n, me));
  }

  /** `findByIdAndUpdate(id, { isRead: true })`: that notification is read, every other one unchanged; an unknown id changes nothing. */
  function MarkedRead(ns: seq<Notification>, id: Key): (r: seq<Notification>)
    ensures |r| == |ns|
    ensures Database.FindNotification(ns, id).Some? ==>
              r[Database.FindNotification(ns, id).value] == ns[Database.FindNotification(ns, id).value].(isRead := true)
    ensures forall i :: 0 <= i < |ns| && Database.FindNotification(ns, id) != Some(i) ==> r[i] == ns[i]
    ensures Database.FindNotification(ns, id).None? ==> r == ns
  {
    match Database.FindNotification(ns, id)
    case None => ns
    case Some(i) => ns[i := ns[i].(isRead := true)]
  }

  /** `updateMany({ user, isRead: false }, { isRead: true })`. */
  function AllRead(ns: seq<Notification>, me: Key): (r: seq<Notification>)
    ensures |r| == |ns|
    ensures forall i :: 0 <= i < |ns| ==> r[i] == if OwnUnread(ns[i], me) then ns[i].(isRead := true) else ns[i]
  {
    if ns == [] then []
    else [if OwnUnread(ns[0], me) then ns[0].(isRead := true) else ns[0]] + AllRead(ns[1..], me)
  }

  /** After read-all the caller has nothing unread, and nobody else's notifications changed. */
  lemma AllReadClearsOnlyCaller(ns: seq<Notification>, me: Key, other: Key)
    requires other != me
    ensures UnreadCount(AllRead(ns, me), me) == 0
    ensures UnreadCount(AllRead(ns, me), other) == UnreadCount(ns, other)
    ensures forall i :: 0 <= i < |ns| && ns[i].user != Some(me) ==> AllRead(ns, me)[i] == ns[i]
  {
    var r := AllRead(ns, me);
    assert forall i :: 0 <= i < |r| ==> !OwnUnread(r[i], me);
    assert Seqs.Filter(r, n => OwnUnread(n, other)) == Seqs.Filter(ns, n => OwnUnread(n, other)) by {
      FilterOtherUnread(ns, me, other);
    }
  }

  lemma {:induction false} FilterOtherUnread(ns: seq<Notification>, me: Key, other: Key)
    requires other != me
    ensures Seqs.Filter(AllRead(ns, me), n => OwnUnread(n, other)) == Seqs.Filter(ns, n => OwnUnread(n, other))
  {
    if ns != [] {
      var r := AllRead(ns, me);
      assert r[1..] == AllRead(ns[1..], me);
      assert OwnUnread(r[0], other) == OwnUnread(ns[0], other);
      FilterOtherUnread(ns[1..], me, other);
    }
  }

  /** PUT /api/notifications/:id/read; any signed-in user may mark any notification. */
  method MarkRead(db: Database.Db, id: Key)
    requires db.Valid()
    modifies db`notifications
    ensures db.Valid()
    ensures db.notifications == MarkedRead(old(db.notifications), id)
  {
    db.notifications := MarkedRead(db.notifications, id);
  }

  /** PUT /api/notifications/read-all. */
  method ReadAll(db: Database.Db, me: Key)
    requires db.Valid()
    modifies db`notifications
    ensures db.Valid()
    ensures db.notifications == AllRead(old(db.notifications), me)
  {
    db.notifications := AllRead(db.notifications, me);
  }

  /** The body of POST /api/notifications/send; an empty `targetRole` and an absent `userId` are not given. */
  datatype SendRequest = SendRequest(title: string, body: string, targetRole: string, userId: Option<Key>)

  /** A recipient of a broadcast to `role`: an active account of that role; a name of no role reaches no one. */
  predicate Addressee(u: UserModel.User, role: string)
    ensures Addressee(u, role) ==> u.isActive && UserModel.ParseRole(role) == Some(u.role)
  {
    UserModel.RoleName(u.role) == role && u.isActive
  }

  /** One promotional notification per recipient, with consecutive fresh ids from `nextKey`. */
  function Promotions(recipients: seq<Key>, nextKey: Key, title: string, body: string, now: int): (r: seq<Notification>)
    ensures |r| == |recipients|
    ensures forall i :: 0 <= i < |r| ==>
              r[i] == NewNotification(nextKey + i, Some(recipients[i]), title, body, now).(kind := Promotional)
  {
    if recipients == [] then []
    else [NewNotification(nextKey, Some(recipients[0]), title, body, now).(kind := Promotional)]
         + Promotions(recipients[1..], nextKey + 1, title, body, now)
  }

  function Keys(users: seq<UserModel.User>): (r: seq<Key>)
    ensures |r| == |users| && forall i :: 0 <= i < |users| ==> r[i] == users[i].key
  {
    if users == [] then [] else [users[0].key] + Keys(users[1..])
  }

  /**
   * The notifications one send request makes: one for the named user, one per
   * active user of the named role, or one broadcast.
   */
  function Batch(users: seq<UserModel.User>, nextKey: Key, req: SendRequest, now: int): (b: seq<Notification>)
    ensures forall i :: 0 <= i < |b| ==>
              && b[i].key == nextKey + i && b[i].kind == Promotional && !b[i].isRead
              && b[i].title == req.title && b[i].body == req.body
    ensures req.userId.Some? ==> |b| == 1 && b[0].user == req.userId && !b[0].isBroadcast
    ensures req.userId.None? && req.targetRole != "" ==>
              |b| == Seqs.Count(users, u => Addressee(u, req.targetRole))
              && (forall i :: 0 <= i < |b| ==>
                    (!b[i].isBroadcast && b[i].user.Some?
                     && exists u :: u in users && u.key == b[i].user.value && Addressee(u, req.targetRole)))
    ensures req.userId.None? && req.targetRole == "" ==> |b| == 1 && b[0].isBroadcast && b[0].user.None?
  {
    if req.userId.Some? then Promotions([req.userId.value], nextKey, req.title, req.body, now)
    else if req.targetRole != "" then
      Promotions(Keys(Seqs.Filter(users, u => Addressee(u, req.targetRole))), nextKey, req.title, req.body, now)
    else [NewNotification(nextKey, None, req.title, req.body, now).(kind := Promotional, isBroadcast := true)]
  }

  /**
   * POST /api/notifications/send (admins only): to `userId` when given (the id
   * is not checked), else to every active user whose role is `targetRole`, else
   * one broadcast.  A batch with an empty title or body fails validation and
   * nothing is written; an empty batch always succeeds.
   */
  function SendOutcome(users: seq<UserModel.User>, nextKey: Key, me: UserModel.User, req: SendRequest, now: int): (r: Result<seq<Notification>>)
    ensures me.role != UserModel.Admin ==> r == Err(AuthMiddleware.Authorize(me, [UserModel.Admin]).failure)
    ensures r.Ok? ==> r.value == Batch(users, nextKey, req, now)
    ensures r.Ok? ==> forall i :: 0 <= i < |r.value| ==>
              r.value[i].key == nextKey + i && r.value[i].kind == Promotional && !r.value[i].isRead && SchemaValid(r.value[i])
    ensures r.Ok? && req.userId.Some? ==> |r.value| == 1 && r.value[0].user == req.userId && !r.value[0].isBroadcast
    ensures r.Ok? && req.userId.None? && req.targetRole != "" ==>
              |r.value| == Seqs.Count(users, u => Addressee(u, req.targetRole))
              && (forall i :: 0 <= i < |r.value| ==>
                    (!r.value[i].isBroadcast && r.value[i].user.Some?
                     && exists u :: u in users && u.key == r.value[i].user.value && Addressee(u, req.targetRole)))
    ensures r.Ok? && req.userId.None? && req.targetRole == "" ==>
              |r.value| == 1 && r.value[0].isBroadcast && r.value[0].user.None?
    ensures me.role == UserModel.Admin && req.title != "" && req.body != "" ==> r.Ok?
    ensures r.Err? && me.role == UserModel.Admin ==> r.failure.ServerError?
  {
    if me.role != UserModel.Admin then Err(AuthMiddleware.Authorize(me, [UserModel.Admin]).failure)
    else
      var batch := Batch(users, nextKey, req, now);
      if batch != [] && (req.title == "" || req.body == "") then Err(ServerError("Notification validation failed"))
      else Ok(batch)
  }

  /** A role send reaches every active user of the role and no inactive one. */
  lemma RoleSendReachesActive(users: seq<UserModel.User>, nextKey: Key, me: UserModel.User, req: SendRequest, now: int, u: UserModel.User)
    requires SendOutcome(users, nextKey, me, req, now).Ok? && req.userId.None? && req.targetRole != ""
    requires u in users && UserModel.RoleName(u.role) == req.targetRole
    ensures u.isActive ==> exists i :: 0 <= i < |SendOutcome(users, nextKey, me, req, now).value| && SendOutcome(users, nextKey, me, req, now).value[i].user == Some(u.key)
  {
    if u.isActive {
      var f := Seqs.Filter(users, x => Addressee(x, req.targetRole));
      assert u in f;
      PromotionReaches(f, nextKey, req.title, req.body, now, u);
      assert Batch(users, nextKey, req, now) == Promotions(Keys(f), nextKey, req.title, req.body, now);
    }
  }

  lemma PromotionReaches(recipients: seq<UserModel.User>, nextKey: Key, title: string, body: string, now: int, u: UserModel.User)
    requires u in recipients
    ensures var b := Promotions(Keys(recipients), nextKey, title, body, now);
            exists i :: 0 <= i < |b| && b[i].user == Some(u.key)
  {
    var k :| 0 <= k < |recipients| && recipients[k] == u;
    assert Promotions(Keys(recipients), nextKey, title, body, now)[k].user == Some(u.key);
  }

  method Send(db: Database.Db, me: UserModel.User, req: SendRequest, now: int) returns (r: Result<seq<Notification>>)
    requires db.Valid()
    modifies db`notifications, db`nextKey
    ensures db.Valid()
    ensures r == SendOutcome(old(db.users), old(db.nextKey), me, req, now)
    ensures r.Err? ==> db.notifications == old(db.notifications) && db.nextKey == old(db.nextKey)
    ensures r.Ok? ==> db.notifications == old(db.notifications) + r.value && db.nextKey == old(db.nextKey) + |r.value|
  {
    r := SendOutcome(db.users, db.nextKey, me, req, now);
    if r.Ok? {
      db.notifications := db.notifications + r.value;
      db.nextKey := db.nextKey + |r.value|;
    }
  }
}

=== FILE: payments.dfy ===
/**
 * The payment handlers of backend/routes/payments.js.  The payment provider is
 * mocked in the source: an order is made up locally and a verification trusts
 * the ids the client sends without checking the signature.
 */
module Payments {
  import opened Wrappers
  import opened Text
  import Seqs
  import opened BookingModel
  import opened Database

  /** The mock order: amounts are in paise, the currency's hundredth. */
  datatype Order = Order(id: string, amount: int, currency: string, receipt: string, status: string)

  /** POST /api/payments/create-order, with `now` the clock reading in milliseconds. */
  function CreateOrder(bookingId: string, rupees: int, now: nat): (o: Order)
    ensures o.amount == rupees * 100
    ensures o.currency == "INR" && o.receipt == bookingId && o.status == "created"
    ensures |o.id| > 6 && o.id[..6] == "order_" && forall i :: 6 <= i < |o.id| ==> IsDigit(o.id[i])
    ensures ParseDigits(o.id[6..]) == now
  {
    var digits := NatToString(now);
    ParseNatToString(now);
    assert ("order_" + digits)[6..] == digits;
    Order("order_" + digits, rupees * 100, "INR", bookingId, "created")
  }

  /**
   * An order's id depends on the clock alone: two orders share an id exactly
   * when they are created in the same millisecond, whatever their bookings and
   * amounts.
   */
  lemma OrderIdsDistinct(b1: string, rupees1: int, t1: nat, b2: string, rupees2: int, t2: nat)
    ensures CreateOrder(b1, rupees1, t1).id == CreateOrder(b2, rupees2, t2).id <==> t1 == t2
  {
    var o1 := CreateOrder(b1, rupees1, t1);
    var o2 := CreateOrder(b2, rupees2, t2);
    if o1.id == o2.id {
      assert o1.id[6..] == o2.id[6..];
    }
  }

  /**
   * POST /api/payments/verify: any signed-in caller may mark any booking paid
   * (there is no ownership check and no signature check); the order and
   * payment ids are stored as sent.
   */
  function VerifyOutcome(bs: seq<Booking>, id: Key, orderId: string, paymentId: string, now: Instant, digits: string): (r: Result<Edit>)
    requires WellFormedInstant(now) && AllLowerBase36(digits)
    ensures FindBooking(bs, id).None? <==> r == Err(NotFound("Booking not found"))
    ensures FindBooking(bs, id).Some? && Invariant(bs[FindBooking(bs, id).value]) ==>
              r == Ok(Edit(FindBooking(bs, id).value,
                           bs[FindBooking(bs, id).value].(paymentStatus := PaymentCompleted,
                                                          razorpayOrderId := orderId, razorpayPaymentId := paymentId)))
    ensures r.Ok? ==> r.value.doc.paymentStatus == PaymentCompleted && Invariant(r.value.doc)
  {
    match FindBooking(bs, id)
    case None => Err(NotFound("Booking not found"))
    case Some(i) =>
      var edited := bs[i].(paymentStatus := PaymentCompleted, razorpayOrderId := orderId, razorpayPaymentId := paymentId);
      var doc := PreSave(Some(bs[i]), edited, now, digits);
      if !Invariant(doc) then Err(ServerError("Booking validation failed"))
      else Ok(Edit(i, doc))
  }

  /** Verification touches only the payment fields: status, items, amounts and history stay as they were. */
  lemma VerifyChangesOnlyPayment(bs: seq<Booking>, id: Key, orderId: string, paymentId: string, now: Instant, digits: string)
    requires WellFormedInstant(now) && AllLowerBase36(digits)
    requires forall i :: 0 <= i < |bs| ==> Invariant(bs[i])
    requires VerifyOutcome(bs, id, orderId, paymentId, now, digits).Ok?
    ensures var b := bs[FindBooking(bs, id).value];
            var d := VerifyOutcome(bs, id, orderId, paymentId, now, digits).value.doc;
            d.(paymentStatus := b.paymentStatus, razorpayOrderId := b.razorpayOrderId, razorpayPaymentId := b.razorpayPaymentId) == b
  {
  }

  method Verify(db: Db, id: Key, orderId: string, paymentId: string, now: Instant, digits: string) returns (r: Result<Booking>)
    requires db.Valid() && WellFormedInstant(now) && AllLowerBase36(digits)
    modifies db`bookings
    ensures db.Valid()
    ensures db.bookings == Apply(old(db.bookings), VerifyOutcome(old(db.bookings), id, orderId, paymentId, now, digits))
    ensures r == Response(VerifyOutcome(old(db.bookings), id, orderId, paymentId, now, digits))
  {
    r := CommitBooking(db, VerifyOutcome(db.bookings, id, orderId, paymentId, now, digits));
  }

  /** The fields `select`ed for the payment history. */
  datatype PaymentRecord = PaymentRecord(key: Key, bookingId: string, finalAmount: int, estimatedAmount: int,
                                         paymentMethod: PaymentMethod, paymentStatus: PaymentStatus,
                                         completedAt: Option<int>, createdAt: int)

  function Project(b: Booking): PaymentRecord
  {
    PaymentRecord(b.key, b.bookingId, b.finalAmount, b.estimatedAmount, b.paymentMethod, b.paymentStatus, b.completedAt, b.createdAt)
  }

  function ProjectAll(bs: seq<Booking>): (r: seq<PaymentRecord>)
    ensures |r| == |bs| && forall i :: 0 <= i < |bs| ==> r[i] == Project(bs[i])
  {
    if bs == [] then [] else [Project(bs[0])] + ProjectAll(bs[1..])
  }

  predicate Paid(b: Booking, me: Key) { b.user == me && b.paymentStatus == PaymentCompleted }

  /** The history query before projection: exactly the caller's paid bookings, newest first. */
  function Receipts(bs: seq<Booking>, me: Key): (r: seq<Booking>)
    ensures |r| == Seqs.Count(bs, b => Paid(b, me))
    ensures forall b :: b in r <==> b in bs && Paid(b, me)
    ensures forall k, l :: 0 <= k < l < |r| ==> r[k].createdAt >= r[l].createdAt
  {
    var paid := Seqs.Filter(bs, b => Paid(b, me));
    var r := Seqs.SortDescBy(paid, CreatedAt);
    assert forall b :: b in r <==> b in paid by {
      forall b ensures b in r <==> b in paid {
        Seqs.SortDescByMembership(paid, CreatedAt, b);
      }
    }
    r
  }

  /** GET /api/payments/history: the selected fields of each receipt, in the same order. */
  function History(bs: seq<Booking>, me: Key): (r: seq<PaymentRecord>)
    ensures |r| == Seqs.Count(bs, b => Paid(b, me))
    ensures forall k, l :: 0 <= k < l < |r| ==> r[k].createdAt >= r[l].createdAt
    ensures forall k :: 0 <= k < |r| ==> exists b :: b in bs && Paid(b, me) && r[k] == Project(b)
    ensures forall b :: b in bs && Paid(b, me) ==> Project(b) in r
  {
    var rs := Receipts(bs, me);
    var r := ProjectAll(rs);
    assert forall k :: 0 <= k < |r| ==> rs[k] in rs;
    assert forall b :: b in rs ==> Project(b) in r by {
      forall b | b in rs ensures Project(b) in r {
        var k :| 0 <= k < |rs| && rs[k] == b;
        assert r[k] == Project(b);
      }
    }
    r
  }
}

=== FILE: seqs.dfy ===
/**
 * Sequence operations shared by the query handlers: filtering, folding, lookup,
 * de-duplication and a stable sort by an integer key.  A collection of the
 * document store is a sequence in insertion order; a query's `.sort()` is
 * modelled by `SortBy`.
 */
module Seqs {
  import opened Wrappers

  function Filter<T(!new)>(s: seq<T>, p: T -> bool): (r: seq<T>)
    ensures |r| <= |s|
    ensures forall x :: x in r <==> x in s && p(x)
    ensures forall i :: 0 <= i < |r| ==> p(r[i])
  {
    if s == [] then []
    else (if p(s[0]) then [s[0]] else []) + Filter(s[1..], p)
  }

  lemma {:induction false} FilterAppend<T(!new)>(a: seq<T>, b: seq<T>, p: T -> bool)
    ensures Filter(a + b, p) == Filter(a, p) + Filter(b, p)
  {
    if a == [] {
      assert a + b == b;
    } else {
      assert (a + b)[0] == a[0];
      assert (a + b)[1..] == a[1..] + b;
      FilterAppend(a[1..], b, p);
    }
  }

  /** Filtering with a predicate that holds everywhere keeps the sequence. */
  lemma {:induction false} FilterAll<T(!new)>(s: seq<T>, p: T -> bool)
    requires forall i :: 0 <= i < |s| ==> p(s[i])
    ensures Filter(s, p) == s
  {
    if s != [] {
      FilterAll(s[1..], p);
    }
  }

  /** Filtering with a predicate that holds nowhere gives the empty sequence. */
  lemma {:induction false} FilterNone<T(!new)>(s: seq<T>, p: T -> bool)
    requires forall i :: 0 <= i < |s| ==> !p(s[i])
    ensures Filter(s, p) == []
  {
    if s != [] {
      FilterNone(s[1..], p);
    }
  }

  function Sum<T>(s: seq<T>, f: T -> int): int
  {
    if s == [] then 0 else f(s[0]) + Sum(s[1..], f)
  }

  /** Filtering with two predicates that agree on every element gives the same result. */
  lemma {:induction false} FilterCongruent<T(!new)>(s: seq<T>, p: T -> bool, q: T -> bool)
    requires forall i :: 0 <= i < |s| ==> p(s[i]) == q(s[i])
    ensures Filter(s, p) == Filter(s, q)
  {
    if s != [] {
      FilterCongruent(s[1..], p, q);
    }
  }

  lemma SumSingleton<T>(x: T, f: T -> int)
    ensures Sum([x], f) == f(x)
  {
    assert [x][1..] == [];
  }

  lemma {:induction false} SumAppend<T>(a: seq<T>, b: seq<T>, f: T -> int)
    ensures Sum(a + b, f) == Sum(a, f) + Sum(b, f)
  {
    if a == [] {
      assert a + b == b;
    } else {
      assert (a + b)[0] == a[0];
      assert (a + b)[1..] == a[1..] + b;
      SumAppend(a[1..], b, f);
    }
  }

  /** Two term functions that agree on every element give the same sum. */
  lemma {:induction false} SumCongruent<T>(s: seq<T>, f: T -> int, g: T -> int)
    requires forall i :: 0 <= i < |s| ==> f(s[i]) == g(s[i])
    ensures Sum(s, f) == Sum(s, g)
  {
    if s != [] {
      SumCongruent(s[1..], f, g);
    }
  }

  /** A sum of non-negative terms is non-negative. */
  lemma {:induction false} SumNonNegative<T>(s: seq<T>, f: T -> int)
    requires forall i :: 0 <= i < |s| ==> f(s[i]) >= 0
    ensures Sum(s, f) >= 0
  {
    if s != [] {
      SumNonNegative(s[1..], f);
    }
  }

  function Count<T(!new)>(s: seq<T>, p: T -> bool): (n: nat)
    ensures n <= |s|
  {
    |Filter(s, p)|
  }

  /** `idx` lists, in increasing order, positions of `s` that hold the elements of `sub`. */
  ghost predicate PicksOut<T>(idx: seq<nat>, sub: seq<T>, s: seq<T>)
  {
    && |idx| == |sub|
    && (forall i :: 0 <= i < |idx| ==> idx[i] < |s| && sub[i] == s[idx[i]])
    && (forall i, j :: 0 <= i < j < |idx| ==> idx[i] < idx[j])
  }

  /** `sub` is `s` with some elements left out and the rest in their order. */
  ghost predicate SubsequenceOf<T>(sub: seq<T>, s: seq<T>)
  {
    exists idx :: PicksOut(idx, sub, s)
  }

  function Shift(idx: seq<nat>): (r: seq<nat>)
    ensures |r| == |idx| && forall i :: 0 <= i < |idx| ==> r[i] == idx[i] + 1
  {
    if idx == [] then [] else [idx[0] + 1] + Shift(idx[1..])
  }

  /** Filtering keeps the order of the elements it keeps. */
  lemma {:induction false} FilterKeepsOrder<T(!new)>(s: seq<T>, p: T -> bool)
    ensures SubsequenceOf(Filter(s, p), s)
  {
    if s == [] {
      assert PicksOut([], Filter(s, p), s);
    } else {
      FilterKeepsOrder(s[1..], p);
      var idx :| PicksOut(idx, Filter(s[1..], p), s[1..]);
      if p(s[0]) {
        assert Filter(s, p) == [s[0]] + Filter(s[1..], p);
        PicksOutKeep(idx, Filter(s[1..], p), s);
      } else {
        assert Filter(s, p) == Filter(s[1..], p);
        PicksOutSkip(idx, Filter(s[1..], p), s);
      }
    }
  }

  lemma PicksOutSkip<T>(idx: seq<nat>, sub: seq<T>, s: seq<T>)
    requires s != [] && PicksOut(idx, sub, s[1..])
    ensures PicksOut(Shift(idx), sub, s)
  {
    var sh := Shift(idx);
    forall i | 0 <= i < |sh| ensures sh[i] < |s| && sub[i] == s[sh[i]] {
      assert s[1..][idx[i]] == s[idx[i] + 1];
    }
  }

  lemma PicksOutKeep<T>(idx: seq<nat>, sub: seq<T>, s: seq<T>)
    requires s != [] && PicksOut(idx, sub, s[1..])
    ensures PicksOut([0] + Shift(idx), [s[0]] + sub, s)
  {
    PicksOutSkip(idx, sub, s);
    var w := [0] + Shift(idx);
    forall i, j | 0 <= i < j < |w| ensures w[i] < w[j] {
      if i > 0 {
        assert w[i] == Shift(idx)[i - 1] && w[j] == Shift(idx)[j - 1];
      }
    }
    forall i | 0 <= i < |w| ensures w[i] < |s| && ([s[0]] + sub)[i] == s[w[i]] {
      if i > 0 {
        assert w[i] == Shift(idx)[i - 1];
      }
    }
  }

  /** The index of the first element satisfying `p`, as `findOne` returns the first match. */
  function IndexWhere<T>(s: seq<T>, p: T -> bool): (r: Option<nat>)
    ensures r.Some? ==> r.value < |s| && p(s[r.value]) && forall j :: 0 <= j < r.value ==> !p(s[j])
    ensures r.None? <==> forall j :: 0 <= j < |s| ==> !p(s[j])
  {
    if s == [] then None
    else if p(s[0]) then Some(0)
    else match IndexWhere(s[1..], p)
      case None => None
      case Some(i) => Some(i + 1)
  }

  /** The first `n` elements, or all of them when there are fewer. */
  function Take<T>(s: seq<T>, n: nat): (r: seq<T>)
    ensures |r| == if n <= |s| then n else |s|
    ensures forall i :: 0 <= i < |r| ==> r[i] == s[i]
  {
    if n <= |s| then s[..n] else s
  }

  /** All but the first `n` elements. */
  function Drop<T>(s: seq<T>, n: nat): (r: seq<T>)
    ensures |r| == if n <= |s| then |s| - n else 0
    ensures forall i :: 0 <= i < |r| ==> r[i] == s[n + i]
  {
    if n <= |s| then s[n..] else []
  }

  predicate NoDuplicates<T(==)>(s: seq<T>)
  {
    forall i, j :: 0 <= i < j < |s| ==> s[i] != s[j]
  }

  /** The distinct elements of `s`, in order of first appearance (the keys of a group-by). */
  function Distinct<T(==,!new)>(s: seq<T>): (r: seq<T>)
    ensures forall x :: x in r <==> x in s
    ensures NoDuplicates(r)
    decreases |s|
  {
    if s == [] then []
    else
      var rest := Filter(s[1..], x => x != s[0]);
      var tail := Distinct(rest);
      assert s[0] !in tail;
      assert forall x :: x in s <==> x == s[0] || x in s[1..] by {
        assert s == [s[0]] + s[1..];
      }
      [s[0]] + tail
  }

  ghost predicate SortedBy<T>(s: seq<T>, key: T -> int)
  {
    forall i, j :: 0 <= i < j < |s| ==> key(s[i]) <= key(s[j])
  }

  /** Inserts `x` before the first element whose key is not smaller. */
  function Insert<T>(x: T, s: seq<T>, key: T -> int): (r: seq<T>)
    requires SortedBy(s, key)
    ensures SortedBy(r, key)
    ensures multiset(r) == multiset(s) + multiset{x}
  {
    if s == [] then [x]
    else if key(x) <= key(s[0]) then
      SortedCons(x, s, key);
      [x] + s
    else
      var tail := Insert(x, s[1..], key);
      assert s == [s[0]] + s[1..];
      BoundThroughMultiset(tail, s[1..], x, key, key(s[0]));
      SortedCons(s[0], tail, key);
      [s[0]] + tail
  }

  /** Sorted and headed by a key no larger than its own first key, a sequence stays sorted with the head in front. */
  lemma SortedCons<T>(h: T, t: seq<T>, key: T -> int)
    requires SortedBy(t, key) && forall k :: 0 <= k < |t| ==> key(h) <= key(t[k])
    ensures SortedBy([h] + t, key)
  {
  }

  /** A bound on every key carries over to a sequence holding the same elements and one more. */
  lemma BoundThroughMultiset<T>(t: seq<T>, u: seq<T>, x: T, key: T -> int, b: int)
    requires multiset(t) == multiset(u) + multiset{x}
    requires b <= key(x) && forall k :: 0 <= k < |u| ==> b <= key(u[k])
    ensures forall k :: 0 <= k < |t| ==> b <= key(t[k])
  {
    forall k | 0 <= k < |t| ensures b <= key(t[k]) {
      assert t[k] in multiset(t);
      if t[k] != x {
        assert t[k] in multiset(u);
        var m :| 0 <= m < |u| && u[m] == t[k];
      }
    }
  }

  /** A stable insertion sort by ascending key: the result is ordered and a permutation of the input. */
  function SortBy<T>(s: seq<T>, key: T -> int): (r: seq<T>)
    ensures SortedBy(r, key)
    ensures multiset(r) == multiset(s)
    ensures |r| == |s|
  {
    if s == [] then []
    else
      assert s == [s[0]] + s[1..];
      Insert(s[0], SortBy(s[1..], key), key)
  }

  lemma SortByMembership<T>(s: seq<T>, key: T -> int, x: T)
    ensures x in SortBy(s, key) <==> x in s
  {
    assert x in multiset(SortBy(s, key)) <==> x in multiset(s);
  }

  /** A stable sort by descending key, as a query's `.sort('-field')`. */
  function SortDescBy<T>(s: seq<T>, key: T -> int): (r: seq<T>)
    ensures forall i, j :: 0 <= i < j < |r| ==> key(r[i]) >= key(r[j])
    ensures multiset(r) == multiset(s)
    ensures |r| == |s|
  {
    var neg := (x: T) => -key(x);
    var r := SortBy(s, neg);
    assert forall i, j :: 0 <= i < j < |r| ==> neg(r[i]) <= neg(r[j]);
    r
  }

  /** Sorting neither adds nor drops elements. */
  lemma SortDescByMembership<T>(s: seq<T>, key: T -> int, x: T)
    ensures x in SortDescBy(s, key) <==> x in s
  {
    assert x in multiset(SortDescBy(s, key)) <==> x in multiset(s);
  }

  /** `find(p).sort('-key').limit(n)`: the matching elements, newest first, at most `n` of them. */
  function NewestFirst<T(!new)>(s: seq<T>, p: T -> bool, key: T -> int, n: nat): (r: seq<T>)
    ensures |r| == if n <= Count(s, p) then n else Count(s, p)
    ensures forall x :: x in r ==> x in s && p(x)
    ensures forall i, j :: 0 <= i < j < |r| ==> key(r[i]) >= key(r[j])
  {
    var f := Filter(s, p);
    var sorted := SortDescBy(f, key);
    var r := Take(sorted, n);
    assert forall x :: x in r ==> x in f by {
      forall x | x in r ensures x in f {
        SortDescByMembership(f, key, x);
      }
    }
    r
  }

  /** The cap drops only the oldest matches: a match left out means the list is full, and is no newer than its last element. */
  lemma NewestFirstKeepsNewest<T(!new)>(s: seq<T>, p: T -> bool, key: T -> int, n: nat)
    ensures forall x :: x in s && p(x) && x !in NewestFirst(s, p, key, n) ==>
              |NewestFirst(s, p, key, n)| == n && (n > 0 ==> key(x) <= key(NewestFirst(s, p, key, n)[n - 1]))
  {
    var f := Filter(s, p);
    var sorted := SortDescBy(f, key);
    var r := NewestFirst(s, p, key, n);
    assert r == Take(sorted, n);
    forall x | x in s && p(x) && x !in r
      ensures |r| == n && (n > 0 ==> key(x) <= key(r[n - 1]))
    {
      SortDescByMembership(f, key, x);
      var k :| 0 <= k < |sorted| && sorted[k] == x;
      assert forall i :: 0 <= i < |r| ==> r[i] != x;
      assert k >= |r|;
    }
  }

  /** When no more than `n` elements match, none is left out. */
  lemma NewestFirstComplete<T(!new)>(s: seq<T>, p: T -> bool, key: T -> int, n: nat)
    ensures Count(s, p) <= n ==> forall x :: x in s && p(x) ==> x in NewestFirst(s, p, key, n)
  {
    var f := Filter(s, p);
    var sorted := SortDescBy(f, key);
    if Count(s, p) <= n {
      assert NewestFirst(s, p, key, n) == sorted;
      forall x | x in s && p(x) ensures x in sorted {
        SortDescByMembership(f, key, x);
      }
    }
  }

  /** Without duplicates, every element occurs at most once. */
  lemma {:induction false} NoDuplicatesOccurOnce<T>(s: seq<T>, x: T)
    requires NoDuplicates(s)
    ensures multiset(s)[x] <= 1
  {
    if s != [] {
      assert s == [s[0]] + s[1..];
      NoDuplicatesOccurOnce(s[1..], x);
      assert s[0] !in s[1..];
    }
  }

  /** A rearrangement of a sequence without duplicates has none either. */
  lemma NoDuplicatesPermutation<T>(a: seq<T>, b: seq<T>)
    requires NoDuplicates(a) && multiset(a) == multiset(b)
    ensures NoDuplicates(b)
  {
    forall i, j | 0 <= i < j < |b| ensures b[i] != b[j] {
      NoDuplicatesOccurOnce(a, b[i]);
      assert b == b[..j] + b[j..];
      assert b[i] in b[..j] && b[j] in b[j..];
      assert multiset(b)[b[i]] == multiset(b[..j])[b[i]] + multiset(b[j..])[b[i]];
    }
  }
}

=== FILE: support.dfy ===
/**
 * The support chat of backend/routes/support.js: a keyword responder over the
 * lower-cased message, tried rule by rule, the first match answering.
 */
module Support {
  import opened Wrappers
  import opened Text

  const RatesReply: string :=
    "Our current scrap rates are: Paper (₹12/kg), Iron (₹28/kg), Plastic (₹15/kg). Rates can vary slightly by quality. You can see the full list in the 'Categories' section!"
  const BookingReply: string :=
    "Booking a pickup is easy! Just go to the Home screen, select 'Book Pickup', choose your categories, and pick a time slot that works for you."
  const AreaReply: string :=
    "We currently serve the Nizampet and surrounding areas. Our collection agents come directly to your doorstep!"
  const GreetingReply: string :=
    "Hi there! I'm the GreenCycle AI Assistant. How can I help you save the planet today? \U{267B}\U{FE0F}"
  const FallbackReply: string :=
    "That's a great question! For specific queries about your bookings, you can contact our support team at +91 83091 08691. How else can I help you today?"

  /** The five answers, in rule order. */
  const Replies: seq<string> := [RatesReply, BookingReply, AreaReply, GreetingReply, FallbackReply]

  predicate AsksRates(q: string) { Contains(q, "price") || Contains(q, "rate") }
  predicate AsksBooking(q: string) { Contains(q, "schedule") || Contains(q, "book") }
  predicate AsksArea(q: string) { Contains(q, "where") || Contains(q, "location") || Contains(q, "nizampet") }
  predicate Greets(q: string) { Contains(q, "hello") || Contains(q, "hi") }

  /** `getAIResponse`: the keywords are looked for in the lower-cased query, in a fixed order. */
  function Reply(query: string): (r: string)
    ensures r in Replies
    ensures var q := Lower(query);
            && (AsksRates(q) ==> r == RatesReply)
            && (!AsksRates(q) && AsksBooking(q) ==> r == BookingReply)
            && (!AsksRates(q) && !AsksBooking(q) && AsksArea(q) ==> r == AreaReply)
            && (!AsksRates(q) && !AsksBooking(q) && !AsksArea(q) && Greets(q) ==> r == GreetingReply)
            && (!AsksRates(q) && !AsksBooking(q) && !AsksArea(q) && !Greets(q) ==> r == FallbackReply)
  {
    var q := Lower(query);
    if AsksRates(q) then RatesReply
    else if AsksBooking(q) then BookingReply
    else if AsksArea(q) then AreaReply
    else if Greets(q) then GreetingReply
    else FallbackReply
  }

  /** The answer ignores letter case: the query and its upper-cased form are answered alike. */
  lemma ReplyIgnoresCase(query: string)
    ensures Reply(Upper(query)) == Reply(query)
    ensures Reply(Lower(query)) == Reply(query)
  {
    assert Lower(Upper(query)) == Lower(query) by {
      forall i | 0 <= i < |query| ensures Lower(Upper(query))[i] == Lower(query)[i] {
        assert LowerChar(UpperChar(query[i])) == LowerChar(query[i]);
      }
    }
    LowerIdempotent(query);
  }

  /** The keywords are matched anywhere, even inside other words: "this" contains "hi" and is answered with the greeting. */
  lemma KeywordsMatchInsideWords()
    ensures Reply("this") == GreetingReply
  {
    var q := Lower("this");
    assert q == "this";
    ThisAsksNoEarlierRule();
    assert Contains(q, "hi") by {
      assert Contains(q[1..], "hi") by { assert q[1..][..2] == "hi"; }
    }
  }

  /** "this" holds none of the keywords of the rules before the greeting. */
  lemma ThisAsksNoEarlierRule()
    ensures !AsksRates("this") && !AsksBooking("this") && !AsksArea("this")
  {
    var q := "this";
    ContainsNeedsRoom(q, "price");
    ContainsNeedsRoom(q, "schedule");
    ContainsNeedsRoom(q, "where");
    ContainsNeedsRoom(q, "location");
    ContainsNeedsRoom(q, "nizampet");
    assert q[..4] == q && q[0] == 't';
    ContainsNeedsRoom(q[1..], "rate");
    ContainsNeedsRoom(q[1..], "book");
  }

  /** POST /api/support/chat: an empty or absent message is refused before any answer is computed. */
  function Chat(message: string): (r: Result<string>)
    ensures r.Err? <==> message == ""
    ensures r.Err? ==> r == Err(BadRequest("Message is required"))
    ensures r.Ok? ==> r.value == Reply(message) && r.value in Replies
  {
    if message == "" then Err(BadRequest("Message is required")) else Ok(Reply(message))
  }
}

=== FILE: text.dfy ===
/**
 * The JavaScript string operations the system relies on: ASCII case mapping,
 * `trim`, `startsWith`, `includes`, `slice(-n)`, decimal rendering of numbers,
 * `padStart(2, '0')`, `join` and `replace(/\D/g, '')`.
 */
module Text {

  predicate IsDigit(c: char) { '0' <= c <= '9' }

  predicate IsLowerAlnum(c: char) { 'a' <= c <= 'z' || IsDigit(c) }

  predicate IsUpperBase36(c: char) { 'A' <= c <= 'Z' || IsDigit(c) }

  predicate IsLowerBase36(c: char) { IsLowerAlnum(c) }

  function LowerChar(c: char): (r: char)
    ensures 'A' <= c <= 'Z' ==> 'a' <= r <= 'z'
    ensures !('A' <= c <= 'Z') ==> r == c
  {
    if 'A' <= c <= 'Z' then (c as int + 32) as char else c
  }

  function UpperChar(c: char): (r: char)
    ensures 'a' <= c <= 'z' ==> 'A' <= r <= 'Z'
    ensures !('a' <= c <= 'z') ==> r == c
  {
    if 'a' <= c <= 'z' then (c as int - 32) as char else c
  }

  /** `toLowerCase`, restricted to the ASCII letters. */
  function Lower(s: string): (r: string)
    ensures |r| == |s|
    ensures forall i :: 0 <= i < |s| ==> r[i] == LowerChar(s[i])
  {
    if s == [] then [] else [LowerChar(s[0])] + Lower(s[1..])
  }

  /** `toUpperCase`, restricted to the ASCII letters. */
  function Upper(s: string): (r: string)
    ensures |r| == |s|
    ensures forall i :: 0 <= i < |s| ==> r[i] == UpperChar(s[i])
  {
    if s == [] then [] else [UpperChar(s[0])] + Upper(s[1..])
  }

  /** Lowering twice is lowering once. */
  lemma LowerIdempotent(s: string)
    ensures Lower(Lower(s)) == Lower(s)
  {
  }

  /** The characters JavaScript's `trim` removes: WhiteSpace and LineTerminator. */
  predicate IsJsSpace(c: char)
  {
    c == ' ' || c == '\t' || c == '\n' || c == '\r' || c == '\U{000B}' || c == '\U{000C}'
    || c == '\U{00A0}' || c == '\U{1680}' || ('\U{2000}' <= c <= '\U{200A}')
    || c == '\U{2028}' || c == '\U{2029}' || c == '\U{202F}' || c == '\U{205F}'
    || c == '\U{3000}' || c == '\U{FEFF}'
  }

  function TrimStart(s: string): (r: string)
    ensures |r| <= |s| && r == s[|s| - |r|..]
    ensures r == [] || !IsJsSpace(r[0])
    ensures forall i :: 0 <= i < |s| - |r| ==> IsJsSpace(s[i])
  {
    if s != [] && IsJsSpace(s[0]) then TrimStart(s[1..]) else s
  }

  function TrimEnd(s: string): (r: string)
    ensures |r| <= |s| && r == s[..|r|]
    ensures r == [] || !IsJsSpace(r[|r| - 1])
    ensures forall i :: |r| <= i < |s| ==> IsJsSpace(s[i])
  {
    if s != [] && IsJsSpace(s[|s| - 1]) then TrimEnd(s[..|s| - 1]) else s
  }

  /** `trim`: the result neither starts nor ends with white space, and is a slice of the input. */
  function Trim(s: string): (r: string)
    ensures r == [] || (!IsJsSpace(r[0]) && !IsJsSpace(r[|r| - 1]))
    ensures exists i, j :: 0 <= i <= j <= |s| && r == s[i..j]
  {
    var t := TrimStart(s);
    var r := TrimEnd(t);
    assert r == s[|s| - |t|..|s| - |t| + |r|];
    r
  }

  /** A string made only of white space trims to the empty string. */
  lemma {:induction false} TrimAllSpace(s: string)
    requires forall i :: 0 <= i < |s| ==> IsJsSpace(s[i])
    ensures Trim(s) == []
  {
    if s != [] {
      TrimAllSpace(s[1..]);
    }
  }

  lemma TrimIdempotent(s: string)
    ensures Trim(Trim(s)) == Trim(s)
  {
  }

  predicate StartsWith(s: string, prefix: string)
  {
    |prefix| <= |s| && s[..|prefix|] == prefix
  }

  /** `s.includes(sub)`. */
  predicate Contains(s: string, sub: string)
  {
    StartsWith(s, sub) || (s != [] && Contains(s[1..], sub))
  }

  /** Nothing longer than a string occurs in it. */
  lemma {:induction false} ContainsNeedsRoom(s: string, sub: string)
    ensures Contains(s, sub) ==> |sub| <= |s|
  {
    if s != [] {
      ContainsNeedsRoom(s[1..], sub);
    }
  }

  /** A case-insensitive `$regex` match, with the pattern read as plain text. */
  predicate MatchesText(field: string, search: string)
  {
    Contains(Lower(field), Lower(search))
  }

  /** `s.slice(-n)`: the last `n` characters, or all of them when there are fewer. */
  function Last(s: string, n: nat): (r: string)
    ensures |r| == if |s| <= n then |s| else n
    ensures r == s[|s| - |r|..]
  {
    if |s| <= n then s else s[|s| - n..]
  }

  function DigitChar(d: nat): (c: char)
    requires d < 10
    ensures IsDigit(c) && c as int - '0' as int == d
  {
    ('0' as int + d) as char
  }

  function DigitValue(c: char): (d: nat)
    requires IsDigit(c)
    ensures d < 10 && DigitChar(d) == c
  {
    c as int - '0' as int
  }

  /** `String(n)` for a non-negative integer. */
  function NatToString(n: nat): (r: string)
    ensures r != []
    ensures forall i :: 0 <= i < |r| ==> IsDigit(r[i])
    ensures r[|r| - 1] == DigitChar(n % 10)
  {
    if n < 10 then [DigitChar(n)] else NatToString(n / 10) + [DigitChar(n % 10)]
  }

  /** `String(n)` for any integer. */
  function IntToString(n: int): string
  {
    if n < 0 then "-" + NatToString(-n) else NatToString(n)
  }

  /** Reads a string of decimal digits back. */
  function ParseDigits(s: string): (n: nat)
    requires forall i :: 0 <= i < |s| ==> IsDigit(s[i])
  {
    if s == [] then 0 else ParseDigits(s[..|s| - 1]) * 10 + DigitValue(s[|s| - 1])
  }

  lemma {:induction false} ParseNatToString(n: nat)
    ensures ParseDigits(NatToString(n)) == n
  {
    var r := NatToString(n);
    if n >= 10 {
      assert r[..|r| - 1] == NatToString(n / 10);
      ParseNatToString(n / 10);
    }
  }

  /** `String(n).padStart(2, '0')` for `n` below 100. */
  function Pad2(n: nat): (r: string)
    requires n < 100
    ensures |r| == 2 && IsDigit(r[0]) && IsDigit(r[1])
  {
    [DigitChar(n / 10), DigitChar(n % 10)]
  }

  /** Reading a padded two-digit number back gives the number. */
  lemma Pad2Parse(n: nat)
    requires n < 100
    ensures ParseDigits(Pad2(n)) == n
  {
    var r := Pad2(n);
    assert r[..1] == [r[0]] && [r[0]][..0] == [];
    assert ParseDigits([r[0]]) == DigitValue(r[0]) == n / 10;
    assert ParseDigits(r) == ParseDigits(r[..1]) * 10 + DigitValue(r[1]);
  }

  lemma DivMod100(x: int, q: int, r: int)
    requires x == 100 * q + r && 0 <= r < 100
    ensures x % 100 == r
  {
  }

  lemma DivMod10(x: int, q: int, r: int)
    requires x == 10 * q + r && 0 <= r < 10
    ensures x / 10 == q && x % 10 == r
  {
  }

  /** For a year of two digits or more, `String(year).slice(-2)` is the zero-padded year of the century. */
  lemma {:induction false} LastTwoDigits(year: nat)
    requires year >= 10
    ensures Last(NatToString(year), 2) == Pad2(year % 100)
  {
    var s := NatToString(year);
    var q, r0 := year / 10, year % 10;
    var a, b := q / 10, q % 10;
    var front := NatToString(q);
    assert s == front + [DigitChar(r0)];
    assert front[|front| - 1] == DigitChar(b);
    DivMod100(year, a, 10 * b + r0);
    DivMod10(10 * b + r0, b, r0);
    assert Last(s, 2) == [front[|front| - 1], DigitChar(r0)];
  }

  predicate AllLowerBase36(s: string)
  {
    forall i :: 0 <= i < |s| ==> IsLowerBase36(s[i])
  }

  /**
   * `Math.random().toString(36).substr(2, n).toUpperCase()`, where `digits` are
   * the base-36 digits after "0." of the random number's rendering.
   */
  function RandomSuffix(digits: string, n: nat): (r: string)
    requires AllLowerBase36(digits)
    ensures |r| <= n && |r| <= |digits|
    ensures forall i :: 0 <= i < |r| ==> IsUpperBase36(r[i])
  {
    var t := if n <= |digits| then digits[..n] else digits;
    Upper(t)
  }

  /** `parts.join(sep)`. */
  function Join(parts: seq<string>, sep: string): string
  {
    if parts == [] then ""
    else if |parts| == 1 then parts[0]
    else parts[0] + sep + Join(parts[1..], sep)
  }

  /** The position of the first `c` in `s`. */
  function FirstIndex(s: string, c: char): (k: nat)
    requires c in s
    ensures k < |s| && s[k] == c && c !in s[..k]
  {
    if s[0] == c then 0
    else
      assert c in s[1..] by { assert s == [s[0]] + s[1..]; }
      var k := FirstIndex(s[1..], c);
      assert s[..k + 1] == [s[0]] + s[1..][..k];
      k + 1
  }

  /** `s.split(c)` for a one-character separator; joining the parts with `c` gives `s` back. */
  function Split(s: string, c: char): (r: seq<string>)
    ensures |r| >= 1
    ensures forall i :: 0 <= i < |r| ==> c !in r[i]
    ensures Join(r, [c]) == s
    decreases |s|
  {
    if c !in s then [s]
    else
      var k := FirstIndex(s, c);
      var rest := Split(s[k + 1..], c);
      var r := [s[..k]] + rest;
      assert r[0] == s[..k] && r[1..] == rest;
      assert s == s[..k] + [c] + s[k + 1..];
      r
  }

  /** In `a`, `c`, `b` with no `c` in `a`, the first `c` is the one after `a`. */
  lemma {:induction false} FirstIndexAfter(a: string, c: char, b: string)
    requires c !in a
    ensures c in a + [c] + b && FirstIndex(a + [c] + b, c) == |a|
  {
    var s := a + [c] + b;
    assert s[|a|] == c;
    if a != [] {
      assert s[0] == a[0];
      assert s[1..] == a[1..] + [c] + b;
      assert forall x :: x in a[1..] ==> x in a;
      FirstIndexAfter(a[1..], c, b);
    }
  }

  /** Splitting the join of separator-free parts gives the parts back. */
  lemma {:induction false} SplitJoin(parts: seq<string>, c: char)
    requires |parts| >= 1 && forall i :: 0 <= i < |parts| ==> c !in parts[i]
    ensures Split(Join(parts, [c]), c) == parts
  {
    if |parts| > 1 {
      var rest := Join(parts[1..], [c]);
      assert Join(parts, [c]) == parts[0] + [c] + rest;
      SplitCons(parts[0], c, rest);
      SplitJoin(parts[1..], c);
      assert [parts[0]] + parts[1..] == parts;
    }
  }

  /** A separator-free piece, the separator, then the rest split into the piece and the rest's parts. */
  lemma SplitCons(a: string, c: char, rest: string)
    requires c !in a
    ensures Split(a + [c] + rest, c) == [a] + Split(rest, c)
  {
    var s := a + [c] + rest;
    FirstIndexAfter(a, c, rest);
    assert s[..|a|] == a;
    assert s[|a| + 1..] == rest;
  }

  /** `p.replace(/\D/g, '')`: the decimal digits of `p`, in order. */
  function DigitsOf(p: string): (r: string)
    ensures |r| <= |p|
    ensures forall i :: 0 <= i < |r| ==> IsDigit(r[i])
  {
    if p == [] then []
    else (if IsDigit(p[0]) then [p[0]] else []) + DigitsOf(p[1..])
  }

  /** A string of digits is its own digit string. */
  lemma {:induction false} DigitsOfDigits(p: string)
    requires forall i :: 0 <= i < |p| ==> IsDigit(p[i])
    ensures DigitsOf(p) == p
  {
    if p != [] {
      DigitsOfDigits(p[1..]);
    }
  }

  lemma {:induction false} DigitsOfAppend(a: string, b: string)
    ensures DigitsOf(a + b) == DigitsOf(a) + DigitsOf(b)
  {
    if a == [] {
      assert a + b == b;
    } else {
      assert (a + b)[0] == a[0];
      assert (a + b)[1..] == a[1..] + b;
      DigitsOfAppend(a[1..], b);
    }
  }
}

=== FILE: user_model.dfy ===
/**
 * The user document (backend/models/User.js): customers, agents and admins
 * share one collection; the agent fields are unused for other roles.  The
 * pre-save hook assigns a referral code once.
 */
module UserModel {
  import opened Wrappers
  import opened Text

  datatype Role = Customer | Agent | Admin

  function RoleName(r: Role): string
  {
    match r
    case Customer => "customer"
    case Agent => "agent"
    case Admin => "admin"
  }

  /** The schema's enum check on `role`. */
  function ParseRole(name: string): (r: Option<Role>)
    ensures r.Some? ==> RoleName(r.value) == name
    ensures forall role :: RoleName(role) == name ==> r == Some(role)
  {
    if name == "customer" then Some(Customer)
    else if name == "agent" then Some(Agent)
    else if name == "admin" then Some(Admin)
    else None
  }

  /**
   * A stored password.  bcrypt is not part of this model: a hash is an opaque
   * tag of the plain text, and `Matches` stands for `bcrypt.compare`.
   */
  datatype Secret = Hashed(plain: string)

  predicate Matches(candidate: string, s: Secret)
  {
    s.plain == candidate
  }

  /** An entry of the address book; the geocode is not part of this model. */
  datatype SavedAddress = SavedAddress(
    key: Key,
    labelText: string,
    fullAddress: string,
    landmark: string,
    city: string,
    pincode: string,
    isDefault: bool)

  /**
   * A user document.  Optional strings (name, email, fcmToken, referralCode,
   * agentArea, agentVehicle) are "" when unset.
   */
  datatype User = User(
    key: Key,
    name: string,
    phone: string,
    email: string,
    password: Option<Secret>,
    role: Role,
    addresses: seq<SavedAddress>,
    fcmToken: string,
    isActive: bool,
    isVerified: bool,
    otp: Option<string>,
    otpExpiry: Option<int>,
    referralCode: string,
    loyaltyPoints: int,
    totalEarnings: int,
    totalPickups: int,
    agentArea: string,
    agentVehicle: string,
    agentRating: real,
    agentIsAvailable: bool,
    createdAt: int)

  /** A fresh document with the schema's defaults, before the save hook runs. */
  function NewUser(key: Key, phone: string, createdAt: int): (u: User)
    ensures u.role == Customer
    ensures u.isActive && !u.isVerified
    ensures u.loyaltyPoints == 0 && u.totalEarnings == 0 && u.totalPickups == 0
    ensures u.agentRating == 5.0 && u.agentIsAvailable
    ensures u.addresses == [] && u.password.None? && u.otp.None? && u.referralCode == ""
  {
    User(key, "", phone, "", None, Customer, [], "", true, false, None, None, "", 0, 0, 0, "", "", 5.0, true, createdAt)
  }

  /** The validators run on every save: a phone number, and a street address on every saved address. */
  predicate SchemaValid(u: User)
  {
    u.phone != "" && forall i :: 0 <= i < |u.addresses| ==> u.addresses[i].fullAddress != ""
  }

  /** What every stored user satisfies: the validators hold and the save hook has assigned a referral code. */
  predicate Stored(u: User)
  {
    SchemaValid(u) && u.referralCode != ""
  }

  /** "GC", the last six characters of the phone number, then up to four random upper-case base-36 characters. */
  function ReferralCodeFor(phone: string, digits: string): (code: string)
    requires AllLowerBase36(digits)
    ensures 2 + |Last(phone, 6)| <= |code| <= 12
    ensures code[..2] == "GC"
    ensures code[2..2 + |Last(phone, 6)|] == Last(phone, 6)
    ensures forall i :: 2 + |Last(phone, 6)| <= i < |code| ==> IsUpperBase36(code[i])
  {
    "GC" + Last(phone, 6) + RandomSuffix(digits, 4)
  }

  /** The pre-save hook: a referral code is generated only when the document has none. */
  function PreSave(doc: User, digits: string): (r: User)
    requires AllLowerBase36(digits)
    ensures r.referralCode != ""
    ensures doc.referralCode != "" ==> r == doc
    ensures doc.referralCode == "" ==> r == doc.(referralCode := ReferralCodeFor(doc.phone, digits))
  {
    if doc.referralCode == "" then doc.(referralCode := ReferralCodeFor(doc.phone, digits)) else doc
  }

  /** Saving a document that passes validation yields a document fit to store. */
  lemma PreSaveStored(doc: User, digits: string)
    requires AllLowerBase36(digits) && SchemaValid(doc)
    ensures Stored(PreSave(doc, digits))
  {
  }

  /** Once a document has been saved, saving it again never changes its referral code. */
  lemma PreSaveReferralStable(doc: User, d1: string, d2: string)
    requires AllLowerBase36(d1) && AllLowerBase36(d2)
    ensures PreSave(PreSave(doc, d1), d2) == PreSave(doc, d1)
  {
  }

  /** `select('-otp -otpExpiry -password')`: the three secrets are withheld and every other field is returned as stored. */
  function Sanitized(u: User): (r: User)
    ensures r.otp.None? && r.otpExpiry.None? && r.password.None?
    ensures r.(otp := u.otp, otpExpiry := u.otpExpiry, password := u.password) == u
  {
    u.(otp := None, otpExpiry := None, password := None)
  }

  /** The sort key of `sort('-createdAt')`. */
  function CreatedAt(u: User): int { u.createdAt }

  /** The admin search: the term occurs in the name or the phone, ignoring case. */
  predicate MatchesSearch(u: User, search: string)
  {
    MatchesText(u.name, search) || MatchesText(u.phone, search)
  }
}

=== FILE: users.dfy ===
/**
 * The admin user handlers of backend/routes/users.js: the filtered, paginated
 * list, fetching one account, and flipping an account's active flag.  Every
 * account returned leaves out the one-time code, its expiry and the password.
 */
module Users {
  import opened Wrappers
  import opened Text
  import Seqs
  import opened UserModel
  import Database
  import AuthMiddleware

  /** The list query: the role when one is given, and the search term when one is given. */
  predicate Matches(u: User, role: string, search: string)
    ensures role == "" && search == "" ==> Matches(u, role, search)
  {
    (role == "" || RoleName(u.role) == role) && (search == "" || MatchesSearch(u, search))
  }

  function SanitizeAll(us: seq<User>): (r: seq<User>)
    ensures |r| == |us| && forall i :: 0 <= i < |us| ==> r[i] == Sanitized(us[i])
  {
    if us == [] then [] else [Sanitized(us[0])] + SanitizeAll(us[1..])
  }

  /** The list query before the secrets are withheld: one page of the matching accounts, newest first. */
  function Page(users: seq<User>, role: string, search: string, page: int, limit: int): (r: Result<seq<User>>)
    ensures r.Err? <==> Database.SkipCount(page, limit) < 0
    ensures r.Ok? && limit > 0 ==> |r.value| <= limit
    ensures r.Ok? ==> forall k :: 0 <= k < |r.value| ==> r.value[k] in users && Matches(r.value[k], role, search)
    ensures r.Ok? ==> forall k, l :: 0 <= k < l < |r.value| ==> r.value[k].createdAt >= r.value[l].createdAt
    ensures r.Ok? ==> Database.IsWindow(r.value, Seqs.SortDescBy(Seqs.Filter(users, u => Matches(u, role, search)), CreatedAt),
                                        Database.SkipCount(page, limit), limit)
    ensures r.Ok? ==> |r.value| == Database.PageSize(Seqs.Count(users, u => Matches(u, role, search)), Database.SkipCount(page, limit), limit)
  {
    var matching := Seqs.Filter(users, u => Matches(u, role, search));
    var sorted := Seqs.SortDescBy(matching, CreatedAt);
    Database.PageOfSortedDesc(sorted, page, limit, CreatedAt);
    assert forall x :: x in sorted ==> x in matching by {
      forall x | x in sorted ensures x in matching {
        Seqs.SortDescByMembership(matching, CreatedAt, x);
      }
    }
    Database.Paginate(sorted, page, limit)
  }

  /**
   * GET /api/users (admins only): one page of matching accounts without their
   * secrets, with the number of matches.  An absent page is 1 and an absent
   * limit is 50.
   */
  function ListUsers(users: seq<User>, me: User, role: string, search: string, page: Option<int>, limit: Option<int>)
    : (r: Result<(seq<User>, nat)>)
    ensures me.role != Admin ==> r == Err(AuthMiddleware.Authorize(me, [Admin]).failure)
    ensures me.role == Admin ==> (r.Err? <==> Database.SkipCount(page.GetOr(1), limit.GetOr(50)) < 0)
    ensures r.Ok? ==> r.value.1 == Seqs.Count(users, u => Matches(u, role, search))
    ensures r.Ok? ==> |r.value.0| == Database.PageSize(r.value.1, Database.SkipCount(page.GetOr(1), limit.GetOr(50)), limit.GetOr(50))
    ensures r.Ok? ==> r.value.0 == SanitizeAll(Page(users, role, search, page.GetOr(1), limit.GetOr(50)).value)
    ensures r.Ok? ==> forall k :: 0 <= k < |r.value.0| ==>
              r.value.0[k].otp.None? && r.value.0[k].otpExpiry.None? && r.value.0[k].password.None?
  {
    match AuthMiddleware.Authorize(me, [Admin])
    case Err(f) => Err(f)
    case Ok(_) =>
      match Page(users, role, search, page.GetOr(1), limit.GetOr(50))
      case Err(f) => Err(f)
      case Ok(p) => Ok((SanitizeAll(p), Seqs.Count(users, u => Matches(u, role, search))))
  }

  /** Without filters and with one large enough page, every account is listed. */
  lemma UnfilteredListsEveryone(users: seq<User>, me: User)
    requires me.role == Admin && |users| <= 50
    ensures ListUsers(users, me, "", "", None, None).Ok?
    ensures ListUsers(users, me, "", "", None, None).value.1 == |users|
    ensures |ListUsers(users, me, "", "", None, None).value.0| == |users|
  {
    Seqs.FilterAll(users, u => Matches(u, "", ""));
  }

  /** GET /api/users/:id (admins only). */
  function GetUser(users: seq<User>, me: User, id: Key): (r: Result<User>)
    ensures me.role != Admin ==> r == Err(AuthMiddleware.Authorize(me, [Admin]).failure)
    ensures me.role == Admin && Database.FindUser(users, id).None? ==> r == Err(NotFound("User not found"))
    ensures r.Ok? <==> me.role == Admin && Database.FindUser(users, id).Some?
    ensures r.Ok? ==> r.value == Sanitized(users[Database.FindUser(users, id).value]) && r.value.key == id
  {
    match AuthMiddleware.Authorize(me, [Admin])
    case Err(f) => Err(f)
    case Ok(_) =>
      match Database.FindUser(users, id)
      case None => Err(NotFound("User not found"))
      case Some(j) => Ok(Sanitized(users[j]))
  }

  /** The account saved by toggle-active: the flag flipped, then the save hook. */
  function Toggled(u: User, digits: string): (r: User)
    requires AllLowerBase36(digits)
    ensures r.isActive == !u.isActive
    ensures Stored(u) ==> r == u.(isActive := !u.isActive) && Stored(r)
  {
    PreSave(u.(isActive := !u.isActive), digits)
  }

  /** Toggling a stored account twice restores it. */
  lemma ToggleTwiceRestores(u: User, d1: string, d2: string)
    requires Stored(u) && AllLowerBase36(d1) && AllLowerBase36(d2)
    ensures Toggled(Toggled(u, d1), d2) == u
  {
  }

  /** PUT /api/users/:id/toggle-active (admins only): the response carries the saved account, secrets included. */
  function ToggleOutcome(users: seq<User>, me: User, id: Key, digits: string): (r: Result<(nat, User)>)
    requires AllLowerBase36(digits)
    ensures me.role != Admin ==> r == Err(AuthMiddleware.Authorize(me, [Admin]).failure)
    ensures me.role == Admin && Database.FindUser(users, id).None? ==> r == Err(NotFound("User not found"))
    ensures me.role == Admin && Database.FindUser(users, id).Some? && SchemaValid(users[Database.FindUser(users, id).value]) ==>
              r == Ok((Database.FindUser(users, id).value, Toggled(users[Database.FindUser(users, id).value], digits)))
    ensures r.Ok? ==> r.value.0 < |users| && r.value.1.key == id && Stored(r.value.1)
    ensures r.Ok? ==> r.value.1.isActive == !users[r.value.0].isActive
  {
    match AuthMiddleware.Authorize(me, [Admin])
    case Err(f) => Err(f)
    case Ok(_) =>
      match Database.FindUser(users, id)
      case None => Err(NotFound("User not found"))
      case Some(j) =>
        if !SchemaValid(users[j]) then Err(ServerError("User validation failed"))
        else
          PreSaveStored(users[j].(isActive := !users[j].isActive), digits);
          Ok((j, Toggled(users[j], digits)))
  }

  method ToggleActive(db: Database.Db, me: User, id: Key, digits: string) returns (r: Result<User>)
    requires db.Valid() && AllLowerBase36(digits)
    modifies db`users
    ensures db.Valid()
    ensures ToggleOutcome(old(db.users), me, id, digits).Err? ==>
              r == Err(ToggleOutcome(old(db.users), me, id, digits).failure) && db.users == old(db.users)
    ensures ToggleOutcome(old(db.users), me, id, digits).Ok? ==>
              var (j, u) := ToggleOutcome(old(db.users), me, id, digits).value;
              r == Ok(u) && db.users == old(db.users)[j := u]
  {
    var o := ToggleOutcome(db.users, me, id, digits);
    match o
    case Err(f) => r := Err(f);
    case Ok((j, u)) =>
      var users := db.users[j := u];
      assert forall k :: 0 <= k < |users| ==> users[k].key < db.nextKey && Stored(users[k]);
      Database.WriteUsers(db, users);
      r := Ok(u);
  }
}

=== FILE: web_book_pickup.dfy ===
/**
 * The booking form of customer-web/src/pages/BookPickup.jsx: a date, a time
 * slot, a free-text address and a set of chosen categories, submitted as a
 * create-booking request with one kilogram per category and cash.  The
 * request is returned as a value; sending it is not part of this model.
 */
module WebBookPickup {
  import opened Wrappers
  import opened Text
  import Seqs
  import opened BookingModel
  import BookingRoutes

  // ---------------------------------------------------------------- time slots

  /** The slot labels the page offers, as written. */
  const TimeSlotLabelsAsWritten: seq<string> := [
    "8:00 AM - 10:00 AM", "10:00 AM - 12:00 PM", "12:00 PM - 2:00 PM",
    "2:00 PM - 4:00 PM", "4:00 PM - 6:00 PM", "6:00 PM - 8:00 PM"]

  /**
   * As written, no offered slot, and in particular the form's default, is one
   * the booking schema accepts: a submitted form is refused by the server
   * whatever else it holds.
   */
  lemma AsWrittenSlotsRejected(key: Key, user: Key, items: seq<Item>, estimated: int, address: BookingAddress,
                               scheduledDate: Option<int>, slot: string, notes: string, paymentMethod: string,
                               now: Instant, digits: string)
    requires WellFormedInstant(now) && AllLowerBase36(digits)
    requires slot in TimeSlotLabelsAsWritten
    ensures ParseTimeSlot(slot).None?
    ensures BookingRoutes.CreatedBooking(key, user, items, estimated, address, scheduledDate, slot, notes, paymentMethod, now, digits).Err?
  {
    assert forall s :: s in TimeSlotLabelsAsWritten ==> s !in TimeSlotNames;
  }

  /** The slots the form should offer: the six the booking schema accepts, in the same order. */
  const TimeSlots: seq<string> := ["8AM-10AM", "10AM-12PM", "12PM-2PM", "2PM-4PM", "4PM-6PM", "6PM-8PM"]

  /** With the schema's slot names, a form with an address and a date is accepted by the server under any offered slot. */
  lemma CorrectedSlotsAccepted(key: Key, user: Key, items: seq<Item>, estimated: int, address: BookingAddress,
                               scheduledDate: Option<int>, slot: string, notes: string,
                               now: Instant, digits: string)
    requires WellFormedInstant(now) && AllLowerBase36(digits)
    requires slot in TimeSlots && address.fullAddress != "" && scheduledDate.Some?
    ensures ParseTimeSlot(slot).Some?
    ensures BookingRoutes.CreatedBooking(key, user, items, estimated, address, scheduledDate, slot, notes, "cash", now, digits).Ok?
  {
    assert TimeSlots == TimeSlotNames;
    assert ParsePaymentMethod("cash").Some?;
  }

  // ---------------------------------------------------------------- the form

  datatype Form = Form(pickupDate: string, timeSlot: string, address: string, items: seq<Key>, notes: string)

  const DayMs: int := 24 * 60 * 60 * 1000

  /**
   * The form the page is meant to open with: tomorrow's date (`isoDate`
   * renders a time as its `YYYY-MM-DD` date), the first slot under the name the
   * booking schema accepts, nothing else filled in.
   */
  function DefaultFormCorrected(now: int, isoDate: int -> string): (f: Form)
    ensures f.pickupDate == isoDate(now + DayMs)
    ensures f.timeSlot == TimeSlots[0] && f.timeSlot in TimeSlotNames
    ensures f.address == "" && f.items == [] && f.notes == ""
  {
    Form(isoDate(now + DayMs), TimeSlots[0], "", [], "")
  }

  /** The as-written default: the same form with the page's own first slot label. */
  function DefaultFormAsWritten(now: int, isoDate: int -> string): (f: Form)
    ensures f.timeSlot == TimeSlotLabelsAsWritten[0] && ParseTimeSlot(f.timeSlot).None?
    ensures f == DefaultFormCorrected(now, isoDate).(timeSlot := TimeSlotLabelsAsWritten[0])
  {
    assert TimeSlotLabelsAsWritten[0] !in TimeSlotNames;
    Form(isoDate(now + DayMs), TimeSlotLabelsAsWritten[0], "", [], "")
  }

  predicate Other(x: Key, id: Key) { x != id }

  /** `toggleItem`: a category id is removed when chosen, and appended when not. */
  function Toggled(ids: seq<Key>, id: Key): (r: seq<Key>)
    ensures id in r <==> id !in ids
    ensures forall x :: x != id ==> (x in r <==> x in ids)
    ensures id !in ids ==> r == ids + [id]
  {
    if id in ids then Seqs.Filter(ids, x => Other(x, id)) else ids + [id]
  }

  /** Toggling twice restores which categories are chosen; starting from an unchosen one it restores the list itself. */
  lemma ToggleTwiceRestores(ids: seq<Key>, id: Key)
    ensures forall x :: x in Toggled(Toggled(ids, id), id) <==> x in ids
    ensures id !in ids ==> Toggled(Toggled(ids, id), id) == ids
  {
    if id !in ids {
      var p := (x: Key) => Other(x, id);
      Seqs.FilterAppend(ids, [id], p);
      forall i | 0 <= i < |ids| ensures p(ids[i]) {
        assert ids[i] in ids;
      }
      Seqs.FilterAll(ids, p);
    }
  }

  /** The create-booking request the page sends. */
  datatype BookingRequest = BookingRequest(
    scheduledDate: string,
    timeSlot: string,
    address: BookingAddress,
    items: seq<BookingRoutes.ItemRequest>,
    notes: string,
    paymentMethod: string)

  function OneKg(ids: seq<Key>): (r: seq<BookingRoutes.ItemRequest>)
    ensures |r| == |ids|
    ensures forall i :: 0 <= i < |ids| ==> r[i] == BookingRoutes.ItemRequest(ids[i], 1)
  {
    if ids == [] then [] else [BookingRoutes.ItemRequest(ids[0], 1)] + OneKg(ids[1..])
  }

  /**
   * `submit`: refused for an address that is blank after trimming, then for no
   * chosen category; otherwise every chosen category is sent at one kilogram,
   * the untrimmed address as the only address field, and cash.
   */
  function Submit(f: Form): (r: Result<BookingRequest>)
    ensures Trim(f.address) == "" ==> r == Err(BadRequest("Please enter your pickup address."))
    ensures Trim(f.address) != "" && f.items == [] ==> r == Err(BadRequest("Please select at least one scrap category."))
    ensures r.Ok? <==> Trim(f.address) != "" && f.items != []
    ensures r.Ok? ==> r.value.address == BookingAddress(f.address, "", "", "")
    ensures r.Ok? ==> |r.value.items| == |f.items|
                      && forall i :: 0 <= i < |f.items| ==> r.value.items[i].category == f.items[i] && r.value.items[i].estimatedWeight == 1
    ensures r.Ok? ==> r.value.paymentMethod == "cash" && r.value.scheduledDate == f.pickupDate && r.value.timeSlot == f.timeSlot
    ensures r.Ok? ==> r.value.notes == f.notes
  {
    if Trim(f.address) == "" then Err(BadRequest("Please enter your pickup address."))
    else if f.items == [] then Err(BadRequest("Please select at least one scrap category."))
    else Ok(BookingRequest(f.pickupDate, f.timeSlot, BookingAddress(f.address, "", "", ""), OneKg(f.items), f.notes, "cash"))
  }

  /** A request the page lets through has the street address the server requires. */
  lemma SubmittedAddressPresent(f: Form)
    requires Submit(f).Ok?
    ensures Submit(f).value.address.fullAddress != ""
  {
  }
}

=== FILE: web_login.dfy ===
/**
 * The sign-in page of customer-web/src/pages/Login.jsx: the phone number is
 * normalised to the +91 form before it is sent, and the page moves from the
 * phone step to the code step once a code has been sent.  The server's
 * replies are parameters of the handlers; the session storage and the
 * navigation after a successful sign-in are not part of this model.
 */
module WebLogin {
  import opened Wrappers
  import opened Text
  import UserModel
  import Database
  import AuthRoutes

  // ---------------------------------------------------------------- phone

  /**
   * `formatPhone`: ten digits become +91 and the digits; twelve digits starting
   * with 91 become + and the digits; anything else is only trimmed.  Non-digit
   * characters are dropped before the digits are counted.
   */
  function FormatPhone(p: string): (r: string)
    ensures |DigitsOf(p)| == 10 ==> r == "+91" + DigitsOf(p)
    ensures |DigitsOf(p)| == 12 && DigitsOf(p)[..2] == "91" ==> r == "+" + DigitsOf(p)
    ensures |DigitsOf(p)| != 10 && !(|DigitsOf(p)| == 12 && DigitsOf(p)[..2] == "91") ==> r == Trim(p)
    ensures r != Trim(p) ==> |r| == 13 && r[..3] == "+91" && forall i :: 1 <= i < 13 ==> IsDigit(r[i])
  {
    var d := DigitsOf(p);
    if |d| == 10 then
      PlusDigits("91", d);
      "+" + ("91" + d)
    else if |d| == 12 && d[..2] == "91" then
      PlusDigits(d[..2], d[2..]);
      assert d[..2] + d[2..] == d;
      "+" + d
    else Trim(p)
  }

  /** `+`, then the country code 91, then ten digits. */
  lemma PlusDigits(cc: string, d: string)
    requires cc == "91" && |d| == 10 && forall i :: 0 <= i < |d| ==> IsDigit(d[i])
    ensures var r := "+" + (cc + d);
            |r| == 13 && r[..3] == "+91" && forall i :: 1 <= i < 13 ==> IsDigit(r[i])
  {
    var r := "+" + (cc + d);
    assert forall i :: 3 <= i < 13 ==> r[i] == d[i - 3];
  }

  lemma SpaceIsNoDigit(c: char)
    requires IsJsSpace(c)
    ensures !IsDigit(c)
  {
  }

  lemma {:induction false} DigitsOfNonDigits(s: string)
    requires forall i :: 0 <= i < |s| ==> !IsDigit(s[i])
    ensures DigitsOf(s) == []
  {
    if s != [] {
      assert !IsDigit(s[0]);
      DigitsOfNonDigits(s[1..]);
    }
  }

  lemma DigitsOfSpaces(s: string, lo: nat, hi: nat)
    requires lo <= hi <= |s| && forall i :: lo <= i < hi ==> IsJsSpace(s[i])
    ensures DigitsOf(s[lo..hi]) == []
  {
    var w := s[lo..hi];
    forall i | 0 <= i < |w| ensures !IsDigit(w[i]) {
      assert w[i] == s[lo + i];
      SpaceIsNoDigit(s[lo + i]);
    }
    DigitsOfNonDigits(w);
  }

  lemma DigitsOfTrimStart(p: string)
    ensures DigitsOf(TrimStart(p)) == DigitsOf(p)
  {
    var t := TrimStart(p);
    var k := |p| - |t|;
    assert p == p[..k] + t;
    DigitsOfSpaces(p, 0, k);
    assert p[0..k] == p[..k];
    DigitsOfAppend(p[..k], t);
  }

  lemma DigitsOfTrimEnd(t: string)
    ensures DigitsOf(TrimEnd(t)) == DigitsOf(t)
  {
    var r := TrimEnd(t);
    assert t == r + t[|r|..];
    DigitsOfSpaces(t, |r|, |t|);
    assert t[|r|..|t|] == t[|r|..];
    DigitsOfAppend(r, t[|r|..]);
  }

  /** Trimming drops only white space, so it keeps every digit. */
  lemma DigitsOfTrim(p: string)
    ensures DigitsOf(Trim(p)) == DigitsOf(p)
  {
    assert Trim(p) == TrimEnd(TrimStart(p));
    DigitsOfTrimStart(p);
    DigitsOfTrimEnd(TrimStart(p));
  }

  /** The digits of a number already in the +91 form are 91 and the ten digits. */
  lemma DigitsOfPlus(d: string)
    requires forall i :: 0 <= i < |d| ==> IsDigit(d[i])
    ensures DigitsOf("+" + d) == d
  {
    DigitsOfAppend("+", d);
    DigitsOfDigits(d);
    assert DigitsOf("+") == [];
  }

  lemma FormatTen(d: string)
    requires |d| == 10 && forall i :: 0 <= i < |d| ==> IsDigit(d[i])
    ensures FormatPhone("+91" + d) == "+91" + d
  {
    var e := "91" + d;
    assert "+91" + d == "+" + e;
    assert forall i :: 0 <= i < |e| ==> IsDigit(e[i]);
    DigitsOfPlus(e);
    assert e[..2] == "91";
  }

  lemma FormatTwelve(d: string)
    requires |d| == 12 && d[..2] == "91" && forall i :: 0 <= i < |d| ==> IsDigit(d[i])
    ensures FormatPhone("+" + d) == "+" + d
  {
    DigitsOfPlus(d);
  }

  /** Formatting a formatted number changes nothing. */
  lemma FormatPhoneIdempotent(p: string)
    ensures FormatPhone(FormatPhone(p)) == FormatPhone(p)
  {
    var d := DigitsOf(p);
    if |d| == 10 {
      FormatTen(d);
    } else if |d| == 12 && d[..2] == "91" {
      FormatTwelve(d);
    } else {
      DigitsOfTrim(p);
      TrimIdempotent(p);
    }
  }

  // ---------------------------------------------------------------- guards

  /** The send guard: a phone that is blank after trimming is refused. */
  function SendRefusal(phone: string): (r: Option<string>)
    ensures r.Some? <==> Trim(phone) == ""
    ensures r.Some? ==> r.value == "Please enter your phone number."
  {
    if Trim(phone) == "" then Some("Please enter your phone number.") else None
  }

  /** The verify guard: a blank code or one shorter than 4 characters is refused, with a message asking for 6 digits. */
  function VerifyRefusal(otp: string): (r: Option<string>)
    ensures r.Some? <==> Trim(otp) == "" || |otp| < 4
    ensures r.Some? ==> r.value == "Enter the 6-digit OTP."
  {
    if Trim(otp) == "" || |otp| < 4 then Some("Enter the 6-digit OTP.") else None
  }

  /** Any code the server issues passes the page's guard. */
  lemma IssuedCodePasses(draw: nat)
    requires draw < 900000
    ensures VerifyRefusal(AuthRoutes.GenerateOtp(draw)).None?
  {
    var c := AuthRoutes.GenerateOtp(draw);
    assert !IsJsSpace(c[0]);
    TrimStartOfNonSpace(c);
  }

  lemma TrimStartOfNonSpace(s: string)
    requires s != [] && !IsJsSpace(s[0])
    ensures Trim(s) != ""
  {
    assert TrimStart(s) == s;
  }

  /**
   * The guard is looser than its message: a 4- or 5-character code gets past
   * the page, and the server answers 'Invalid OTP' for an account holding an
   * issued code.
   */
  lemma ShortCodeRefusedByServer(users: seq<UserModel.User>, phone: string, code: string, draw: nat, now: int, digits: string)
    requires draw < 900000 && AllLowerBase36(digits)
    requires phone != "" && 4 <= |code| < 6 && forall i :: 0 <= i < |code| ==> IsDigit(code[i])
    requires Database.FindUserByPhone(users, phone).Some?
    requires users[Database.FindUserByPhone(users, phone).value].otp == Some(AuthRoutes.GenerateOtp(draw))
    ensures VerifyRefusal(code).None?
    ensures AuthRoutes.VerifyOtpOutcome(users, phone, code, now, digits) == Err(BadRequest("Invalid OTP"))
  {
    assert IsDigit(code[0]) && !IsJsSpace(code[0]);
    TrimStartOfNonSpace(code);
  }

  // ---------------------------------------------------------------- the page

  datatype Step = PhoneStep | OtpStep

  /** What the page sends to verify: the formatted phone, the code, and the name when one was typed. */
  datatype VerifyRequest = VerifyRequest(phone: string, otp: string, name: Option<string>)

  class Page {
    var step: Step
    var phone: string
    var name: string
    var otp: string
    var devOtp: string
    var error: string

    constructor ()
      ensures step == PhoneStep && phone == "" && name == "" && otp == "" && devOtp == "" && error == ""
    {
      step := PhoneStep;
      phone := "";
      name := "";
      otp := "";
      devOtp := "";
      error := "";
    }

    /**
     * `sendOtp`, with `reply` the server's answer: a blank phone is refused
     * before anything is sent; otherwise the formatted phone is sent, and on
     * success the page moves to the code step, showing a code the server
     * echoed back.
     */
    method SendOtp(reply: Result<Option<string>>) returns (sent: Option<string>)
      modifies this`step, this`devOtp, this`error
      ensures SendRefusal(old(phone)).Some? ==> sent.None? && error == SendRefusal(old(phone)).value
                                                && step == old(step) && devOtp == old(devOtp)
      ensures SendRefusal(old(phone)).None? ==> sent == Some(FormatPhone(phone))
      ensures SendRefusal(old(phone)).None? && reply.Ok? ==>
                step == OtpStep && error == ""
                && devOtp == (if reply.value.Some? && reply.value.value != "" then reply.value.value else old(devOtp))
      ensures SendRefusal(old(phone)).None? && reply.Err? ==>
                step == old(step) && devOtp == old(devOtp)
                && error == (if reply.failure.message != "" then reply.failure.message else "Failed to send OTP. Try again.")
    {
      error := "";
      var refusal := SendRefusal(phone);
      if refusal.Some? {
        error := refusal.value;
        return None;
      }
      sent := Some(FormatPhone(phone));
      match reply {
        case Ok(echo) =>
          if echo.Some? && echo.value != "" {
            devOtp := echo.value;
          }
          step := OtpStep;
        case Err(f) =>
          error := if f.message != "" then f.message else "Failed to send OTP. Try again.";
      }
    }

    /** `verifyOtp`, with `reply` the server's answer: a refused code sends nothing; a failure shows its message. */
    method VerifyOtp(reply: Result<UserModel.User>) returns (sent: Option<VerifyRequest>)
      modifies this`error
      ensures VerifyRefusal(otp).Some? ==> sent.None? && error == VerifyRefusal(otp).value
      ensures VerifyRefusal(otp).None? ==> sent == Some(VerifyRequest(FormatPhone(phone), otp, if name != "" then Some(name) else None))
      ensures VerifyRefusal(otp).None? && reply.Ok? ==> error == ""
      ensures VerifyRefusal(otp).None? && reply.Err? ==>
                error == (if reply.failure.message != "" then reply.failure.message else "Invalid OTP. Try again.")
    {
      error := "";
      var refusal := VerifyRefusal(otp);
      if refusal.Some? {
        error := refusal.value;
        return None;
      }
      sent := Some(VerifyRequest(FormatPhone(phone), otp, if name != "" then Some(name) else None));
      if reply.Err? {
        error := if reply.failure.message != "" then reply.failure.message else "Invalid OTP. Try again.";
      }
    }

    /** 'Change phone number': back to the phone step with the code, the error and the echoed code cleared. */
    method ChangePhone()
      modifies this`step, this`otp, this`error, this`devOtp
      ensures step == PhoneStep && otp == "" && error == "" && devOtp == ""
    {
      step := PhoneStep;
      otp := "";
      error := "";
      devOtp := "";
    }
  }
}

=== FILE: wrappers.dfy ===
/** Optional values and the error responses every route handler can produce. */
module Wrappers {

  datatype Option<+T> = None | Some(value: T)
  {
    function GetOr(default: T): T
    {
      match this
      case Some(v) => v
      case None => default
    }
  }

  /** The failure responses of the REST API, by HTTP meaning; the message is the one the handler sends. */
  datatype Failure =
    | BadRequest(message: string)   // 400
    | Unauthorized(message: string) // 401
    | Forbidden(message: string)    // 403
    | NotFound(message: string)     // 404
    | ServerError(message: string)  // 500: an exception handed to next(error), e.g. a failed schema validation

  datatype Result<+T> = Ok(value: T) | Err(failure: Failure)

  /** Object ids of the document store. */
  type Key = nat
}
